=== FILE: README.md ===
# keycloak-poc session core, modelled in Dafny

The keycloak-poc backend is a FastAPI service for a radiology reading room.
Keycloak authenticates its users, and Redis holds their live state. This
project models the sequential logic under the service's glue and proves
properties of it. External stores appear as abstract state: maps, sets and
sequences. Clocks, generated ids, JSON encoding and failure points are
parameters.

The project has one module per source file:

- `Common` (common.dfy): `Option`/`Result`, a `Json` value type, Python
  truthiness, `str.strip`, `str.replace`, and sequence helpers (`Filter`,
  `MapSeq`, and `Enumerate` for set iteration in an unspecified order).
- `SessionModels` (session_models.dfy): the `AppType` enum and the pydantic
  validators of `models/session_models.py`. This includes `SessionState`'s
  `extra="forbid"`.
- `UserSchema` (user_schema.dfy): the username, NPI and password rules and
  the length bounds of `schemas/user.py`.
- `AuthClaims` (auth_claims.dfy): the claim checks of
  `AuthService.verify_token`, which run on an already decoded claims map, and
  `_extract_roles`.
- `Security` (security.dfy): `verify_token`'s session-presence check and
  roles projection, and `require_role` with its three fixed guards.
- `UsersApi` (users_api.dfy): the user-management handlers. Each one is a
  function returning the identity-provider calls it makes and its outcome.
  The provider's answers are inputs. `create_user`, `list_users`, `get_user`
  and `update_user` have an as-written version and a corrected one (see
  Findings).
- `ConnectionRegistry` (connection_registry.dfy): `WebSocketService`'s two
  linked Redis structures. These are the `ws_connection:<id>` records and the
  `ws_user:<uid>` id sets. Every operation on them is a transition over the
  pair.
- `StreamStore` (stream_store.dfy): a Redis stream server with consumer
  groups and pending-entry lists. It covers `_init_consumer_group`,
  `add_to_stream` and `claim_pending_messages`.
- `StreamReader` (stream_reader.dfy): the `read_stream` consumer loop as an
  explicit state machine. It has an error counter, capped linear backoff, a
  stop after five consecutive errors, a keep-alive on empty reads, and
  acknowledgement only after the consumer resumes.
- `SessionManagement` (session_management.dfy): the session and event
  tables, the stream-entry mapping, and the session-state projection.
- `LegacySession` (legacy_session.dfy): `SessionService`'s per-user
  `session:<uid>` hash. It covers field merging, the connection list and key
  listing.
- `SessionApi` (session_api.dfy): the path validators and the open, close,
  status, listing and logout handlers of `api/session.py`.

## Model

| member | source | states |
|---|---|---|
| SessionModels.ParseAppType | backend/app/models/session_models.py:15-21 | A string parses to the AppType whose value it is, and fails exactly when no AppType has that value |
| SessionModels.AppTypesAreExactlyFour | backend/app/models/session_models.py:15-21 | There are exactly four app types, their values are distinct, and every value parses back to its own type |
| SessionModels.ValidateUserid | backend/app/models/session_models.py:46-53 | Blank input is rejected as empty, and a stripped length below 3 is rejected. Otherwise the stripped value is returned |
| SessionModels.ValidateUseridIdempotent | backend/app/models/session_models.py:46-53 | A validated user id re-validates to itself |
| SessionModels.ValidateRequestStudyId | backend/app/models/session_models.py:63-76 | Accepted iff not blank, and then returned stripped and non-empty. The empty string fails the min_length check rather than the validator |
| SessionModels.ValidateRequestStudyIdIdempotent | backend/app/models/session_models.py:71-76 | A validated study id re-validates to itself |
| SessionModels.ValidatePatientName | backend/app/models/session_models.py:197-202 | Accepted iff not blank, returned stripped |
| SessionModels.ValidatePatientBirthday | backend/app/models/session_models.py:204-210 | Accepted iff non-empty, returned unchanged |
| SessionModels.PatientFieldsRevalidate | backend/app/models/session_models.py:197-210 | A validated name and a validated birthday validate again to themselves. A whitespace-only value is a valid birthday but not a valid name |
| SessionModels.ValidateSampleRate | backend/app/models/session_models.py:232-238 | Accepted iff one of 8000, 16000, 22050, 44100, 48000; the error text lists them |
| SessionModels.DefaultSampleRateIsValid | backend/app/models/session_models.py:223-238 | The default rate 16000 passes the validator |
| SessionModels.NewSessionState | backend/app/models/session_models.py:24-60 | Construction succeeds iff every keyword is a declared field and `userid` is present and valid. An error names exactly the undeclared keywords |
| SessionModels.UserIdKeywordIsRejected | backend/app/models/session_models.py:24-60 | A `user_id` keyword is always rejected as an extra field |
| UserSchema.ValidateUsernameAsWritten | backend/app/schemas/user.py:30-36 | The username check as written, with Python `$` semantics: the length must be 3..50 and the pattern as written must match |
| UserSchema.ValidateUsername | backend/app/schemas/user.py:30-36 | Accepted iff the length is 3..50 and every character is a letter, digit, `_` or `-`. The result is the input lower-cased character by character, and it has no upper-case letters |
| UserSchema.LowerCaseUsernameIsKept | backend/app/schemas/user.py:30-36 | A valid username without upper-case letters is returned unchanged |
| UserSchema.ValidateUsernameIdempotent | backend/app/schemas/user.py:30-36 | A validated username re-validates to itself |
| UserSchema.UsernameTrailingNewlineGap | backend/app/schemas/user.py:30-36 | "abc\n" passes the check as written but fails the intended one |
| UserSchema.UsernameAsWrittenAcceptsMore | backend/app/schemas/user.py:30-36 | Both checks agree on every username the intended check accepts. The only extra inputs the written check accepts are a valid name followed by one newline |
| UserSchema.ValidateNpi | backend/app/schemas/user.py:38-42 | An absent or empty NPI passes. Anything else passes iff it is exactly ten ASCII digits. A longer value is rejected as too long |
| UserSchema.ValidatePassword | backend/app/schemas/user.py:46-61 | Accepted iff the length is at least 12 and it has an upper-case letter, a lower-case letter, a digit and a special character. "Too short" is reported iff the length is below 12. Otherwise the first missing class, in the order upper-case, lower-case, digit, special, is the one reported, and each error is reported iff it is that first missing class |
| UserSchema.PasswordExtensionStaysStrong | backend/app/schemas/user.py:46-61 | A valid password stays valid with text added at either end |
| UserSchema.PasswordExamples | backend/tests/test_users.py:57-75 | "SecurePassword123!" is accepted; "weak" is rejected as too short |
| UserSchema.ValidateUserCreate | backend/app/schemas/user.py:9-61 | With the corrected username rule (see Findings), a create request validates iff every field rule holds. Failures name the failing password or username field. On success the username is normalised, the role defaults to "user", and the password and NPI are kept |
| UserSchema.UsernameExample | backend/tests/test_users.py:57-79 | "validuser" validates to itself |
| UserSchema.UserCreateExamples | backend/tests/test_users.py:57-79 | The valid request validates. The same request with password "weak" or NPI "123" does not |
| UserSchema.ValidateUserUpdate | backend/app/schemas/user.py:77-88 | An update validates iff each supplied field meets its bounds and a supplied NPI is valid. The update is returned unchanged, and a supplied empty first name is rejected |
| AuthClaims.Extended | backend/app/services/auth_service.py:199-204 | A roles value extends into a set iff it is a string, a dict, or a list of hashable items. A list gives its items, a string its one-character strings, a dict its keys |
| AuthClaims.ExtractRoles | backend/app/services/auth_service.py:185-206 | A role is in the result iff it is in the realm roles or in resource_access[client_id]'s roles. It fails iff an access block is not a dict, or its roles cannot be extended into a set |
| AuthClaims.RealmOnlyRoles | backend/app/services/auth_service.py:197-206 | With only a realm block, the roles are exactly what its roles value extends to |
| AuthClaims.StringRolesAreCharacters | backend/app/services/auth_service.py:199 | Realm roles given as the string "admin" yield the roles "a", "d", "m", "i", "n" |
| AuthClaims.DictRolesAreKeys | backend/app/services/auth_service.py:199 | Realm roles given as the dict {"admin": true} yield the role "admin" |
| AuthClaims.ListAndScalarRoles | backend/app/services/auth_service.py:199-204 | A list keeps a non-string item such as 1. A nested list, or a number instead of a list, fails verification |
| AuthClaims.NoAccessBlocksNoRoles | backend/app/services/auth_service.py:195-206 | With neither access claim, the role set is empty |
| AuthClaims.VerifyClaims | backend/app/services/auth_service.py:65-183 | The checks run in the order sub, exp, iss, aud, and the first failing check decides the error. An exp that is truthy but not a convertible number, roles that do not extract, and roles that are not all strings each give 500 "Authentication verification failed". On success the info carries sub, session_state and preferred_username unchanged, plus the extracted roles, all of them strings. Extracted roles that are not all strings fail, because the closing debug message joins them |
| AuthClaims.VerifyClaimsAcceptsIffAllHold | backend/app/services/auth_service.py:70-164 | A token passes iff sub is present, it is not expired, the issuer matches, the audience accepts, and the roles extract and are all strings |
| AuthClaims.NumericRoleFailsVerification | backend/app/services/auth_service.py:162-183 | Realm roles ["admin", 1] extract, but the token fails with 500 "Authentication verification failed" |
| AuthClaims.ExpiryBoundary | backend/app/services/auth_service.py:80-98 | exp equal to now passes, exp one second earlier is expired, and a token without exp passes |
| AuthClaims.ZeroExpiryNeverExpires | backend/app/services/auth_service.py:80-98 | exp = 0 is falsy, so the expiry check is skipped |
| AuthClaims.StringAudienceIsSingletonList | backend/app/services/auth_service.py:115-129 | A string audience is judged exactly like the one-element list holding it |
| Security.VerifyToken | backend/app/core/security.py:20-69 | The result is Ok iff the user info has sub, preferred_username and email, the store has a session for sub, and the roles project. A missing session gives "Session expired". Other failures give the generic 401. The result has exactly four keys, copied from the info |
| Security.VerifyTokenRolesDefaultEmpty | backend/app/core/security.py:58-62 | Without realm_access the roles are the empty list |
| Security.RoleChecker | backend/app/core/security.py:99-111 | The user is returned unchanged iff the required role is among its roles. A missing roles key counts as an empty list and gives 403 "Role '<r>' required" |
| Security.RoleCheckerOnRoleList | backend/app/core/security.py:99-111 | With a roles list, access is granted iff the role is in it. With no roles key it is refused |
| Security.Require | backend/app/core/security.py:117-119 | The admin, clinician and nurse guards pass iff the user has that fixed role. When the roles are a list without it, the 403 names the role |
| Security.GuardsAreDistinct | backend/app/core/security.py:117-119 | An admin passes the admin guard and is refused by the clinician and nurse guards |
| UsersApi.ResponseNeverValidates | backend/app/schemas/user.py:64-71 | The arguments the handlers pass to UserResponse never validate: is_active is missing, and created_at and updated_at are None |
| UsersApi.CreatePayload | backend/app/api/users.py:52-74 | The account payload has exactly the listed keys. It is enabled, has an unverified e-mail, and records the creator and the role. Credentials are attached iff a password is supplied |
| UsersApi.ProviderCreate | backend/app/services/keycloak_service.py:60-105 | The service raises AttributeError iff it is given a dict rather than the request model. Otherwise it returns the new id, or raises the provider's refusal |
| UsersApi.CreateAnswerAsWritten | backend/app/api/users.py:76-104 | After the service call, as written: AttributeError is a 500 with no account created. A refusal is a 400 naming the provider's error. A created account is fetched, and a failed fetch is a 400 "User not found". No path answers with the account |
| UsersApi.CreateUserAsWritten | backend/app/api/users.py:21-104 | The handler as written: a non-admin gets the guard's error. Every admin request ends in 500 "Failed to create user", after at most the two lookups and without any create call |
| UsersApi.CreateUser | backend/app/api/users.py:21-104 | Corrected handler. A non-admin gets the guard's error. A bad role is refused before any provider call. The username is checked before the e-mail, and either duplicate aborts. A provider refusal is a 400 naming it. Success needs the created account fetched with id, username and email. It takes four calls: the two lookups, the create, and the fetch of the new id. It answers with that account |
| UsersApi.CreateUserAsWrittenNeverCreates | backend/app/api/users.py:29-104 | The calls made as written are a prefix of the corrected handler's calls. Where the corrected handler succeeds, the handler as written answers 500 after the two lookups. A bad role is a 400 corrected and a 500 as written |
| UsersApi.ListUsers | backend/app/api/users.py:110-153 | Corrected listing. It succeeds iff every user can be listed, and then views exactly the users the role filter keeps, in order |
| UsersApi.ListUsersWithoutFilterKeepsAll | backend/app/api/users.py:124-146 | Corrected listing: with no role filter, every user is listed |
| UsersApi.ListUsersAsWritten | backend/app/api/users.py:124-153 | The listing as written answers only with an empty list. Every failure is 500 "Failed to list users" |
| UsersApi.ListUsersEmptyIffNoneKept | backend/app/api/users.py:124-146 | The corrected listing is empty and succeeds iff every user's role evaluates and the filter keeps nobody |
| UsersApi.ListUsersAsWrittenAnswersOnlyEmpty | backend/app/api/users.py:128-153 | As written, the listing is answered iff the filter keeps nobody, exactly where the corrected listing is empty. Without a filter, any non-empty page is a 500 |
| UsersApi.AccessRuleOnTokenUser | backend/app/api/users.py:164-170 | Access is allowed iff the target is the caller's own keycloak_id or the caller has role admin |
| UsersApi.GetUser | backend/app/api/users.py:157-197 | Corrected handler. The result is 403 iff access is refused. Otherwise it is the fetched user's id, username and email, or a 404 |
| UsersApi.GetUserAsWritten | backend/app/api/users.py:173-197 | As written, the answer is 403 when access is refused and 404 "User not found" otherwise, for every fetched account |
| UsersApi.UpdatePayload | backend/app/api/users.py:218-238 | firstName and lastName are present iff supplied. The existing e-mail is carried over iff there is one, and no other key appears |
| UsersApi.UpdateUser | backend/app/api/users.py:201-283 | Corrected handler. The update is refused iff access is refused, and then no call is made. Otherwise the account is fetched first. When the fetch succeeds, the mapped update is sent second, and an accepted update is followed by a second fetch. Success needs all three. It answers with the second fetch's fields, and every other failure is a 404 |
| UsersApi.UpdateUserAsWritten | backend/app/api/users.py:228-283 | As written, the answer is 403 when access is refused and 404 "Failed to update user" otherwise |
| UsersApi.UpdateUserAsWrittenFailsAfterSending | backend/app/api/users.py:250-283 | When access is allowed and the provider answers every call, the corrected handler succeeds. The handler as written sends the update between two fetches and still answers 404 |
| UsersApi.ReadAndUpdateShareAccessRule | backend/app/api/users.py:209-215 | Reading and updating refuse exactly the same callers, in the corrected handlers and as written |
| UsersApi.ActivationPayload | backend/app/api/users.py:323-331 | The payload sets enabled to the requested flag and records who changed it and when |
| UsersApi.SetEnabled | backend/app/api/users.py:316-341 | A non-admin makes no call. An admin makes exactly one update carrying the flag. Success yields the activated or deactivated message |
| UsersApi.DeactivateThenActivate | backend/app/api/users.py:374-398 | Deactivate sends enabled=false and activate sends enabled=true, one call each |
| ConnectionRegistry.Register | backend/app/services/websocket_service.py:62-115 | Stores a record with the given ids and app type and equal connect and activity times. It adds the id to that user's set only and keeps the two structures linked |
| ConnectionRegistry.Unregister | backend/app/services/websocket_service.py:117-153 | Returns true iff a record existed. It removes the record and the owner's membership, and changes nothing when absent |
| ConnectionRegistry.UnregisterTwice | backend/app/services/websocket_service.py:131-149 | A second unregister returns false and changes nothing |
| ConnectionRegistry.RegisterThenUnregister | backend/app/services/websocket_service.py:85-149 | Registering then unregistering a new id restores the records and the user's set |
| ConnectionRegistry.GetConnectionStatus | backend/app/services/websocket_service.py:155-197 | Connected iff some id in the user's set has a live record of the requested app type. That id and its times are returned; otherwise every field is empty |
| ConnectionRegistry.InfosOfCoverLiveIds | backend/app/services/websocket_service.py:213-231 | The listed ids are exactly the set members that still have a record |
| ConnectionRegistry.GetUserConnections | backend/app/services/websocket_service.py:199-235 | One entry per set member with a record, each built from that record, without duplicates |
| ConnectionRegistry.UnregisterAllCount | backend/app/services/websocket_service.py:254-266 | The count is the number of ids that had a record |
| ConnectionRegistry.DisconnectUserConnections | backend/app/services/websocket_service.py:237-270 | Returns the number of the user's ids that had records and removes those records. Orphan ids stay in the set |
| ConnectionRegistry.NotifyDictationApp | backend/app/services/websocket_service.py:272-303 | A notification is sent iff the user has a live dictation connection |
| ConnectionRegistry.BroadcastToAppType | backend/app/services/websocket_service.py:305-348 | The number notified is the number of records of that app type |
| ConnectionRegistry.CountAppsSum | backend/app/services/websocket_service.py:460-477 | The per-app counts add up to the number of ids that have records |
| ConnectionRegistry.CountByAppType | backend/app/services/websocket_service.py:449-481 | An app type appears iff it has a record, each count is its number of records, and the counts sum to the total |
| ConnectionRegistry.UpdateConnectionActivity | backend/app/services/websocket_service.py:350-385 | Returns false and changes nothing when the record is absent. Otherwise only last_activity changes |
| ConnectionRegistry.CleanupOne | backend/app/services/websocket_service.py:419-432 | With a string clock nothing happens, because the subtraction raises and is caught. With a time value a record is removed iff it is stale |
| ConnectionRegistry.CleanupOverCount | backend/app/services/websocket_service.py:423-431 | The cleaned count is the number of stale records visited |
| ConnectionRegistry.CleanupWith | backend/app/services/websocket_service.py:387-447 | A string clock removes nothing. A time value removes exactly the stale records and counts them |
| ConnectionRegistry.CleanupStaleConnectionsAsWritten | backend/app/services/websocket_service.py:387-447 | As written, with the ISO-string clock: nothing is removed and 0 is returned |
| ConnectionRegistry.CleanupStaleConnections | backend/app/services/websocket_service.py:387-447 | Removes exactly the records whose age strictly exceeds the limit and returns their number. Afterwards no remaining record is older than the limit |
| ConnectionRegistry.CleanupAsWrittenMissesStaleConnection | backend/app/services/websocket_service.py:419-432 | A linked registry with one connection two hours idle has a stale id that the written cleanup keeps |
| StreamStore.OrDefault | backend/app/services/redis_service.py:167-168 | A falsy argument is replaced by the default |
| StreamStore.XGroupCreate | backend/app/services/redis_service.py:68-69 | Group creation fails with BUSYGROUP when the group exists. Otherwise it creates the stream if needed, adds an empty group, and leaves everything else alone |
| StreamStore.EnsureGroup | backend/app/services/redis_service.py:183-191 | Succeeds iff there is no error or the error is BUSYGROUP, and any other error propagates. Afterwards the group exists, and an existing group is left untouched |
| StreamStore.BusyGroupReplyIsBusy | backend/app/services/redis_service.py:72-73 | The server's reply for an existing group is recognised as BUSYGROUP |
| StreamStore.EnsureGroupIdempotent | backend/app/services/redis_service.py:65-77 | Ensuring the group a second time changes nothing |
| StreamStore.InitConsumerGroup | backend/app/services/redis_service.py:65-77 | Startup group creation tolerates BUSYGROUP and re-raises any other error |
| StreamStore.EventFields | backend/app/services/redis_service.py:129 | The entry holds every data field, and "event" is the event type unless the data overrides it |
| StreamStore.XAdd | backend/app/services/redis_service.py:127-132 | Appends one entry to the named stream and leaves every other stream and the groups unchanged |
| StreamStore.AddToStream | backend/app/services/redis_service.py:109-137 | No client raises. A server error propagates. Success appends exactly one entry with the merged fields and returns its id |
| StreamStore.AddToStreamKeepsPayload | backend/app/services/redis_service.py:127-134 | The last entry has the returned id and every payload field |
| StreamStore.Window | backend/app/services/redis_service.py:288-290 | At most 100 pending entries are considered, taken from the front |
| StreamStore.ClaimPage | backend/app/services/redis_service.py:295-313 | Only entries idle at least min_idle_time are claimed, and the count is the number claimed. On a failure part-way through, what was claimed stays claimed and 0 is returned |
| StreamStore.ClaimPending | backend/app/services/redis_service.py:261-317 | No client raises, and a missing consumer name raises. No group, or an error at the first step, returns 0 unchanged. Otherwise the claim is made as in ClaimPage |
| StreamStore.NoneClaimable | backend/app/services/redis_service.py:300-310 | With no idle-enough entry, nothing is claimed |
| StreamStore.ClaimAgainFindsNothing | backend/app/services/redis_service.py:300-310 | Right after a complete claim with a positive idle limit, claiming again finds nothing |
| StreamReader.BackoffSeconds | backend/app/services/redis_service.py:244 | The sleep is at most 30 seconds, and twice the error count while that stays below 30 |
| StreamReader.Failed | backend/app/services/redis_service.py:232-258 | An error increments the counter. At five errors the reader stops without sleeping; below that it sleeps for the backoff |
| StreamReader.Step | backend/app/services/redis_service.py:193-258 | A stopped reader ignores everything, and cancellation stops it. Errors go through Failed. An empty read is one keep-alive that acks nothing. A successful read resets the counter and does not sleep |
| StreamReader.StartReader | backend/app/services/redis_service.py:166-191 | A missing consumer name raises before any group creation. Otherwise the reader starts iff the group exists or is created |
| StreamReader.DeliverKeepsAcks | backend/app/services/redis_service.py:207-221 | After a batch, the acked ids are exactly the deliveries the consumer resumed from |
| StreamReader.DeliverStopsOnlyByConsumer | backend/app/services/redis_service.py:207-221 | Delivering a batch stops the reader only by the consumer's cancel or close |
| StreamReader.RunKeepsGood | backend/app/services/redis_service.py:193-258 | Every run keeps acks equal to resumed deliveries, keeps the counter below the limit while running, and keeps every sleep in 2, 4, 6, 8 |
| StreamReader.ReaderFacts | backend/app/services/redis_service.py:193-258 | From the start, the acked ids are those resumed, and every sleep is 2, 4, 6 or 8 seconds |
| StreamReader.ConsecutiveErrorsStop | backend/app/services/redis_service.py:232-256 | n consecutive errors stop the reader exactly when the counter reaches five; before that it keeps running |
| StreamReader.RunStoppedIsFinal | backend/app/services/redis_service.py:226-256 | A stopped reader stays stopped |
| StreamReader.FiveErrorsFromStart | backend/app/services/redis_service.py:179-258 | Five errors from the start sleep 2, 4, 6, 8 and then stop for too many errors |
| StreamReader.SuccessResetsBackoff | backend/app/services/redis_service.py:204-205 | After a successful read, the next error sleeps 2 seconds again |
| StreamReader.KeepAliveAcksNothing | backend/app/services/redis_service.py:222-224 | An empty read acks nothing and yields one keep-alive |
| StreamReader.CancellationStopsQuietly | backend/app/services/redis_service.py:226-230 | Cancellation stops the reader without counting an error or sleeping |
| StreamReader.DeliverReachesEnd | backend/app/services/redis_service.py:208-221 | A batch ending in a cancel or close leaves the reader stopped |
| SessionManagement.SessionIdFor | backend/app/services/session_management_service.py:62-65 | The session id is the session_state claim when it is truthy, otherwise the fresh id |
| SessionManagement.GetOrCreateSession | backend/app/services/session_management_service.py:48-89 | Fails iff sub is missing. Otherwise it creates a row with userid = sub when none exists, or touches only last_updated. No other row or event changes |
| SessionManagement.GetOrCreateTwice | backend/app/services/session_management_service.py:62-89 | Two calls with the same session_state return the same id, leave one row, and keep the first owner |
| SessionManagement.StoredData | backend/app/services/session_management_service.py:132 | Event data is stored as JSON, or as null when it is absent or empty |
| SessionManagement.CreateSessionEvent | backend/app/services/session_management_service.py:91-149 | Appends exactly one event with the given id and time. Sessions are unchanged, and the returned dict echoes the event |
| SessionManagement.StreamFields | backend/app/services/session_management_service.py:174-182 | The entry has exactly the seven fields: event, user_id = sub, session_id, event_id, source, the JSON target, and the data, or "{}" when there is none |
| SessionManagement.PublishToStream | backend/app/services/session_management_service.py:151-196 | Returns an id iff there is a client, sub and no failure; then exactly that entry is appended. Otherwise it returns null and the stream is unchanged |
| SessionManagement.PublishWithoutPayload | backend/app/services/session_management_service.py:174-182 | Without a payload the last entry's data is "{}" and its user_id is sub |
| SessionManagement.GetSessionState | backend/app/services/session_management_service.py:198-278 | Three shapes. With no session_state there is no id and no events. With an unknown id there are no events. Otherwise the session's events are listed, in insertion order (see Left out). The user fields are copied, and roles default to [] |
| SessionManagement.CreatedEventIsListedLast | backend/app/services/session_management_service.py:198-278 | In the insertion order the model chooses (see Left out), a created event appears last in the next session-state listing, after the earlier ones |
| LegacySession.SessionKey | backend/app/services/session_service.py:28-38 | The key is "session:" followed by the user id |
| LegacySession.GetSession | backend/app/services/session_service.py:40-97 | No pool raises. An empty hash or unparsable JSON gives the default session. Otherwise the stored fields are read back, with last_activity defaulting to now |
| LegacySession.GetSessionAsWritten | backend/app/services/session_service.py:40-97 | The read as written builds SessionState with keywords it does not declare |
| LegacySession.GetSessionAsWrittenAlwaysFails | backend/app/services/session_service.py:60-94 | On every store the written read fails validation, naming user_id, active_connections and last_activity as extra |
| LegacySession.KwargValue | backend/app/services/session_service.py:152-159 | Lists and dicts are JSON-encoded, datetimes pass through, and strings are kept |
| LegacySession.ExtraFields | backend/app/services/session_service.py:152-159 | Exactly the non-None keyword arguments are written, each converted by KwargValue |
| LegacySession.UpdateData | backend/app/services/session_service.py:132-159 | Extra fields are written as converted. Every other field is the named update |
| LegacySession.UpdateDataWrites | backend/app/services/session_service.py:132-149 | user_id and last_activity are always written. Each optional field is written iff its argument is given, and nothing else appears |
| LegacySession.UpdateSession | backend/app/services/session_service.py:99-174 | Over the corrected read (GetSession). No pool raises, and a datetime value fails encoding. Otherwise the hash is merged so that written fields replace and others stay. Other keys are untouched, and the returned session is what a read gives back |
| LegacySession.UpdateWithNoneClearsNothing | backend/app/services/session_service.py:132-149 | Over the corrected read (GetSession), an update with every argument None keeps the study, time, connections and metadata |
| LegacySession.ClearSession | backend/app/services/session_service.py:176-201 | Deletes the key and returns 1 iff it existed, else 0 |
| LegacySession.ClearThenGetIsDefault | backend/app/services/session_service.py:176-201 | With the corrected read (GetSession), a read after clear gives the default session |
| LegacySession.AddActiveConnection | backend/app/services/session_service.py:203-239 | Over the corrected read (GetSession), the stored list is the old list plus one new entry at the end, and the result is what a read gives back |
| LegacySession.RemoveActiveConnection | backend/app/services/session_service.py:241-273 | Over the corrected read (GetSession), the list keeps, in order, exactly the entries whose connection_id differs |
| LegacySession.RemoveActiveConnectionIdempotent | backend/app/services/session_service.py:258-262 | Over the corrected read (GetSession), removing the same id twice gives the same list |
| LegacySession.GetAllActiveUsersAsWritten | backend/app/services/session_service.py:275-307 | As written: one name per session key, each with every "session:" occurrence removed |
| LegacySession.UserOfKey | backend/app/services/session_service.py:295-298 | Removing the leading prefix inverts SessionKey |
| LegacySession.GetAllActiveUsers | backend/app/services/session_service.py:275-307 | A user is listed iff its session key exists, without duplicates |
| LegacySession.ReplaceStripsInnerPrefix | backend/app/services/session_service.py:295-298 | The user "session:x" is reported as "x", which is a different user |
| SessionApi.ValidateStudyIdPath | backend/app/api/session.py:54-71 | Out-of-range lengths give 422 and a blank id gives 400. Otherwise the stripped id is returned, non-empty and at most 100 long |
| SessionApi.PathAndBodyValidatorsAgree | backend/app/api/session.py:54-71 | Within the path bounds, the path and body validators accept the same ids and agree on the value |
| SessionApi.ValidateStudyIdPathIdempotent | backend/app/api/session.py:67-71 | A validated id re-validates to itself |
| SessionApi.ValidAppsAreTheEnumValues | backend/app/api/session.py:74-94 | The listed apps are the enum values in order, and an app id is accepted iff it is one of them |
| SessionApi.ValidateAppId | backend/app/api/session.py:74-94 | Accepted iff some AppType has that value, which is then returned. Otherwise 400 listing the valid apps |
| SessionApi.ValidateAppIdRoundTrip | backend/app/api/session.py:87-94 | Every app type's value validates back to it |
| SessionApi.RecordOpened | backend/app/api/session.py:121-125 | The study and open time are recorded; connections, metadata and other keys are unchanged |
| SessionApi.RecordClosed | backend/app/api/session.py:178-183 | Closing passes None, so the recorded study and time are unchanged |
| SessionApi.CloseAfterOpenKeepsStudy | backend/app/api/session.py:163-208 | After open then close, the opened study and time are still recorded |
| SessionApi.OpenStudyAsWritten | backend/app/api/session.py:104-154 | As written, with a pool, the study is recorded and the handler still returns 500 |
| SessionApi.OpenStudy | backend/app/api/session.py:104-154 | No pool gives 500 and no notification. Otherwise the study is recorded and "Study <id> opened for viewer" is returned. Dictation is notified iff the user has a live dictation connection, and the response does not depend on that |
| SessionApi.CloseStudy | backend/app/api/session.py:163-208 | No pool gives 500. Otherwise the study field is unchanged and "Study <id> closed for viewer" is returned. Dictation is notified iff it is live |
| SessionApi.WebsocketStatus | backend/app/api/session.py:263-287 | Connected iff a live connection of that app exists for the user, and then reports its id and connect time |
| SessionApi.GetActiveConnections | backend/app/api/session.py:296-315 | Lists exactly the user's ids that have records, and the total equals the list length |
| SessionApi.Logout | backend/app/api/session.py:350-386 | Deletes the session key and reports 1 iff it existed. It disconnects every recorded connection of the user and reports that number. Other users' records are unchanged |

## Left out

- Redis transport, TTL and `expire`, and SCAN cursor paging. SCAN may report a key twice; the model lists each key once.
- Approximate `maxlen` trimming in `add_to_stream` and `trim_stream` are not modelled. Stream entry ids are a parameter, not generated.
- Delivery counts and pending-list cleanup after `xack` are not modelled. `min_idle_time` is a natural, so a negative value is not modelled.
- The reader's `asyncio.sleep` is recorded as the list of sleep lengths. Cancellation during a sleep, and a failing `xack`, are not modelled.
- `json.dumps`/`json.loads` are parameters (`dumps`, `text`, `loads`) or the `Json` value itself. The model fixes no rendering of JSON text.
- ISO-8601 formatting and parsing are not modelled. Times are naturals, and an ISO string is the `IsoText` field value. Each operation reads the clock once, and that reading is the `now` parameter.
- uuid4 is a parameter (`freshId`, `eventId`).
- `services/session_management_service.py` (line 16) imports `Session` and `SessionEvent` from `models/session_models.py`, which defines neither, so importing that module raises `ImportError`. The model treats them as abstract records, and foreign-key checks are not modelled.
- SessionManagement.GetSessionState: the source loads a session's events through `selectinload(Session.events)` with no ordering (`services/session_management_service.py`, lines 230-236), so their order is unspecified. The model lists them in insertion order.
- SessionManagement.CreatedEventIsListedLast: "listed last" holds for the insertion order the model chooses; the source does not promise any event order.
- `settings.redis_stream_name` (`services/redis_service.py`, line 20) names a field that `Settings` in `core/config.py` does not declare, so importing that module raises `AttributeError`. The model leaves the module-level constant out: the stream store and the reader take the stream name as a parameter (`streamName`, `defaultStream`). The only fixed name is `SessionManagement.DictationStream`, the literal "dictation_stream" that session events are published to.
- Python's `str()` of arbitrary values in `update_session` is not modelled. Only strings, lists, dicts and datetimes are modelled as keyword values.
- `str(metadata)` in `register_connection` is not modelled; metadata is an opaque string.
- The float `total_seconds()` in cleanup is modelled as microsecond arithmetic on naturals.
- `\d` matching Unicode digits in `validate_npi` is not modelled; only ASCII digits count.
- UserSchema.ValidatePassword: the digit test accepts ASCII digits only. The source's `\d` also matches other Unicode decimal digits, so a password such as "SecurePassword\u0663!" passes the source and is refused here.
- JSON numbers are modelled as integers only (`Json.JInt`). A fractional `exp` claim, which `datetime.fromtimestamp` accepts, cannot be expressed.
- AuthClaims.ExtractRoles: the role set compares JSON values structurally. Python's `set` treats `1` and `True` as one member and keeps the first seen; here `JInt(1)` and `JBool(true)` stay distinct.
- E-mail validation (`EmailStr`) is a parameter.
- `UserResponse` validation is modelled through its required fields and which of them may be `None`. Its type checks are not modelled; they could only reject more.
- The default-role assignment inside `KeycloakService.create_user` is not modelled. A refusal there counts as the provider's refusal.
- Keycloak calls are modelled as recorded requests with their answers as inputs. This covers `create_user`, `list_users`, `get_user`, `update_user`, and `deactivate_user`/`activate_user`. `delete_user` and `reset_user_password` are left out: they have no logic beyond the admin guard and one call.
- JWT decoding and signature checks are left out. Claims arrive as a decoded map.
- `register_websocket_connection` and the `get_session_state` route in `api/session.py` are thin wrappers around modelled services and are left out. So are health checks, CORS and logging.
- The 422 error body of FastAPI's path validation is not modelled, only the status.
- `SessionService`'s writes and reads (`update_session`, `add_active_connection`, `remove_active_connection`, a read after `clear_session`) and the session handlers are modelled over the corrected read, `LegacySession.GetSession`. As written, each of them raises at its `get_session` call: `update_session` after writing the hash, and the connection updates before writing anything (see Findings). `SessionService` and `WebSocketService` share one Redis pool in the model.
- LegacySession.AddActiveConnection: the contract does not say that the read-back session lists the new entry. When the stored metadata does not parse, the read-back is the default session even though the connection list was written.
- Concurrency between requests and atomicity of multi-command Redis sequences are not modelled.

Where the code and its documentation disagree, the model follows the code:

- `create_session_event` does not update the session's `last_updated`.
- `UserUpdate` has no e-mail field, so the update payload's e-mail always comes from the current account.
- `list_users` skips the role filter for an empty string as well as for none.
- The close handler's docstring says it clears the viewer study. It passes `None`, which `update_session` ignores, so nothing is cleared (`SessionApi.RecordClosed`).

## Findings

| source | as written | input that shows it | evidently intended | confidence | as-written member | corrected member |
|---|---|---|---|---|---|---|
| backend/app/services/websocket_service.py:403-432 | `current_time` is an ISO string, so `current_time - last_activity` raises TypeError. The handler swallows it and returns 0 | one connection idle for two hours, max age 3600 s | remove connections whose age strictly exceeds the limit and count them | high, not executed | ConnectionRegistry.CleanupStaleConnectionsAsWritten, ConnectionRegistry.CleanupAsWrittenMissesStaleConnection | ConnectionRegistry.CleanupStaleConnections |
| backend/app/api/session.py:121-138 | `.isoformat()` is called on a string after the session update, so the handler answers 500 after the write | any open request with Redis up | answer with the opened-study response | high, not executed | SessionApi.OpenStudyAsWritten | SessionApi.OpenStudy |
| backend/app/api/users.py:29-33, 97-104 | the 400 for an invalid role is caught by `except Exception` and becomes 500 | role "superuser" | 400 "Role must be either 'user' or 'admin'" | high, not executed | UsersApi.CreateUserAsWritten, UsersApi.CreateUserAsWrittenNeverCreates | UsersApi.CreateUser |
| backend/app/api/users.py:76 | the account document is passed to `KeycloakService.create_user` (services/keycloak_service.py:60-66) as a dict. The service reads `user_data.username`, raises AttributeError and re-raises it, so the handler answers 500 and no account is created | an admin creating "jdoe" with a free username and e-mail | the document reaches the provider, and the new account is fetched and returned | high, not executed | UsersApi.ProviderCreate, UsersApi.CreateUserAsWritten, UsersApi.CreateUserAsWrittenNeverCreates | UsersApi.CreateUser |
| backend/app/api/users.py:131-143, 175-187, 260-272 | every `UserResponse(...)` omits the required `is_active` and passes `None` for the required `created_at` and `updated_at` (schemas/user.py:64-71). The ValidationError becomes 500 in `list_users`, and 404 in `get_user` and in `update_user` (after the update was sent). The same construction at lines 81-93 of `create_user` sits behind the previous finding | get_user on one's own id with the account present | answer with the fetched account | high, not executed | UsersApi.ResponseNeverValidates, UsersApi.ListUsersAsWritten, UsersApi.ListUsersAsWrittenAnswersOnlyEmpty, UsersApi.GetUserAsWritten, UsersApi.UpdateUserAsWritten, UsersApi.UpdateUserAsWrittenFailsAfterSending | UsersApi.ListUsers, UsersApi.GetUser, UsersApi.UpdateUser |
| backend/app/schemas/user.py:32 | `re.match` with `$` also matches before a final newline | "abc\n" | only letters, digits, `_` and `-` | medium, not executed | UserSchema.ValidateUsernameAsWritten, UserSchema.UsernameTrailingNewlineGap | UserSchema.ValidateUsername, UserSchema.ValidateUserCreate |
| backend/app/services/session_service.py:295-298 | `str.replace` removes every "session:" occurrence, not only the prefix | user id "session:x" | strip only the leading prefix | medium, not executed | LegacySession.GetAllActiveUsersAsWritten, LegacySession.ReplaceStripsInnerPrefix | LegacySession.GetAllActiveUsers |
| backend/app/services/session_service.py:63-94 | `SessionState(user_id=..., active_connections=..., last_activity=...)` under `extra="forbid"` raises on every read | any user id | read the stored session | high, not executed | LegacySession.GetSessionAsWritten, LegacySession.GetSessionAsWrittenAlwaysFails | LegacySession.GetSession, LegacySession.UpdateSession, LegacySession.UpdateWithNoneClearsNothing, LegacySession.ClearThenGetIsDefault, LegacySession.AddActiveConnection, LegacySession.RemoveActiveConnection, LegacySession.RemoveActiveConnectionIdempotent |

With the last finding as written, `update_session` already fails while reading back, so the open handler's 500 in the second finding happens earlier. The outcome is the same: a 500 after the write.

=== FILE: auth_claims.dfy ===
/** The claim checks `AuthService.verify_token` (app/services/auth_service.py)
    applies to an already decoded token, and its role extraction. The token's
    claims are a JSON object; decoding and signatures are outside the model. */
module AuthClaims {
  import opened Common

  /** The identity-provider settings the checks read. */
  datatype AuthConfig = AuthConfig(serverUrl: string, realm: string, clientId: string)

  /** The issuer a token of this realm must carry. */
  function ExpectedIssuer(cfg: AuthConfig): string {
    cfg.serverUrl + "/realms/" + cfg.realm
  }

  /** A decoded token payload. */
  type Claims = map<string, Json>

  /** `payload.get(key)`: an absent claim reads as `None`. */
  function Claim(c: Claims, key: string): Json {
    if key in c then c[key] else JNull
  }

  /** The range of POSIX seconds `datetime.fromtimestamp(_, timezone.utc)` can
      represent (years 1 through 9999). */
  const MinTimestamp: int := -62135596800
  const MaxTimestamp: int := 253402300799

  /** The number `fromtimestamp` receives for an `exp` claim; `None` when the
      value is not a number (a `TypeError` in the source). */
  function ExpSeconds(j: Json): Option<int> {
    match j
    case JInt(i) => Some(i)
    case JBool(b) => Some(if b then 1 else 0)
    case _ => None
  }

  const MissingUserId := HttpError(401, "Invalid token: missing user ID")
  const TokenExpired := HttpError(401, "Token has expired")
  const InvalidIssuer := HttpError(401, "Invalid token issuer")
  const InvalidAudience := HttpError(401, "Invalid token audience")
  /** Any other failure inside the check. */
  const VerificationFailed := HttpError(500, "Authentication verification failed")

  // ---------------------------------------------------------------------------
  // The individual conditions, stated independently of the check order

  predicate SubPresent(c: Claims) {
    JsonTruthy(Claim(c, "sub"))
  }

  /** `exp` is usable: a number `fromtimestamp` can convert. */
  predicate ExpConvertible(c: Claims) {
    var e := ExpSeconds(Claim(c, "exp"));
    e.Some? && MinTimestamp <= e.value <= MaxTimestamp
  }

  /** The token is not expired at `nowMicros` (microseconds since the epoch): an
      absent or falsy `exp` never expires, and expiry is strict. */
  predicate NotExpired(c: Claims, nowMicros: int) {
    !JsonTruthy(Claim(c, "exp"))
    || (ExpConvertible(c) && ExpSeconds(Claim(c, "exp")).value * 1_000_000 >= nowMicros)
  }

  predicate IssuerMatches(cfg: AuthConfig, c: Claims) {
    Claim(c, "iss") == JStr(ExpectedIssuer(cfg))
  }

  /** An absent or falsy `aud` passes; a list must hold the client id; any other
      value is treated as a one-element list. */
  predicate AudienceAccepts(cfg: AuthConfig, c: Claims) {
    var aud := Claim(c, "aud");
    !JsonTruthy(aud)
    || (if aud.JArr? then JStr(cfg.clientId) in aud.items else aud == JStr(cfg.clientId))
  }

  // ---------------------------------------------------------------------------
  // Role extraction

  /** A value Python can put in a set: lists and dicts are unhashable. */
  predicate Hashable(j: Json) {
    !j.JArr? && !j.JObj?
  }

  /** The roles `roles.extend(v)` contributes once `set(roles)` has removed
      duplicates: a list gives its items, a string its one-character strings, a
      dict its keys. `None` when `extend` raises (a number, boolean or null) or
      when `set` meets an unhashable item. */
  function Extended(v: Json): (r: Option<set<Json>>)
    ensures r.Some? <==> v.JStr? || v.JObj? || (v.JArr? && forall i | 0 <= i < |v.items| :: Hashable(v.items[i]))
    ensures r.Some? ==> forall x | x in r.value :: Hashable(x)
    ensures r.Some? && v.JArr? ==> forall x :: x in r.value <==> x in v.items
    ensures r.Some? && v.JStr? ==> forall x | x in r.value :: x.JStr? && |x.s| == 1 && x.s[0] in v.s
    ensures r.Some? && v.JStr? ==> forall i | 0 <= i < |v.s| :: JStr([v.s[i]]) in r.value
    ensures r.Some? && v.JObj? ==> forall x :: x in r.value <==> x.JStr? && x.s in v.fields
  {
    match v
    case JArr(items) =>
      if forall i | 0 <= i < |items| :: Hashable(items[i]) then Some(set x | x in items) else None
    case JStr(s) => Some(set c | c in s :: JStr([c]))
    case JObj(f) => Some(set k | k in f :: JStr(k))
    case _ => None
  }

  /** `access.get("roles", [])` for an access block that may be absent
      (`None` here means the block is not a dict, or its roles cannot be extended
      into a set). */
  function RolesOf(access: Option<Json>): (r: Option<set<Json>>)
    ensures access.None? ==> r == Some({})
    ensures r.Some? && access.Some? ==> access.value.JObj?
    ensures access.Some? && access.value.JObj? && "roles" in access.value.fields
            ==> r == Extended(access.value.fields["roles"])
  {
    match access
    case None => Some({})
    case Some(JObj(f)) =>
      if "roles" !in f then Some({})
      else Extended(f["roles"])
    case Some(_) => None
  }

  function Lookup(c: map<string, Json>, key: string): Option<Json> {
    if key in c then Some(c[key]) else None
  }

  /** The client block `resource_access[client_id]`, absent when either level is missing. */
  function ClientAccess(cfg: AuthConfig, c: Claims): Option<Option<Json>> {
    match Lookup(c, "resource_access")
    case None => Some(None)
    case Some(JObj(f)) => Some(Lookup(f, cfg.clientId))
    case Some(_) => None
  }

  /** `_extract_roles`: the duplicate-free union of the realm roles and this
      client's roles; a missing block contributes nothing, a block or roles value
      Python cannot extend into a set fails. */
  function ExtractRoles(cfg: AuthConfig, c: Claims): (r: Result<set<Json>, HttpError>)
    ensures r.Ok? <==> RolesOf(Lookup(c, "realm_access")).Some?
                       && ClientAccess(cfg, c).Some? && RolesOf(ClientAccess(cfg, c).value).Some?
    ensures r.Ok? ==> forall role: Json ::
              (role in r.value <==> (role in RolesOf(Lookup(c, "realm_access")).value
                                     || role in RolesOf(ClientAccess(cfg, c).value).value))
    ensures r.Err? ==> r.error == VerificationFailed
  {
    var realm := RolesOf(Lookup(c, "realm_access"));
    var client := ClientAccess(cfg, c);
    if realm.None? || client.None? then Err(VerificationFailed)
    else
      var clientRoles := RolesOf(client.value);
      if clientRoles.None? then Err(VerificationFailed)
      else Ok(realm.value + clientRoles.value)
  }

  /** A token without either access block has no roles. */
  lemma NoAccessBlocksNoRoles(cfg: AuthConfig, c: Claims)
    requires "realm_access" !in c && "resource_access" !in c
    ensures ExtractRoles(cfg, c) == Ok({})
  {
    assert Lookup(c, "realm_access").None? && ClientAccess(cfg, c) == Some(None);
    assert ExtractRoles(cfg, c).Ok?;
    var roles := ExtractRoles(cfg, c).value;
    assert forall role: Json :: role !in roles;
    assert roles == {};
  }

  /** The realm block `{"roles": v}` and nothing else. */
  function RealmRolesOnly(v: Json): Claims {
    map["realm_access" := JObj(map["roles" := v])]
  }

  /** With only a realm block, the roles are exactly what that block's value extends to. */
  lemma RealmOnlyRoles(cfg: AuthConfig, v: Json)
    ensures ExtractRoles(cfg, RealmRolesOnly(v))
            == if Extended(v).Some? then Ok(Extended(v).value) else Err(VerificationFailed)
  {
    var c := RealmRolesOnly(v);
    assert Lookup(c, "realm_access") == Some(JObj(map["roles" := v]));
    assert ClientAccess(cfg, c) == Some(None);
    assert RolesOf(Lookup(c, "realm_access")) == Extended(v);
    assert RolesOf(ClientAccess(cfg, c).value) == Some({});
    if Extended(v).Some? {
      var roles := Extended(v).value;
      assert roles + {} == roles;
      assert ExtractRoles(cfg, c) == Ok(roles + {});
    }
  }

  /** A string of roles contributes its characters, not itself. */
  lemma StringRolesAreCharacters(cfg: AuthConfig)
    ensures ExtractRoles(cfg, RealmRolesOnly(JStr("admin")))
            == Ok({JStr("a"), JStr("d"), JStr("m"), JStr("i"), JStr("n")})
  {
    RealmOnlyRoles(cfg, JStr("admin"));
    var chars := Extended(JStr("admin")).value;
    var s := "admin";
    assert s[0] == 'a' && s[1] == 'd' && s[2] == 'm' && s[3] == 'i' && s[4] == 'n';
    assert JStr([s[0]]) in chars && JStr([s[1]]) in chars && JStr([s[2]]) in chars
           && JStr([s[3]]) in chars && JStr([s[4]]) in chars;
    forall x | x in chars
      ensures x in {JStr("a"), JStr("d"), JStr("m"), JStr("i"), JStr("n")}
    {
      assert x.JStr? && |x.s| == 1 && x.s[0] in s;
      assert x.s == [x.s[0]];
    }
    assert chars == {JStr("a"), JStr("d"), JStr("m"), JStr("i"), JStr("n")};
  }

  /** A dict of roles contributes its keys. */
  lemma DictRolesAreKeys(cfg: AuthConfig)
    ensures ExtractRoles(cfg, RealmRolesOnly(JObj(map["admin" := JBool(true)]))) == Ok({JStr("admin")})
  {
    var f := map["admin" := JBool(true)];
    RealmOnlyRoles(cfg, JObj(f));
    var keys := Extended(JObj(f)).value;
    assert JStr("admin") in keys;
    forall x | x in keys
      ensures x == JStr("admin")
    {
      assert x.JStr? && x.s in f;
    }
    assert keys == {JStr("admin")};
  }

  /** A list keeps hashable items of any type; an unhashable item or a scalar fails. */
  lemma ListAndScalarRoles(cfg: AuthConfig)
    ensures ExtractRoles(cfg, RealmRolesOnly(JArr([JStr("admin"), JInt(1)]))) == Ok({JStr("admin"), JInt(1)})
    ensures ExtractRoles(cfg, RealmRolesOnly(JArr([JStr("admin"), JArr([])]))) == Err(VerificationFailed)
    ensures ExtractRoles(cfg, RealmRolesOnly(JInt(5))) == Err(VerificationFailed)
  {
    var items := [JStr("admin"), JInt(1)];
    RealmOnlyRoles(cfg, JArr(items));
    assert Hashable(items[0]) && Hashable(items[1]);
    var kept := Extended(JArr(items)).value;
    assert JStr("admin") in kept && JInt(1) in kept;
    forall x | x in kept
      ensures x == JStr("admin") || x == JInt(1)
    {
      assert x in items;
    }
    assert kept == {JStr("admin"), JInt(1)};
    var bad := [JStr("admin"), JArr([])];
    RealmOnlyRoles(cfg, JArr(bad));
    assert !Hashable(bad[1]);
    RealmOnlyRoles(cfg, JInt(5));
  }

  // ---------------------------------------------------------------------------
  // The check

  /** `', '.join(roles)` in the closing debug message succeeds: every role is a
      string. An empty set is never joined. */
  predicate RolesJoinable(roles: set<Json>) {
    forall x | x in roles :: x.JStr?
  }

  /** What `verify_token` returns. */
  datatype TokenInfo = TokenInfo(
    sub: Json, name: Json, preferredUsername: Json, sessionState: Json,
    givenName: Json, email: Json, familyName: Json, roles: set<Json>,
    exp: Json, iat: Json)

  /** `verify_token` after decoding: subject, expiry, issuer, audience, in that
      order, then role extraction; the first failing check decides the error. */
  function VerifyClaims(cfg: AuthConfig, c: Claims, nowMicros: int): (r: Result<TokenInfo, HttpError>)
    ensures r.Ok? ==> r.value.sub == Claim(c, "sub") && r.value.sessionState == Claim(c, "session_state")
                      && r.value.preferredUsername == Claim(c, "preferred_username")
                      && ExtractRoles(cfg, c) == Ok(r.value.roles) && RolesJoinable(r.value.roles)
    ensures ExtractRoles(cfg, c).Ok? && !RolesJoinable(ExtractRoles(cfg, c).value) ==> r.Err?
    ensures SubPresent(c) && JsonTruthy(Claim(c, "exp")) && !ExpConvertible(c) ==> r == Err(VerificationFailed)
    ensures (SubPresent(c) && NotExpired(c, nowMicros) && IssuerMatches(cfg, c) && AudienceAccepts(cfg, c)
             && !(ExtractRoles(cfg, c).Ok? && RolesJoinable(ExtractRoles(cfg, c).value)))
              ==> r == Err(VerificationFailed)
    ensures !SubPresent(c) ==> r == Err(MissingUserId)
    ensures (SubPresent(c) && JsonTruthy(Claim(c, "exp")) && ExpConvertible(c) && !NotExpired(c, nowMicros))
              ==> r == Err(TokenExpired)
    ensures SubPresent(c) && NotExpired(c, nowMicros) && !IssuerMatches(cfg, c) ==> r == Err(InvalidIssuer)
    ensures (SubPresent(c) && NotExpired(c, nowMicros) && IssuerMatches(cfg, c) && !AudienceAccepts(cfg, c))
              ==> r == Err(InvalidAudience)
  {
    if !JsonTruthy(Claim(c, "sub")) then Err(MissingUserId)
    else
      var exp := Claim(c, "exp");
      var expCheck :=
        if !JsonTruthy(exp) then None
        else match ExpSeconds(exp)
          case None => Some(VerificationFailed)
          case Some(secs) =>
            if secs < MinTimestamp || secs > MaxTimestamp then Some(VerificationFailed)
            else if secs * 1_000_000 < nowMicros then Some(TokenExpired)
            else None;
      if expCheck.Some? then Err(expCheck.value)
      else if Claim(c, "iss") != JStr(ExpectedIssuer(cfg)) then Err(InvalidIssuer)
      else
        var aud := Claim(c, "aud");
        var audList := if aud.JArr? then aud.items else [aud];
        if JsonTruthy(aud) && JStr(cfg.clientId) !in audList then Err(InvalidAudience)
        else match ExtractRoles(cfg, c)
          case Err(e) => Err(e)
          case Ok(roles) =>
            if !RolesJoinable(roles) then Err(VerificationFailed)
            else Ok(TokenInfo(
              Claim(c, "sub"), Claim(c, "name"), Claim(c, "preferred_username"),
              Claim(c, "session_state"), Claim(c, "given_name"), Claim(c, "email"),
              Claim(c, "family_name"), roles, Claim(c, "exp"), Claim(c, "iat")))
  }

  /** A token is accepted exactly when every condition holds on its own; the
      check order only decides which error a rejected token gets. */
  lemma VerifyClaimsAcceptsIffAllHold(cfg: AuthConfig, c: Claims, nowMicros: int)
    ensures VerifyClaims(cfg, c, nowMicros).Ok? <==>
              SubPresent(c) && NotExpired(c, nowMicros) && IssuerMatches(cfg, c)
              && AudienceAccepts(cfg, c) && ExtractRoles(cfg, c).Ok?
              && RolesJoinable(ExtractRoles(cfg, c).value)
  {
  }

  /** A role list that extracts but holds a number fails the whole check with a
      500: the closing debug message joins the roles as strings. */
  lemma NumericRoleFailsVerification(cfg: AuthConfig)
    ensures var c := RealmRolesOnly(JArr([JStr("admin"), JInt(1)]))["sub" := JStr("u")]
                                    ["iss" := JStr(ExpectedIssuer(cfg))];
            ExtractRoles(cfg, c).Ok? && VerifyClaims(cfg, c, 0) == Err(VerificationFailed)
  {
    var c0 := RealmRolesOnly(JArr([JStr("admin"), JInt(1)]));
    var c := c0["sub" := JStr("u")]["iss" := JStr(ExpectedIssuer(cfg))];
    ListAndScalarRoles(cfg);
    assert Lookup(c, "realm_access") == Lookup(c0, "realm_access");
    assert ClientAccess(cfg, c) == Some(None);
    assert ExtractRoles(cfg, c) == ExtractRoles(cfg, c0);
    assert JInt(1) in ExtractRoles(cfg, c).value;
    assert Claim(c, "sub") == JStr("u") && Claim(c, "exp") == JNull && Claim(c, "aud") == JNull;
    assert Claim(c, "iss") == JStr(ExpectedIssuer(cfg));
  }

  /** Expiry is strict: a token expiring at this very second is still accepted,
      one that expired a second ago is not, and one without `exp` never expires. */
  lemma ExpiryBoundary(c: Claims, nowSecs: int)
    requires MinTimestamp + 1 <= nowSecs <= MaxTimestamp && nowSecs != 1
    ensures NotExpired(c["exp" := JInt(nowSecs)], nowSecs * 1_000_000)
    ensures !NotExpired(c["exp" := JInt(nowSecs - 1)], nowSecs * 1_000_000)
    ensures NotExpired(c - {"exp"}, nowSecs * 1_000_000)
  {
    assert Claim(c["exp" := JInt(nowSecs)], "exp") == JInt(nowSecs);
    assert Claim(c["exp" := JInt(nowSecs - 1)], "exp") == JInt(nowSecs - 1);
  }

  /** `exp = 0` is falsy, so such a token is never treated as expired. */
  lemma ZeroExpiryNeverExpires(c: Claims, nowMicros: int)
    ensures NotExpired(c["exp" := JInt(0)], nowMicros)
  {
    assert Claim(c["exp" := JInt(0)], "exp") == JInt(0);
  }

  /** A non-empty string audience is a one-element list. */
  lemma StringAudienceIsSingletonList(cfg: AuthConfig, c: Claims, s: string)
    requires s != ""
    ensures AudienceAccepts(cfg, c["aud" := JStr(s)]) == AudienceAccepts(cfg, c["aud" := JArr([JStr(s)])])
  {
    assert Claim(c["aud" := JStr(s)], "aud") == JStr(s);
    assert Claim(c["aud" := JArr([JStr(s)])], "aud") == JArr([JStr(s)]);
  }
}

=== FILE: common.dfy ===
/** Shared vocabulary of the model: optional values, results, JSON values and the
    handful of Python string and list operations the services rely on. */
module Common {

  /** Python's `None` versus a present value. */
  datatype Option<+T> = None | Some(value: T) {
    /** `d.get(key, default)` once the lookup has produced an option. */
    function GetOr(default: T): T {
      if Some? then value else default
    }
  }

  /** A value or the error the source raises (or returns) instead. */
  datatype Result<+T, +E> = Ok(value: T) | Err(error: E)

  /** An HTTP error as raised through FastAPI's `HTTPException`. */
  datatype HttpError = HttpError(status: int, detail: string)

  /** A JSON value; it stands for the text `json.dumps` produces for it.
      `JTime(t)` is a timestamp the source renders as ISO-8601 text. */
  datatype Json =
    | JNull
    | JBool(b: bool)
    | JInt(i: int)
    | JStr(s: string)
    | JTime(t: nat)
    | JArr(items: seq<Json>)
    | JObj(fields: map<string, Json>)

  /** Timestamps are naturals counting microseconds, the resolution of Python's `datetime`. */
  const MicrosPerSecond: nat := 1_000_000

  /** Python truthiness of a JSON value. */
  predicate JsonTruthy(j: Json) {
    match j
    case JNull => false
    case JBool(b) => b
    case JInt(i) => i != 0
    case JStr(s) => s != ""
    case JTime(_) => true
    case JArr(items) => items != []
    case JObj(fields) => fields != map[]
  }

  /** Python truthiness of an optional string: `None` and `""` are false. */
  predicate Truthy(s: Option<string>) {
    s.Some? && s.value != ""
  }

  /** The characters Python's `str.isspace` (and so `str.strip`) treats as whitespace. */
  predicate IsSpace(c: char) {
    var n := c as int;
    n in {9, 10, 11, 12, 13, 28, 29, 30, 31, 32, 133, 160, 5760, 8232, 8233, 8239, 8287, 12288}
    || (8192 <= n <= 8202)
  }

  /** True when `s` is empty or made only of whitespace, i.e. `not s.strip()`. */
  predicate IsBlank(s: string) {
    forall k | 0 <= k < |s| :: IsSpace(s[k])
  }

  /** `s.lstrip()` */
  function TrimLeft(s: string): (r: string)
    ensures |r| <= |s| && r == s[|s| - |r|..]
    ensures forall k | 0 <= k < |s| - |r| :: IsSpace(s[k])
    ensures r != [] ==> !IsSpace(r[0])
    decreases |s|
  {
    if s != [] && IsSpace(s[0]) then TrimLeft(s[1..]) else s
  }

  /** `s.rstrip()` */
  function TrimRight(s: string): (r: string)
    ensures |r| <= |s| && r == s[..|r|]
    ensures forall k | |r| <= k < |s| :: IsSpace(s[k])
    ensures r != [] ==> !IsSpace(r[|r| - 1])
    decreases |s|
  {
    if s != [] && IsSpace(s[|s| - 1]) then TrimRight(s[..|s| - 1]) else s
  }

  /** `s.strip()`: the result is empty exactly for blank input and otherwise
      neither starts nor ends with whitespace. */
  function Strip(s: string): (r: string)
    ensures r == [] <==> IsBlank(s)
    ensures r != [] ==> !IsSpace(r[0]) && !IsSpace(r[|r| - 1])
    ensures |r| <= |s|
  {
    var l := TrimLeft(s);
    var r := TrimRight(l);
    assert l != [] ==> r != [] by {
      if l != [] {
        assert !IsSpace(l[0]);
      }
    }
    assert r != [] ==> !IsBlank(s) by {
      if r != [] {
        assert r[0] == l[0] == s[|s| - |l|];
      }
    }
    r
  }

  /** Stripping a stripped string changes nothing. */
  lemma StripIdempotent(s: string)
    ensures Strip(Strip(s)) == Strip(s)
  {
    var t := Strip(s);
    if t != [] {
      assert TrimLeft(t) == t;
      assert TrimRight(t) == t;
    }
  }

  /** `needle` occurs at the start of `hay`. */
  predicate IsPrefix(needle: string, hay: string) {
    |needle| <= |hay| && hay[..|needle|] == needle
  }

  /** `needle in hay` for strings. */
  predicate Contains(hay: string, needle: string)
    decreases |hay|
  {
    IsPrefix(needle, hay) || (hay != [] && Contains(hay[1..], needle))
  }

  /** `s.replace(pat, "")`: every non-overlapping occurrence, scanned from the left, is removed. */
  function RemoveAll(s: string, pat: string): (r: string)
    requires pat != []
    ensures |r| <= |s|
    decreases |s|
  {
    if s == [] then []
    else if IsPrefix(pat, s) then RemoveAll(s[|pat|..], pat)
    else [s[0]] + RemoveAll(s[1..], pat)
  }

  /** A list comprehension `[x for x in s if p(x)]`. */
  function Filter<T>(s: seq<T>, p: T -> bool): (r: seq<T>)
    ensures |r| <= |s|
    ensures forall x | x in r :: x in s && p(x)
    ensures forall x | x in s && p(x) :: x in r
    ensures forall i | 0 <= i < |r| :: p(r[i])
  {
    if s == [] then []
    else if p(s[0]) then [s[0]] + Filter(s[1..], p)
    else Filter(s[1..], p)
  }

  /** Filtering distributes over concatenation, which is what makes an append
      show up at the end of every filtered view. */
  lemma {:induction false} FilterAppend<T>(a: seq<T>, b: seq<T>, p: T -> bool)
    ensures Filter(a + b, p) == Filter(a, p) + Filter(b, p)
  {
    if a == [] {
      assert a + b == b;
    } else {
      assert (a + b)[0] == a[0];
      assert (a + b)[1..] == a[1..] + b;
      FilterAppend(a[1..], b, p);
    }
  }

  /** Filtering twice with the same predicate is filtering once. */
  lemma {:induction false} FilterIdempotent<T>(s: seq<T>, p: T -> bool)
    ensures Filter(Filter(s, p), p) == Filter(s, p)
  {
    if s != [] {
      FilterIdempotent(s[1..], p);
      if p(s[0]) {
        var r := [s[0]] + Filter(s[1..], p);
        assert r[0] == s[0] && r[1..] == Filter(s[1..], p);
      }
    }
  }

  /** Applies `f` to every element, `[f(x) for x in s]`. */
  function MapSeq<T, U>(s: seq<T>, f: T -> U): (r: seq<U>)
    ensures |r| == |s|
    ensures forall i | 0 <= i < |s| :: r[i] == f(s[i])
  {
    if s == [] then [] else [f(s[0])] + MapSeq(s[1..], f)
  }

  /** No element occurs twice. */
  predicate NoDuplicates<T(==)>(s: seq<T>) {
    forall i, j | 0 <= i < j < |s| :: s[i] != s[j]
  }

  /** Number of positions of `s` satisfying `p`. */
  function CountWhere<T>(s: seq<T>, p: T -> bool): (n: nat)
    ensures n <= |s|
  {
    if s == [] then 0 else (if p(s[0]) then 1 else 0) + CountWhere(s[1..], p)
  }

  lemma {:induction false} CountWhereIsFilterLength<T>(s: seq<T>, p: T -> bool)
    ensures CountWhere(s, p) == |Filter(s, p)|
  {
    if s != [] {
      CountWhereIsFilterLength(s[1..], p);
    }
  }

  /** The elements of a sequence, as a set. */
  function Elements<T>(xs: seq<T>): set<T> {
    set x | x in xs
  }

  lemma ElementsCons<T>(xs: seq<T>)
    requires xs != []
    ensures Elements(xs) == {xs[0]} + Elements(xs[1..])
    ensures NoDuplicates(xs) ==> xs[0] !in Elements(xs[1..]) && NoDuplicates(xs[1..])
  {
    assert xs == [xs[0]] + xs[1..];
  }

  /** Some enumeration of a finite set, each element once: the order, left open,
      in which a store hands out the members of a set or the keys of a scan. */
  method Enumerate<T>(s: set<T>) returns (xs: seq<T>)
    ensures Elements(xs) == s
    ensures NoDuplicates(xs)
    ensures |xs| == |s|
  {
    xs := [];
    var rest := s;
    while rest != {}
      invariant rest <= s && Elements(xs) == s - rest
      invariant NoDuplicates(xs)
      invariant |xs| + |rest| == |s|
      decreases rest
    {
      var x :| x in rest;
      assert Elements(xs + [x]) == Elements(xs) + {x} by {
        assert forall y :: y in xs + [x] <==> y in xs || y == x;
      }
      xs := xs + [x];
      rest := rest - {x};
    }
  }

  /** Splitting one element off the second operand of an intersection. */
  lemma SplitOff<T>(s: set<T>, rest: set<T>, x: T)
    ensures s * ({x} + rest) == (s - {x}) * rest + (if x in s then {x} else {})
    ensures |s * ({x} + rest)| == |(s - {x}) * rest| + (if x in s then 1 else 0)
  {
    if x in s {
      assert x !in (s - {x}) * rest;
    }
  }

  /** Removing one key and then a set of keys is removing their union. */
  lemma MapMinusCons<K, V>(m: map<K, V>, x: K, rest: set<K>)
    ensures (m - {x}) - rest == m - ({x} + rest)
    ensures (m - {x}).Keys == m.Keys - {x}
  {
  }

  /** Removing `x` when it is in `s`, then the rest of `s` met with `rest`, is
      removing `s` met with `{x} + rest`. */
  lemma MapMinusSplitOff<K, V>(m: map<K, V>, s: set<K>, x: K, rest: set<K>)
    ensures (if x in s then m - {x} else m) - (s - {x}) * rest == m - s * ({x} + rest)
  {
  }

  lemma IntersectWithout<T>(s: set<T>, rest: set<T>, x: T)
    requires x !in rest
    ensures (s - {x}) * rest == s * rest
  {
  }
}

=== FILE: connection_registry.dfy ===
/** The live-connection registry of `WebSocketService`
    (app/services/websocket_service.py). Redis holds one record per connection
    (`ws_connection:<id>`) and one set of connection ids per user
    (`ws_user:<uid>`); here they are two maps. Operations that walk a Redis set or
    a key scan, whose order Redis leaves open, are methods that take the
    elements in an arbitrary order. */
module ConnectionRegistry {
  import opened Common
  import opened SessionModels

  /** A `ws_connection:<id>` record. Times are microseconds; `metadata` is the
      text `str(metadata or {})` stored for it. */
  datatype Connection = Connection(
    connectionId: string, userId: string, appType: string,
    connectedAt: nat, lastActivity: nat, metadata: string)

  /** The connection records by id and the users' connection-id sets. */
  datatype Registry = Registry(records: map<string, Connection>, userSets: map<string, set<string>>)

  /** `SMEMBERS ws_user:<u>`: a missing set reads as empty. */
  function Members(reg: Registry, u: string): set<string> {
    if u in reg.userSets then reg.userSets[u] else {}
  }

  /** The link between the two structures: every record is stored under its own id
      and that id is in its owner's set. (The converse does not hold: a set may keep
      ids whose record is gone.) */
  predicate Linked(reg: Registry) {
    forall id | id in reg.records ::
      reg.records[id].connectionId == id && id in Members(reg, reg.records[id].userId)
  }

  function AddMember(reg: Registry, u: string, id: string): (r: Registry)
    ensures r.records == reg.records
    ensures Members(r, u) == Members(reg, u) + {id}
    ensures forall v | v != u :: Members(r, v) == Members(reg, v)
  {
    reg.(userSets := reg.userSets[u := Members(reg, u) + {id}])
  }

  function RemoveMember(reg: Registry, u: string, id: string): (r: Registry)
    ensures r.records == reg.records
    ensures Members(r, u) == Members(reg, u) - {id}
    ensures forall v | v != u :: Members(r, v) == Members(reg, v)
  {
    reg.(userSets := reg.userSets[u := Members(reg, u) - {id}])
  }

  // ---------------------------------------------------------------------------
  // register_connection / unregister_connection

  /** `register_connection` at time `now`: writes the whole record (replacing any
      record under the same id), with equal connection and activity times, and
      adds the id to the user's set. Nothing else changes. */
  function Register(reg: Registry, connectionId: string, userId: string, app: AppType,
                    metadata: string, now: nat): (r: (Registry, Connection))
    ensures r.1.connectionId == connectionId && r.1.userId == userId
            && r.1.appType == AppTypeValue(app) && r.1.connectedAt == now && r.1.lastActivity == now
    ensures r.0.records == reg.records[connectionId := r.1]
    ensures Members(r.0, userId) == Members(reg, userId) + {connectionId}
    ensures forall v | v != userId :: Members(r.0, v) == Members(reg, v)
    ensures Linked(reg) ==> Linked(r.0)
  {
    var c := Connection(connectionId, userId, AppTypeValue(app), now, now, metadata);
    var reg1 := reg.(records := reg.records[connectionId := c]);
    (AddMember(reg1, userId, connectionId), c)
  }

  /** `unregister_connection`: when a record exists it is deleted and its id leaves
      the owner's set (unless the owner is empty); the answer says whether a record
      existed. */
  function Unregister(reg: Registry, id: string): (r: (Registry, bool))
    ensures r.1 <==> id in reg.records
    ensures r.0.records == reg.records - {id}
    ensures !r.1 ==> r.0 == reg
    ensures r.1 && reg.records[id].userId != "" ==>
              Members(r.0, reg.records[id].userId) == Members(reg, reg.records[id].userId) - {id}
    ensures forall v | !r.1 || v != reg.records[id].userId || v == "" :: Members(r.0, v) == Members(reg, v)
    ensures forall v :: Members(reg, v) - {id} <= Members(r.0, v) <= Members(reg, v)
    ensures Linked(reg) ==> Linked(r.0)
  {
    if id !in reg.records then (reg, false)
    else
      var owner := reg.records[id].userId;
      var reg1 := if owner != "" then RemoveMember(reg, owner, id) else reg;
      (reg1.(records := reg1.records - {id}), true)
  }

  /** Unregistering is idempotent: the second call finds nothing and changes nothing. */
  lemma UnregisterTwice(reg: Registry, id: string)
    ensures var r := Unregister(reg, id).0; Unregister(r, id) == (r, false)
  {
  }

  /** A registration followed by its unregistration removes the record again and
      reports that it existed. */
  lemma RegisterThenUnregister(reg: Registry, connectionId: string, userId: string, app: AppType,
                               metadata: string, now: nat)
    requires userId != "" && connectionId !in Members(reg, userId)
    ensures var r := Register(reg, connectionId, userId, app, metadata, now).0;
            var u := Unregister(r, connectionId);
            u.1 && u.0.records == reg.records - {connectionId}
            && Members(u.0, userId) == Members(reg, userId)
  {
  }

  // ---------------------------------------------------------------------------
  // Lookups

  /** The connection `id` is live and belongs to application `app`. */
  predicate LiveFor(reg: Registry, id: string, app: string) {
    id in reg.records && reg.records[id].appType == app
  }

  /** The answer of `get_connection_status`. */
  datatype Status = Status(connected: bool, sessionId: Option<string>,
                           connectedSince: Option<nat>, lastActivity: Option<nat>)

  /** `get_connection_status`: connected exactly when some id in the user's set
      has a live record of that application; that id and its times are reported,
      otherwise every field is empty. */
  method GetConnectionStatus(reg: Registry, u: string, app: AppType) returns (st: Status)
    ensures st.connected <==> exists id | id in Members(reg, u) :: LiveFor(reg, id, AppTypeValue(app))
    ensures st.connected ==> st.sessionId.Some? && st.sessionId.value in Members(reg, u)
                             && LiveFor(reg, st.sessionId.value, AppTypeValue(app))
                             && st.connectedSince == Some(reg.records[st.sessionId.value].connectedAt)
                             && st.lastActivity == Some(reg.records[st.sessionId.value].lastActivity)
    ensures !st.connected ==> st == Status(false, None, None, None)
  {
    var remaining := Members(reg, u);
    while remaining != {}
      invariant remaining <= Members(reg, u)
      invariant forall id | id in Members(reg, u) - remaining :: !LiveFor(reg, id, AppTypeValue(app))
      decreases remaining
    {
      var id :| id in remaining;
      if LiveFor(reg, id, AppTypeValue(app)) {
        var c := reg.records[id];
        return Status(true, Some(id), Some(c.connectedAt), Some(c.lastActivity));
      }
      remaining := remaining - {id};
    }
    st := Status(false, None, None, None);
  }

  /** One entry of `get_user_connections`. */
  datatype ConnectionInfo = ConnectionInfo(connectionId: string, appType: string,
                                           connectedAt: nat, lastActivity: nat)

  function InfoOf(id: string, c: Connection): ConnectionInfo {
    ConnectionInfo(id, c.appType, c.connectedAt, c.lastActivity)
  }

  /** The entries for `ids`, in order, skipping ids without a record. */
  function InfosOf(reg: Registry, ids: seq<string>): (r: seq<ConnectionInfo>)
    ensures forall c | c in r ::
              c.connectionId in reg.records && c == InfoOf(c.connectionId, reg.records[c.connectionId])
    decreases |ids|
  {
    if ids == [] then []
    else
      var rest := InfosOf(reg, ids[1..]);
      if ids[0] in reg.records then [InfoOf(ids[0], reg.records[ids[0]])] + rest else rest
  }

  /** The ids of the connection entries. */
  function IdsOf(cs: seq<ConnectionInfo>): (r: set<string>)
    ensures forall c | c in cs :: c.connectionId in r
  {
    set c | c in cs :: c.connectionId
  }

  /** The entries are those of the ids that have a record, and each appears once
      when the ids do. */
  lemma {:induction false} InfosOfCoverLiveIds(reg: Registry, ids: seq<string>)
    ensures IdsOf(InfosOf(reg, ids)) == reg.records.Keys * Elements(ids)
    ensures NoDuplicates(ids) ==> NoDuplicates(InfosOf(reg, ids))
    decreases |ids|
  {
    if ids == [] {
      assert reg.records.Keys * Elements(ids) == {};
    } else {
      ElementsCons(ids);
      InfosOfCoverLiveIds(reg, ids[1..]);
      var rest := InfosOf(reg, ids[1..]);
      if ids[0] in reg.records {
        var c := InfoOf(ids[0], reg.records[ids[0]]);
        assert InfosOf(reg, ids) == [c] + rest;
        assert IdsOf([c] + rest) == {ids[0]} + IdsOf(rest) by {
          assert forall d | d in [c] + rest :: d == c || d in rest;
        }
        assert NoDuplicates(ids) ==> c.connectionId !in IdsOf(rest);
      }
    }
  }

  /** `get_user_connections`: one entry per id of the user's set that still has a
      record, carrying that record's fields; ids without a record are skipped. */
  method GetUserConnections(reg: Registry, u: string) returns (conns: seq<ConnectionInfo>)
    ensures forall c | c in conns ::
              c.connectionId in reg.records && c == InfoOf(c.connectionId, reg.records[c.connectionId])
    ensures IdsOf(conns) == reg.records.Keys * Members(reg, u)
    ensures NoDuplicates(conns)
  {
    var order := Enumerate(Members(reg, u));
    conns := InfosOf(reg, order);
    InfosOfCoverLiveIds(reg, order);
  }

  // ---------------------------------------------------------------------------
  // disconnect_user_connections / notify_dictation_app

  /** Unregisters `ids` one after the other and counts the ones that had a record. */
  function UnregisterAll(reg: Registry, ids: seq<string>): (r: (Registry, nat))
    ensures r.0.records == reg.records - Elements(ids)
    ensures forall v :: Members(reg, v) - reg.records.Keys <= Members(r.0, v) <= Members(reg, v)
    ensures Linked(reg) ==> Linked(r.0)
    decreases |ids|
  {
    if ids == [] then (reg, 0)
    else
      ElementsCons(ids);
      MapMinusCons(reg.records, ids[0], Elements(ids[1..]));
      var first := Unregister(reg, ids[0]);
      var rest := UnregisterAll(first.0, ids[1..]);
      (rest.0, rest.1 + if first.1 then 1 else 0)
  }

  /** The count of `UnregisterAll` is the number of the ids that had a record. */
  lemma {:induction false} UnregisterAllCount(reg: Registry, ids: seq<string>)
    ensures UnregisterAll(reg, ids).1 == |reg.records.Keys * Elements(ids)|
    decreases |ids|
  {
    if ids != [] {
      ElementsCons(ids);
      SplitOff(reg.records.Keys, Elements(ids[1..]), ids[0]);
      MapMinusCons(reg.records, ids[0], Elements(ids[1..]));
      UnregisterAllCount(Unregister(reg, ids[0]).0, ids[1..]);
    } else {
      assert reg.records.Keys * Elements(ids) == {};
    }
  }

  /** `disconnect_user_connections`: unregisters every id of the user's set and
      counts the ones that had a record. Afterwards none of them has a record, no
      set has grown, and ids that had no record stay in the user's set. */
  method DisconnectUserConnections(reg: Registry, u: string) returns (reg': Registry, count: nat)
    ensures count == |reg.records.Keys * Members(reg, u)|
    ensures reg'.records == reg.records - Members(reg, u)
    ensures forall id | id in Members(reg, u) && id !in reg.records :: id in Members(reg', u)
    ensures forall v :: Members(reg', v) <= Members(reg, v)
    ensures Linked(reg) ==> Linked(reg')
  {
    var order := Enumerate(Members(reg, u));
    var r := UnregisterAll(reg, order);
    UnregisterAllCount(reg, order);
    reg', count := r.0, r.1;
  }

  /** `notify_dictation_app`: true exactly when the user has a live dictation
      connection (the event itself is emitted elsewhere). */
  method NotifyDictationApp(reg: Registry, u: string) returns (sent: bool)
    ensures sent <==> exists id | id in Members(reg, u) :: LiveFor(reg, id, AppTypeValue(Dictation))
  {
    var st := GetConnectionStatus(reg, u, Dictation);
    sent := st.connected;
  }

  // ---------------------------------------------------------------------------
  // broadcast_to_app_type / get_connection_count_by_app_type

  /** The ids of the records of application `app`. */
  function RecordsOfApp(reg: Registry, app: string): (ids: set<string>)
    ensures ids <= reg.records.Keys
    ensures forall id | id in ids :: reg.records[id].appType == app
  {
    set id | id in reg.records && reg.records[id].appType == app
  }

  /** `broadcast_to_app_type`: scans every record and counts those of the given
      application. */
  method BroadcastToAppType(reg: Registry, app: string) returns (notified: nat)
    ensures notified == |RecordsOfApp(reg, app)|
  {
    var remaining := reg.records.Keys;
    notified := 0;
    while remaining != {}
      invariant remaining <= reg.records.Keys
      invariant notified == |RecordsOfApp(reg, app) - remaining|
      decreases remaining
    {
      var id :| id in remaining;
      ghost var before := RecordsOfApp(reg, app) - remaining;
      remaining := remaining - {id};
      if reg.records[id].appType == app {
        assert RecordsOfApp(reg, app) - remaining == before + {id};
        notified := notified + 1;
      } else {
        assert RecordsOfApp(reg, app) - remaining == before;
      }
    }
  }

  /** Sum of the values of a count map. */
  ghost function SumValues(m: map<string, nat>): nat
    decreases |m|
  {
    if m == map[] then 0
    else
      var k :| k in m;
      assert |m - {k}| < |m| by {
        assert (m - {k}).Keys == m.Keys - {k};
      }
      m[k] + SumValues(m - {k})
  }

  /** The sum does not depend on which key the definition picks first. */
  lemma {:induction false} SumValuesRemove(m: map<string, nat>, k: string)
    requires k in m
    ensures SumValues(m) == m[k] + SumValues(m - {k})
    decreases |m|
  {
    var j :| j in m && SumValues(m) == m[j] + SumValues(m - {j});
    if j != k {
      assert (m - {j}).Keys == m.Keys - {j};
      assert (m - {k}).Keys == m.Keys - {k};
      SumValuesRemove(m - {j}, k);
      SumValuesRemove(m - {k}, j);
      assert m - {j} - {k} == m - {k} - {j};
    }
  }

  /** Raising one count by one raises the sum by one. */
  lemma SumValuesIncrement(m: map<string, nat>, k: string)
    ensures SumValues(Bump(m, k)) == SumValues(m) + 1
  {
    var m' := Bump(m, k);
    SumValuesRemove(m', k);
    assert m' - {k} == m - {k};
    if k in m {
      SumValuesRemove(m, k);
    } else {
      assert m - {k} == m;
    }
  }

  /** The ids among `done` whose record belongs to application `app`. */
  function AppIdsIn(reg: Registry, app: string, done: set<string>): set<string> {
    set id | id in done && id in reg.records && reg.records[id].appType == app
  }

  lemma AppIdsCons(reg: Registry, app: string, x: string, rest: set<string>)
    ensures AppIdsIn(reg, app, {x} + rest) ==
              AppIdsIn(reg, app, rest) + (if x in reg.records && reg.records[x].appType == app then {x} else {})
  {
  }

  /** `app_type_counts[app] = app_type_counts.get(app, 0) + 1` */
  function Bump(counts: map<string, nat>, app: string): (r: map<string, nat>)
    ensures r.Keys == counts.Keys + {app}
    ensures r[app] == (if app in counts then counts[app] else 0) + 1
    ensures forall a | a in counts && a != app :: r[a] == counts[a]
  {
    counts[app := (if app in counts then counts[app] else 0) + 1]
  }

  /** The counts the loop of `get_connection_count_by_app_type` builds over `ids`. */
  function CountApps(reg: Registry, ids: seq<string>): map<string, nat> {
    if ids == [] then map[]
    else
      var rest := CountApps(reg, ids[1..]);
      if ids[0] in reg.records then Bump(rest, reg.records[ids[0]].appType) else rest
  }

  /** An application has a count exactly when one of the ids has a record of it. */
  lemma {:induction false} CountAppsKeys(reg: Registry, ids: seq<string>)
    ensures forall app :: app in CountApps(reg, ids) <==> AppIdsIn(reg, app, Elements(ids)) != {}
    decreases |ids|
  {
    if ids == [] {
      forall app ensures AppIdsIn(reg, app, Elements(ids)) == {} { }
    } else {
      ElementsCons(ids);
      CountAppsKeys(reg, ids[1..]);
      forall app
        ensures app in CountApps(reg, ids) <==> AppIdsIn(reg, app, Elements(ids)) != {}
      {
        AppIdsCons(reg, app, ids[0], Elements(ids[1..]));
      }
    }
  }

  /** Over ids listed once each, the count of an application is the number of
      ids with a record of it. */
  lemma {:induction false} CountAppsValues(reg: Registry, ids: seq<string>)
    requires NoDuplicates(ids)
    ensures forall app | app in CountApps(reg, ids) ::
              CountApps(reg, ids)[app] == |AppIdsIn(reg, app, Elements(ids))|
    decreases |ids|
  {
    if ids != [] {
      var x := ids[0];
      ElementsCons(ids);
      CountAppsValues(reg, ids[1..]);
      CountAppsKeys(reg, ids[1..]);
      var rest := CountApps(reg, ids[1..]);
      forall app | app in CountApps(reg, ids)
        ensures CountApps(reg, ids)[app] == |AppIdsIn(reg, app, Elements(ids))|
      {
        AppIdsCons(reg, app, x, Elements(ids[1..]));
        if x in reg.records && reg.records[x].appType == app {
          assert x !in AppIdsIn(reg, app, Elements(ids[1..]));
          if app !in rest {
            assert AppIdsIn(reg, app, Elements(ids[1..])) == {};
          }
        }
      }
    }
  }

  /** Over ids listed once each, the counts add up to the number of ids with a
      record. */
  lemma {:induction false} CountAppsSum(reg: Registry, ids: seq<string>)
    requires NoDuplicates(ids)
    ensures SumValues(CountApps(reg, ids)) == |reg.records.Keys * Elements(ids)|
    decreases |ids|
  {
    if ids == [] {
      assert reg.records.Keys * Elements(ids) == {};
    } else {
      var x, keys, later := ids[0], reg.records.Keys, Elements(ids[1..]);
      var rest := CountApps(reg, ids[1..]);
      ElementsCons(ids);
      assert |keys * Elements(ids)| == |keys * later| + (if x in keys then 1 else 0) by {
        SplitOff(keys, later, x);
        IntersectWithout(keys, later, x);
      }
      assert SumValues(CountApps(reg, ids)) == SumValues(rest) + (if x in keys then 1 else 0) by {
        if x in reg.records {
          SumValuesIncrement(rest, reg.records[x].appType);
        }
      }
      CountAppsSum(reg, ids[1..]);
    }
  }

  /** `get_connection_count_by_app_type`: a count per application value present
      among the records, equal to the number of its records; the counts add up to
      the number of records. */
  method CountByAppType(reg: Registry) returns (counts: map<string, nat>)
    ensures forall app :: app in counts <==> RecordsOfApp(reg, app) != {}
    ensures forall app | app in counts :: counts[app] == |RecordsOfApp(reg, app)|
    ensures SumValues(counts) == |reg.records|
  {
    var order := Enumerate(reg.records.Keys);
    counts := CountApps(reg, order);
    CountAppsKeys(reg, order);
    CountAppsValues(reg, order);
    CountAppsSum(reg, order);
    forall app
      ensures AppIdsIn(reg, app, Elements(order)) == RecordsOfApp(reg, app)
    {
    }
    assert reg.records.Keys * Elements(order) == reg.records.Keys;
  }

  // ---------------------------------------------------------------------------
  // update_connection_activity

  /** `update_connection_activity` at time `now`: only the activity time of an
      existing record changes; for an unknown id nothing changes. */
  function UpdateConnectionActivity(reg: Registry, id: string, now: nat): (r: (Registry, bool))
    ensures r.1 <==> id in reg.records
    ensures !r.1 ==> r.0 == reg
    ensures r.1 ==> r.0.records == reg.records[id := reg.records[id].(lastActivity := now)]
                    && r.0.userSets == reg.userSets
    ensures Linked(reg) ==> Linked(r.0)
  {
    if id in reg.records then
      (reg.(records := reg.records[id := reg.records[id].(lastActivity := now)]), true)
    else (reg, false)
  }

  // ---------------------------------------------------------------------------
  // cleanup_stale_connections

  /** A timestamp as the cleanup sees it: ISO-8601 text or a `datetime`. */
  datatype Stamp = IsoText(t: nat) | DateTime(t: nat)

  /** `a - b` for a current time `a` and a parsed activity time: a `datetime`
      difference in microseconds, or `None` for the `TypeError` of subtracting a
      `datetime` from a string. */
  function Elapsed(a: Stamp, last: nat): Option<int> {
    match a
    case IsoText(_) => None
    case DateTime(t) => Some(t - last)
  }

  /** The ids the cleanup should remove: records whose idleness strictly exceeds
      the limit and that carry a (non-empty) connection id. */
  function StaleIds(reg: Registry, now: nat, maxAgeSeconds: int): set<string> {
    set id | id in reg.records && reg.records[id].connectionId != ""
                && now - reg.records[id].lastActivity > maxAgeSeconds * MicrosPerSecond
  }

  /** One record of the loop of `cleanup_stale_connections`: when the record of
      `key` is older than the limit and names a connection, that connection is
      unregistered; the answer says whether the unregistration found a record. A
      failed subtraction skips the record. */
  function CleanupOne(reg: Registry, current: Stamp, maxAgeSeconds: int, key: string): (r: (Registry, bool))
    ensures current.IsoText? ==> r == (reg, false)
    ensures Linked(reg) ==> Linked(r.0)
    ensures Linked(reg) && current.DateTime? ==>
              (r.1 <==> key in StaleIds(reg, current.t, maxAgeSeconds))
              && r.0.records == (if r.1 then reg.records - {key} else reg.records)
              && StaleIds(r.0, current.t, maxAgeSeconds) == StaleIds(reg, current.t, maxAgeSeconds) - {key}
  {
    if key !in reg.records then (reg, false)
    else
      var c := reg.records[key];
      var age := Elapsed(current, c.lastActivity);
      if age.Some? && age.value > maxAgeSeconds * MicrosPerSecond && c.connectionId != "" then
        Unregister(reg, c.connectionId)
      else (reg, false)
  }

  /** The loop of `cleanup_stale_connections` over the keys `ids`, with its
      current time taken as `current`. */
  function CleanupOver(reg: Registry, current: Stamp, maxAgeSeconds: int, ids: seq<string>): (r: (Registry, nat))
    ensures current.IsoText? ==> r == (reg, 0)
    ensures Linked(reg) ==> Linked(r.0)
    ensures Linked(reg) && current.DateTime? ==>
              r.0.records == reg.records - StaleIds(reg, current.t, maxAgeSeconds) * Elements(ids)
    decreases |ids|
  {
    if ids == [] then (reg, 0)
    else
      ElementsCons(ids);
      MapMinusSplitOff(reg.records, StaleIds(reg, current.t, maxAgeSeconds), ids[0], Elements(ids[1..]));
      var first := CleanupOne(reg, current, maxAgeSeconds, ids[0]);
      var rest := CleanupOver(first.0, current, maxAgeSeconds, ids[1..]);
      (rest.0, rest.1 + if first.1 then 1 else 0)
  }

  /** With a `datetime` current time the count is the number of stale records
      among the keys. */
  lemma {:induction false} CleanupOverCount(reg: Registry, now: nat, maxAgeSeconds: int, ids: seq<string>)
    requires Linked(reg)
    ensures CleanupOver(reg, DateTime(now), maxAgeSeconds, ids).1 == |StaleIds(reg, now, maxAgeSeconds) * Elements(ids)|
    decreases |ids|
  {
    if ids == [] {
      assert StaleIds(reg, now, maxAgeSeconds) * Elements(ids) == {};
    } else {
      ElementsCons(ids);
      SplitOff(StaleIds(reg, now, maxAgeSeconds), Elements(ids[1..]), ids[0]);
      CleanupOverCount(CleanupOne(reg, DateTime(now), maxAgeSeconds, ids[0]).0, now, maxAgeSeconds, ids[1..]);
    }
  }

  /** `cleanup_stale_connections` with its current time taken as `current`: the
      keys of a scan of every record, handled one by one. */
  method CleanupWith(reg: Registry, current: Stamp, maxAgeSeconds: int) returns (reg': Registry, cleaned: nat)
    requires Linked(reg)
    ensures current.IsoText? ==> reg' == reg && cleaned == 0
    ensures current.DateTime? ==> reg'.records == reg.records - StaleIds(reg, current.t, maxAgeSeconds)
                                  && cleaned == |StaleIds(reg, current.t, maxAgeSeconds)|
    ensures Linked(reg')
  {
    var order := Enumerate(reg.records.Keys);
    var r := CleanupOver(reg, current, maxAgeSeconds, order);
    if current.DateTime? {
      CleanupOverCount(reg, current.t, maxAgeSeconds, order);
    }
    reg', cleaned := r.0, r.1;
    assert StaleIds(reg, current.t, maxAgeSeconds) * Elements(order) == StaleIds(reg, current.t, maxAgeSeconds);
  }

  /** `cleanup_stale_connections` as written: its current time is ISO text, so
      every age computation raises `TypeError`, which is caught per record. */
  method CleanupStaleConnectionsAsWritten(reg: Registry, now: nat, maxAgeSeconds: int)
    returns (reg': Registry, cleaned: nat)
    requires Linked(reg)
    ensures reg' == reg && cleaned == 0
  {
    reg', cleaned := CleanupWith(reg, IsoText(now), maxAgeSeconds);
  }

  /** `cleanup_stale_connections` as intended: removes exactly the connections idle
      for strictly longer than `maxAgeSeconds` and counts them. */
  method CleanupStaleConnections(reg: Registry, now: nat, maxAgeSeconds: int)
    returns (reg': Registry, cleaned: nat)
    requires Linked(reg)
    ensures reg'.records == reg.records - StaleIds(reg, now, maxAgeSeconds)
    ensures cleaned == |StaleIds(reg, now, maxAgeSeconds)|
    ensures forall id | id in reg'.records && id != "" ::
              now - reg'.records[id].lastActivity <= maxAgeSeconds * MicrosPerSecond
    ensures Linked(reg')
  {
    reg', cleaned := CleanupWith(reg, DateTime(now), maxAgeSeconds);
  }

  /** A registry with one connection idle for two hours: the intended cleanup with
      the default limit of 3600 seconds removes it, the written one removes nothing. */
  lemma CleanupAsWrittenMissesStaleConnection()
    ensures var c := Connection("c1", "u1", "dictation", 0, 0, "{}");
            var reg := Registry(map["c1" := c], map["u1" := {"c1"}]);
            Linked(reg) && StaleIds(reg, 7200 * MicrosPerSecond, 3600) == {"c1"}
  {
    var c := Connection("c1", "u1", "dictation", 0, 0, "{}");
    var reg := Registry(map["c1" := c], map["u1" := {"c1"}]);
    assert "c1" in StaleIds(reg, 7200 * MicrosPerSecond, 3600);
  }
}

=== FILE: legacy_session.dfy ===
/** `SessionService` (app/services/session_service.py): one Redis hash per user
    under `session:<user id>`, holding the study open in the viewer, the
    connection list and free-form fields. A store is the Redis keyspace seen as
    a map from keys to hashes; Redis keeps no empty hash, so a key is present
    exactly when its hash has fields. */
module LegacySession {
  import opened Common
  import SessionModels

  const SessionPrefix := "session:"

  function SessionKey(userId: string): (k: string)
    ensures IsPrefix(SessionPrefix, k) && k[|SessionPrefix|..] == userId
  {
    SessionPrefix + userId
  }

  /** A value as it goes into a hash field. `IsoText(t)` is the text
      `isoformat()` gives for `t`; `Dumped(j)` the text `json.dumps(j)`;
      `DateTimeObject(t)` a `datetime` object handed on unconverted. */
  datatype FieldValue = Text(s: string) | IsoText(t: nat) | Dumped(j: Json) | DateTimeObject(t: nat)

  type Hash = map<string, FieldValue>
  type Store = map<string, Hash>

  /** What the service raises: `RuntimeError("Redis not initialized")`, the
      client's `DataError` for a value it cannot encode, and an
      `AttributeError` for a connection list of the wrong shape. */
  datatype Failure = NotInitialized | CannotEncode | WrongShape

  function HashOf(store: Store, key: string): Hash {
    if key in store then store[key] else map[]
  }

  /** `hash.get(key)` */
  function Field(h: Hash, key: string): Option<FieldValue> {
    if key in h then Some(h[key]) else None
  }

  // ---------------------------------------------------------------------------
  // Reading

  /** `json.loads` of a stored field; `loads` parses text written by others.
      A timestamp's text is not a JSON document. */
  function Load(v: FieldValue, loads: string -> Option<Json>): Option<Json> {
    match v
    case Dumped(j) => Some(j)
    case Text(s) => loads(s)
    case _ => None
  }

  /** `json.loads(hash.get(key, default))` */
  function LoadOr(h: Hash, key: string, default: Json, loads: string -> Option<Json>): (r: Option<Json>)
    ensures key !in h ==> r == Some(default)
  {
    if key in h then Load(h[key], loads) else Some(default)
  }

  /** The session record `get_session` evidently means to return: the hash's
      fields, with the connection list and metadata decoded. */
  datatype StoredSession = StoredSession(
    userId: string,
    openedViewerStudyid: Option<FieldValue>,
    openedViewerDatetime: Option<FieldValue>,
    activeConnections: Json,
    lastActivity: FieldValue,
    metadata: Json)

  /** The empty session returned when there is nothing (readable) stored. */
  function DefaultSession(userId: string, now: nat): StoredSession {
    StoredSession(userId, None, None, JArr([]), IsoText(now), JObj(map[]))
  }

  /** `get_session` as intended: the default session for an empty hash or one
      whose connection list or metadata does not parse; otherwise the stored
      fields, with "now" standing in for a missing `last_activity`. */
  function GetSession(pool: Option<Store>, userId: string, now: nat, loads: string -> Option<Json>)
    : (r: Result<StoredSession, Failure>)
    ensures pool.None? <==> r == Err(NotInitialized)
    ensures r.Ok? ==> r.value.userId == userId
    ensures pool.Some? && HashOf(pool.value, SessionKey(userId)) == map[] ==> r == Ok(DefaultSession(userId, now))
    ensures pool.Some? ==>
              var h := HashOf(pool.value, SessionKey(userId));
              var conns := LoadOr(h, "active_connections", JArr([]), loads);
              var meta := LoadOr(h, "metadata", JObj(map[]), loads);
              (conns.None? || meta.None? ==> r == Ok(DefaultSession(userId, now)))
              && (h != map[] && conns.Some? && meta.Some? ==>
                    r == Ok(StoredSession(userId, Field(h, "opened_viewer_studyid"), Field(h, "opened_viewer_datetime"),
                                          conns.value, Field(h, "last_activity").GetOr(IsoText(now)), meta.value)))
  {
    if pool.None? then Err(NotInitialized)
    else
      var h := HashOf(pool.value, SessionKey(userId));
      if h == map[] then Ok(DefaultSession(userId, now))
      else
        var conns := LoadOr(h, "active_connections", JArr([]), loads);
        var meta := LoadOr(h, "metadata", JObj(map[]), loads);
        if conns.None? || meta.None? then Ok(DefaultSession(userId, now))
        else Ok(StoredSession(userId, Field(h, "opened_viewer_studyid"), Field(h, "opened_viewer_datetime"),
                              conns.value, Field(h, "last_activity").GetOr(IsoText(now)), meta.value))
  }

  /** A field value as a constructor argument. */
  function AsArg(v: Option<FieldValue>): SessionModels.FieldArg {
    match v
    case None => SessionModels.ArgNone
    case Some(Text(s)) => SessionModels.ArgText(s)
    case Some(IsoText(t)) => SessionModels.ArgTime(t)
    case Some(Dumped(j)) => SessionModels.ArgJson(j)
    case Some(DateTimeObject(t)) => SessionModels.ArgTime(t)
  }

  /** The keyword arguments the source passes to `SessionState`. */
  function SessionStateArgs(s: StoredSession, withMetadata: bool): (args: map<string, SessionModels.FieldArg>)
    ensures "user_id" in args && "active_connections" in args && "last_activity" in args
  {
    var base := map[
      "user_id" := SessionModels.ArgText(s.userId),
      "opened_viewer_studyid" := AsArg(s.openedViewerStudyid),
      "opened_viewer_datetime" := AsArg(s.openedViewerDatetime),
      "active_connections" := SessionModels.ArgJson(s.activeConnections),
      "last_activity" := AsArg(Some(s.lastActivity))];
    if withMetadata then base["metadata" := SessionModels.ArgJson(s.metadata)] else base
  }

  /** `get_session` as written: every branch builds the result with
      `SessionState(user_id=..., active_connections=..., last_activity=...)`,
      keywords that model does not declare, so the call fails with a validation
      error whenever Redis is there. */
  function GetSessionAsWritten(pool: Option<Store>, userId: string, now: nat, loads: string -> Option<Json>)
    : (r: Result<SessionModels.SessionState, Option<SessionModels.SessionStateError>>)
    ensures pool.None? ==> r == Err(None)
  {
    match GetSession(pool, userId, now, loads)
    case Err(_) => Err(None)
    case Ok(s) =>
      var h := HashOf(pool.value, SessionKey(userId));
      var full := h != map[] && s != DefaultSession(userId, now);
      match SessionModels.NewSessionState(SessionStateArgs(s, full))
      case Ok(state) => Ok(state)
      case Err(e) => Err(Some(e))
  }

  /** Whatever is stored, `get_session` as written never returns a session: the
      validation error names `user_id`, `active_connections` and `last_activity`
      as undeclared fields. */
  lemma GetSessionAsWrittenAlwaysFails(pool: Store, userId: string, now: nat, loads: string -> Option<Json>)
    ensures GetSessionAsWritten(Some(pool), userId, now, loads).Err?
    ensures var e := GetSessionAsWritten(Some(pool), userId, now, loads).error;
            e.Some? && {"user_id", "active_connections", "last_activity"} <= e.value.extra
  {
    var s := GetSession(Some(pool), userId, now, loads).value;
    var h := HashOf(pool, SessionKey(userId));
    var args := SessionStateArgs(s, h != map[] && s != DefaultSession(userId, now));
    SessionModels.UserIdKeywordIsRejected(args);
    assert "active_connections" !in SessionModels.SessionStateFields;
    assert "last_activity" !in SessionModels.SessionStateFields;
  }

  // ---------------------------------------------------------------------------
  // Writing

  /** A keyword argument of `update_session` as the Python value it is. */
  datatype PyValue =
    | PyNone
    | PyBool(b: bool)
    | PyInt(i: int)
    | PyStr(s: string)
    | PyDateTime(t: nat)
    | PyList(items: seq<Json>)
    | PyDict(fields: map<string, Json>)

  function DigitText(d: nat): char
    requires d < 10
  {
    "0123456789"[d]
  }

  /** `str(n)` for a natural number. */
  function NatText(n: nat): (s: string)
    ensures |s| >= 1
    decreases n
  {
    if n < 10 then [DigitText(n)] else NatText(n / 10) + [DigitText(n % 10)]
  }

  /** `str(i)` for an integer. */
  function IntText(i: int): string {
    if i < 0 then "-" + NatText(-i) else NatText(i)
  }

  /** The value an extra keyword contributes: dicts and lists are JSON-encoded,
      a `datetime` is handed on as it is, anything else goes through `str()`. */
  function KwargValue(v: PyValue): (f: FieldValue)
    requires !v.PyNone?
    ensures v.PyList? ==> f == Dumped(JArr(v.items))
    ensures v.PyDict? ==> f == Dumped(JObj(v.fields))
    ensures v.PyDateTime? <==> f.DateTimeObject?
    ensures v.PyStr? ==> f == Text(v.s)
  {
    match v
    case PyBool(b) => Text(if b then "True" else "False")
    case PyInt(i) => Text(IntText(i))
    case PyStr(s) => Text(s)
    case PyDateTime(t) => DateTimeObject(t)
    case PyList(items) => Dumped(JArr(items))
    case PyDict(fields) => Dumped(JObj(fields))
  }

  /** The keywords `update_session` names itself, which therefore cannot arrive
      among its extra keyword arguments. */
  const NamedParameters: set<string> :=
    {"user_id", "opened_viewer_studyid", "opened_viewer_datetime", "active_connections", "metadata"}

  /** `d[key] = v` when `v` is not `None`. */
  function PutIf<V>(d: map<string, V>, key: string, v: Option<V>): (r: map<string, V>)
    ensures v.None? ==> r == d
    ensures v.Some? ==> r == d[key := v.value]
  {
    if v.Some? then d[key := v.value] else d
  }

  /** The fields for the named arguments: `user_id` and `last_activity` always,
      each optional one only when its argument is not `None`. */
  function NamedFields(userId: string, studyid: Option<string>, openedAt: Option<FieldValue>,
                       connections: Option<seq<Json>>, metadata: Option<map<string, Json>>, now: nat): (n: Hash)
    ensures n.Keys <= NamedParameters + {"last_activity"}
  {
    var base := map["user_id" := Text(userId), "last_activity" := IsoText(now)];
    var study := if studyid.Some? then Some(Text(studyid.value)) else None;
    var conns := if connections.Some? then Some(Dumped(JArr(connections.value))) else None;
    var meta := if metadata.Some? then Some(Dumped(JObj(metadata.value))) else None;
    PutIf(PutIf(PutIf(PutIf(base, "opened_viewer_studyid", study), "opened_viewer_datetime", openedAt),
                "active_connections", conns), "metadata", meta)
  }

  /** The fields for the extra keyword arguments that are not `None`. */
  function ExtraFields(kwargs: map<string, PyValue>): (x: Hash)
    ensures forall k :: k in x <==> k in kwargs && kwargs[k] != PyNone
    ensures forall k | k in x :: x[k] == KwargValue(kwargs[k])
  {
    map k | k in kwargs && kwargs[k] != PyNone :: KwargValue(kwargs[k])
  }

  /** `update_data`: the named fields, then the extra keywords, a later one
      replacing an earlier one of the same name. */
  function UpdateData(userId: string, studyid: Option<string>, openedAt: Option<FieldValue>,
                      connections: Option<seq<Json>>, metadata: Option<map<string, Json>>,
                      kwargs: map<string, PyValue>, now: nat): (u: Hash)
    requires kwargs.Keys !! NamedParameters
    ensures forall k | k in ExtraFields(kwargs) :: k in u && u[k] == ExtraFields(kwargs)[k]
    ensures forall k | k !in ExtraFields(kwargs) :: Field(u, k) == Field(NamedFields(userId, studyid, openedAt, connections, metadata, now), k)
  {
    NamedFields(userId, studyid, openedAt, connections, metadata, now) + ExtraFields(kwargs)
  }

  /** What `update_session` writes: `user_id` and `last_activity` always (an
      extra `last_activity` keyword replacing the clock), each named field
      exactly when its argument is not `None`, and every extra keyword that is
      not `None`, encoded by its type. */
  lemma UpdateDataWrites(userId: string, studyid: Option<string>, openedAt: Option<FieldValue>,
                         connections: Option<seq<Json>>, metadata: Option<map<string, Json>>,
                         kwargs: map<string, PyValue>, now: nat)
    requires kwargs.Keys !! NamedParameters
    ensures var u := UpdateData(userId, studyid, openedAt, connections, metadata, kwargs, now);
            && Field(u, "user_id") == Some(Text(userId))
            && Field(u, "last_activity") == Some(if "last_activity" in kwargs && kwargs["last_activity"] != PyNone
                                                 then KwargValue(kwargs["last_activity"]) else IsoText(now))
            && Field(u, "opened_viewer_studyid") == (if studyid.Some? then Some(Text(studyid.value)) else None)
            && Field(u, "opened_viewer_datetime") == openedAt
            && Field(u, "active_connections") == (if connections.Some? then Some(Dumped(JArr(connections.value))) else None)
            && Field(u, "metadata") == (if metadata.Some? then Some(Dumped(JObj(metadata.value))) else None)
            && forall k | k in u :: k in NamedParameters || k == "last_activity" || (k in kwargs && kwargs[k] != PyNone)
  {
    var n := NamedFields(userId, studyid, openedAt, connections, metadata, now);
    var x := ExtraFields(kwargs);
    assert "user_id" !in x && "opened_viewer_studyid" !in x && "opened_viewer_datetime" !in x;
    assert "active_connections" !in x && "metadata" !in x;
    assert Field(n, "user_id") == Some(Text(userId));
    assert Field(n, "last_activity") == Some(IsoText(now));
    assert Field(n, "opened_viewer_studyid") == (if studyid.Some? then Some(Text(studyid.value)) else None);
    assert Field(n, "opened_viewer_datetime") == openedAt;
    assert Field(n, "active_connections") == (if connections.Some? then Some(Dumped(JArr(connections.value))) else None);
    assert Field(n, "metadata") == (if metadata.Some? then Some(Dumped(JObj(metadata.value))) else None);
  }

  /** The client refuses a `datetime` object as a field value. */
  predicate Encodable(u: Hash) {
    forall k | k in u :: !u[k].DateTimeObject?
  }

  /** `HSET` with a mapping: a written field takes its new value, the others
      keep theirs. */
  lemma MergeFields(h: Hash, u: Hash)
    ensures forall f :: Field(h + u, f) == if f in u then Some(u[f]) else Field(h, f)
  {
  }

  /** `update_session`: the fields are merged into the hash (a `None` argument
      leaves its field as it was) and the updated session is read back; a field
      the client cannot encode fails the call before anything is written. */
  function UpdateSession(pool: Option<Store>, userId: string, studyid: Option<string>, openedAt: Option<FieldValue>,
                         connections: Option<seq<Json>>, metadata: Option<map<string, Json>>,
                         kwargs: map<string, PyValue>, now: nat, loads: string -> Option<Json>)
    : (r: Result<(Store, StoredSession), Failure>)
    requires kwargs.Keys !! NamedParameters
    ensures pool.None? ==> r == Err(NotInitialized)
    ensures pool.Some? ==> (r.Ok? <==> Encodable(UpdateData(userId, studyid, openedAt, connections, metadata, kwargs, now)))
    ensures r.Ok? ==>
              var key := SessionKey(userId);
              var before := pool.value;
              var after := r.value.0;
              var u := UpdateData(userId, studyid, openedAt, connections, metadata, kwargs, now);
              && after.Keys == before.Keys + {key}
              && (forall k | k in before && k != key :: after[k] == before[k])
              && (forall f :: Field(after[key], f) == if f in u then Some(u[f]) else Field(HashOf(before, key), f))
              && GetSession(Some(after), userId, now, loads) == Ok(r.value.1)
  {
    if pool.None? then Err(NotInitialized)
    else
      var u := UpdateData(userId, studyid, openedAt, connections, metadata, kwargs, now);
      if !Encodable(u) then Err(CannotEncode)
      else
        var key := SessionKey(userId);
        MergeFields(HashOf(pool.value, key), u);
        var after := pool.value[key := HashOf(pool.value, key) + u];
        Ok((after, GetSession(Some(after), userId, now, loads).value))
  }

  /** An update whose optional arguments are all `None` only refreshes
      `user_id` and `last_activity`: the study open in the viewer, its time, the
      connections and the metadata are what they were. */
  lemma UpdateWithNoneClearsNothing(pool: Store, userId: string, now: nat, loads: string -> Option<Json>)
    ensures UpdateSession(Some(pool), userId, None, None, None, None, map[], now, loads).Ok?
    ensures var before := HashOf(pool, SessionKey(userId));
            var after := HashOf(UpdateSession(Some(pool), userId, None, None, None, None, map[], now, loads).value.0,
                                SessionKey(userId));
            && Field(after, "opened_viewer_studyid") == Field(before, "opened_viewer_studyid")
            && Field(after, "opened_viewer_datetime") == Field(before, "opened_viewer_datetime")
            && Field(after, "active_connections") == Field(before, "active_connections")
            && Field(after, "metadata") == Field(before, "metadata")
  {
    UpdateDataWrites(userId, None, None, None, None, map[], now);
    var u := UpdateData(userId, None, None, None, None, map[], now);
    assert Encodable(u) by {
      forall k | k in u
        ensures !u[k].DateTimeObject?
      {
        assert k in NamedParameters || k == "last_activity";
      }
    }
  }

  /** `clear_session`: the key is deleted and the count of deleted keys returned. */
  function ClearSession(pool: Option<Store>, userId: string): (r: Result<(Store, nat), Failure>)
    ensures pool.None? <==> r == Err(NotInitialized)
    ensures r.Ok? ==> r.value.0 == pool.value - {SessionKey(userId)}
    ensures r.Ok? ==> (r.value.1 == 1 <==> SessionKey(userId) in pool.value)
    ensures r.Ok? ==> r.value.1 <= 1
  {
    if pool.None? then Err(NotInitialized)
    else
      var key := SessionKey(userId);
      Ok((pool.value - {key}, if key in pool.value then 1 else 0))
  }

  /** After clearing, reading the session gives the default one. */
  lemma ClearThenGetIsDefault(pool: Store, userId: string, now: nat, loads: string -> Option<Json>)
    ensures GetSession(Some(ClearSession(Some(pool), userId).value.0), userId, now, loads)
            == Ok(DefaultSession(userId, now))
  {
  }

  // ---------------------------------------------------------------------------
  // The connection list

  /** `session.active_connections or []` where a list is needed: a falsy value
      is the empty list, and any other value than a list cannot be extended or
      scanned. */
  function ConnectionList(j: Json): (r: Result<seq<Json>, Failure>)
    ensures j.JArr? ==> r == Ok(j.items)
    ensures !JsonTruthy(j) ==> r == Ok([])
  {
    if j.JArr? then Ok(j.items)
    else if !JsonTruthy(j) then Ok([])
    else Err(WrongShape)
  }

  /** The entry `add_active_connection` appends. */
  function ConnectionEntry(connectionId: string, appType: string, now: nat): Json {
    JObj(map["connection_id" := JStr(connectionId), "app_type" := JStr(appType), "connected_at" := JTime(now)])
  }

  /** `add_active_connection`: the list read from the session, one new entry at
      its end, written back through `update_session`. */
  function AddActiveConnection(pool: Option<Store>, userId: string, connectionId: string, appType: string,
                               now: nat, loads: string -> Option<Json>)
    : (r: Result<(Store, StoredSession), Failure>)
    ensures pool.None? ==> r == Err(NotInitialized)
    ensures r.Ok? ==>
              var prior := GetSession(pool, userId, now, loads).value.activeConnections;
              && ConnectionList(prior).Ok?
              && Field(HashOf(r.value.0, SessionKey(userId)), "active_connections")
                 == Some(Dumped(JArr(ConnectionList(prior).value + [ConnectionEntry(connectionId, appType, now)])))
              && GetSession(Some(r.value.0), userId, now, loads) == Ok(r.value.1)
  {
    match GetSession(pool, userId, now, loads)
    case Err(e) => Err(e)
    case Ok(session) =>
      match ConnectionList(session.activeConnections)
      case Err(e) => Err(e)
      case Ok(conns) =>
        var updated := conns + [ConnectionEntry(connectionId, appType, now)];
        UpdateDataWrites(userId, None, None, Some(updated), None, map[], now);
        UpdateSession(pool, userId, None, None, Some(updated), None, map[], now, loads)
  }

  /** Writing a connection list through `update_session` reads it back, unless
      the stored metadata does not parse (then the whole session reads as the
      default one, whose list is empty). */
  lemma WriteConnectionsReadBack(pool: Store, userId: string, conns: seq<Json>, now: nat,
                                 loads: string -> Option<Json>)
    requires conns == [] || LoadOr(HashOf(pool, SessionKey(userId)), "metadata", JObj(map[]), loads).Some?
    ensures var r := UpdateSession(Some(pool), userId, None, None, Some(conns), None, map[], now, loads);
            r.Ok? && r.value.1.activeConnections == JArr(conns)
  {
    UpdateDataWrites(userId, None, None, Some(conns), None, map[], now);
    var u := UpdateData(userId, None, None, Some(conns), None, map[], now);
    assert Encodable(u) by {
      forall k | k in u
        ensures !u[k].DateTimeObject?
      {
        assert k in NamedParameters || k == "last_activity";
      }
    }
    var key := SessionKey(userId);
    var r := UpdateSession(Some(pool), userId, None, None, Some(conns), None, map[], now, loads);
    var h := HashOf(r.value.0, key);
    assert Field(h, "active_connections") == Some(Dumped(JArr(conns)));
    assert Field(h, "metadata") == Field(HashOf(pool, key), "metadata");
    assert Field(h, "user_id").Some?;
    assert LoadOr(h, "active_connections", JArr([]), loads) == Some(JArr(conns));
    assert LoadOr(h, "metadata", JObj(map[]), loads) == LoadOr(HashOf(pool, key), "metadata", JObj(map[]), loads);
  }

  /** `conn.get("connection_id") != connection_id` for a connection dict. */
  predicate KeepConnection(connectionId: string, conn: Json) {
    !(conn.JObj? && "connection_id" in conn.fields && conn.fields["connection_id"] == JStr(connectionId))
  }

  /** `remove_active_connection`: every entry whose `connection_id` differs is
      kept in order and all matching ones are dropped; an entry that is not a
      dict makes `.get` fail. */
  function RemoveActiveConnection(pool: Option<Store>, userId: string, connectionId: string,
                                  now: nat, loads: string -> Option<Json>)
    : (r: Result<(Store, StoredSession), Failure>)
    ensures pool.None? ==> r == Err(NotInitialized)
    ensures r.Ok? ==>
              var prior := GetSession(pool, userId, now, loads).value.activeConnections;
              && ConnectionList(prior).Ok?
              && (forall i | 0 <= i < |ConnectionList(prior).value| :: ConnectionList(prior).value[i].JObj?)
              && r.value.1.activeConnections
                 == JArr(Filter(ConnectionList(prior).value, c => KeepConnection(connectionId, c)))
  {
    match GetSession(pool, userId, now, loads)
    case Err(e) => Err(e)
    case Ok(session) =>
      match ConnectionList(session.activeConnections)
      case Err(e) => Err(e)
      case Ok(conns) =>
        if exists i | 0 <= i < |conns| :: !conns[i].JObj? then Err(WrongShape)
        else
          var kept := Filter(conns, c => KeepConnection(connectionId, c));
          WriteConnectionsReadBack(pool.value, userId, kept, now, loads);
          UpdateSession(pool, userId, None, None, Some(kept), None, map[], now, loads)
  }

  /** Removing a connection twice leaves the same list as removing it once. */
  lemma RemoveActiveConnectionIdempotent(pool: Store, userId: string, connectionId: string,
                                         now: nat, loads: string -> Option<Json>)
    requires RemoveActiveConnection(Some(pool), userId, connectionId, now, loads).Ok?
    ensures var once := RemoveActiveConnection(Some(pool), userId, connectionId, now, loads).value;
            var twice := RemoveActiveConnection(Some(once.0), userId, connectionId, now, loads);
            twice.Ok? && twice.value.1.activeConnections == once.1.activeConnections
  {
    var once := RemoveActiveConnection(Some(pool), userId, connectionId, now, loads).value;
    var prior := GetSession(Some(pool), userId, now, loads).value.activeConnections;
    var p := (c: Json) => KeepConnection(connectionId, c);
    var kept := Filter(ConnectionList(prior).value, p);
    assert GetSession(Some(once.0), userId, now, loads) == Ok(once.1);
    assert once.1.activeConnections == JArr(kept);
    FilterIdempotent(ConnectionList(prior).value, p);
    forall i | 0 <= i < |kept|
      ensures kept[i].JObj?
    {
      assert kept[i] in ConnectionList(prior).value;
    }
  }

  // ---------------------------------------------------------------------------
  // Listing users

  /** The keys `SCAN` with the pattern "session:*" visits. */
  function SessionKeys(store: Store): (keys: set<string>)
    ensures forall k | k in keys :: IsPrefix(SessionPrefix, k)
  {
    set k | k in store && IsPrefix(SessionPrefix, k)
  }

  /** `get_all_active_users` as written: `key.replace("session:", "")` strips
      every occurrence of the prefix, wherever it sits in the key. The keys
      arrive in the order `SCAN` returns them. */
  method GetAllActiveUsersAsWritten(pool: Option<Store>) returns (r: Result<seq<string>, Failure>)
    ensures pool.None? <==> r == Err(NotInitialized)
    ensures r.Ok? ==> |r.value| == |SessionKeys(pool.value)|
    ensures r.Ok? ==> forall u | u in r.value :: exists k | k in SessionKeys(pool.value) :: u == RemoveAll(k, SessionPrefix)
  {
    if pool.None? {
      return Err(NotInitialized);
    }
    var keys := Enumerate(SessionKeys(pool.value));
    var users := MapSeq(keys, (k: string) => RemoveAll(k, SessionPrefix));
    forall u | u in users
      ensures exists k | k in SessionKeys(pool.value) :: u == RemoveAll(k, SessionPrefix)
    {
      var i :| 0 <= i < |users| && users[i] == u;
      assert keys[i] in Elements(keys);
    }
    return Ok(users);
  }

  /** The user id a session key belongs to. */
  function UserOfKey(key: string): (u: string)
    ensures IsPrefix(SessionPrefix, key) ==> SessionKey(u) == key
  {
    if IsPrefix(SessionPrefix, key) then key[|SessionPrefix|..] else key
  }

  /** `get_all_active_users` with the prefix stripped once from the front: the
      result lists each user with a session exactly once. */
  method GetAllActiveUsers(pool: Option<Store>) returns (r: Result<seq<string>, Failure>)
    ensures pool.None? <==> r == Err(NotInitialized)
    ensures r.Ok? ==> NoDuplicates(r.value)
    ensures r.Ok? ==> forall u :: u in r.value <==> SessionKey(u) in pool.value
  {
    if pool.None? {
      return Err(NotInitialized);
    }
    var keys := Enumerate(SessionKeys(pool.value));
    var users := MapSeq(keys, UserOfKey);
    forall u
      ensures u in users <==> SessionKey(u) in pool.value
    {
      if u in users {
        var i :| 0 <= i < |users| && users[i] == u;
        assert keys[i] in Elements(keys);
        assert SessionKey(u) == keys[i];
      }
      if SessionKey(u) in pool.value {
        assert SessionKey(u) in Elements(keys);
        var i :| 0 <= i < |keys| && keys[i] == SessionKey(u);
        assert users[i] == u;
      }
    }
    forall i, j | 0 <= i < j < |users|
      ensures users[i] != users[j]
    {
      assert keys[i] in Elements(keys) && keys[j] in Elements(keys);
      assert keys[i] == SessionKey(users[i]) && keys[j] == SessionKey(users[j]);
    }
    return Ok(users);
  }

  /** A user whose id itself contains "session:" is listed wrongly as written:
      the key of user "session:x" yields "x", which is not the user. */
  lemma ReplaceStripsInnerPrefix()
    ensures SessionKey("session:x") == "session:session:x"
    ensures RemoveAll("session:session:x", SessionPrefix) == "x"
    ensures SessionKey("x") != "session:session:x"
  {
    var k := "session:session:x";
    assert IsPrefix(SessionPrefix, k) by {
      assert k[..|SessionPrefix|] == SessionPrefix;
    }
    var rest := k[|SessionPrefix|..];
    assert rest == "session:x";
    assert IsPrefix(SessionPrefix, rest) by {
      assert rest[..|SessionPrefix|] == SessionPrefix;
    }
    assert rest[|SessionPrefix|..] == "x";
    assert !IsPrefix(SessionPrefix, "x");
    assert RemoveAll("x"[1..], SessionPrefix) == [];
    assert RemoveAll("x", SessionPrefix) == "x";
  }
}

=== FILE: security.dfy ===
/** The request-authentication dependencies of `app/core/security.py`: the
    session-presence check and user projection of `verify_token`, and the
    role guards built by `require_role`. */
module Security {
  import opened Common

  const Unauthorized := HttpError(401, "Could not validate credentials")
  const SessionExpired := HttpError(401, "Session expired")

  /** FastAPI's answer to an exception no handler catches. */
  const InternalError := HttpError(500, "Internal Server Error")

  /** `ROLE_REQUIRED_DETAIL.format(role)` */
  function RoleRequired(role: string): HttpError {
    HttpError(403, "Role '" + role + "' required")
  }

  /** A JSON object as the source sees a dict. */
  type Dict = map<string, Json>

  /** `d.get(key, default)` */
  function GetOr(d: Dict, key: string, default: Json): Json {
    if key in d then d[key] else default
  }

  /** `userinfo.get("realm_access", {}).get("roles", [])`; `None` when the block
      is present but not an object (an `AttributeError`). */
  function RealmRoles(info: Dict): (r: Option<Json>)
    ensures "realm_access" !in info ==> r == Some(JArr([]))
  {
    match GetOr(info, "realm_access", JObj(map[]))
    case JObj(f) => Some(GetOr(f, "roles", JArr([])))
    case _ => None
  }

  /** `verify_token`. `info` is the identity provider's userinfo answer (`None`
      when that call fails) and `sessionFor` what the session store returns for a
      subject. A missing subject, username or e-mail, or any failure of the call,
      becomes 401 "Could not validate credentials"; a subject without a (truthy)
      session becomes 401 "Session expired". */
  function VerifyToken(info: Option<Dict>, sessionFor: Json -> Json): (r: Result<Dict, HttpError>)
    ensures r.Ok? <==> info.Some? && "sub" in info.value && JsonTruthy(sessionFor(info.value["sub"]))
                       && "preferred_username" in info.value && "email" in info.value
                       && RealmRoles(info.value).Some?
    ensures (info.Some? && "sub" in info.value && !JsonTruthy(sessionFor(info.value["sub"])))
              ==> r == Err(SessionExpired)
    ensures r.Err? ==> r.error == Unauthorized || r.error == SessionExpired
    ensures r.Ok? ==> r.value.Keys == {"keycloak_id", "username", "email", "roles"}
                      && r.value["keycloak_id"] == info.value["sub"]
                      && r.value["username"] == info.value["preferred_username"]
                      && r.value["email"] == info.value["email"]
                      && Some(r.value["roles"]) == RealmRoles(info.value)
  {
    if info.None? || "sub" !in info.value then Err(Unauthorized)
    else
      var u := info.value;
      if !JsonTruthy(sessionFor(u["sub"])) then Err(SessionExpired)
      else if "preferred_username" !in u || "email" !in u then Err(Unauthorized)
      else match RealmRoles(u)
        case None => Err(Unauthorized)
        case Some(roles) =>
          Ok(map["keycloak_id" := u["sub"], "username" := u["preferred_username"],
                 "email" := u["email"], "roles" := roles])
  }

  /** A userinfo answer without realm roles yields a user with no roles. */
  lemma VerifyTokenRolesDefaultEmpty(info: Dict, sessionFor: Json -> Json)
    requires "realm_access" !in info
    requires VerifyToken(Some(info), sessionFor).Ok?
    ensures VerifyToken(Some(info), sessionFor).value["roles"] == JArr([])
  {
  }

  /** Python's `role in roles` for whatever value the roles key holds: list
      membership, substring for a string, key membership for an object; `None`
      for values `in` cannot search (a `TypeError`). */
  function RoleIn(role: string, roles: Json): Option<bool> {
    match roles
    case JArr(items) => Some(JStr(role) in items)
    case JStr(s) => Some(Contains(s, role))
    case JObj(f) => Some(role in f)
    case _ => None
  }

  /** `role_checker` for `required`: the user passes through unchanged when the
      role is among its roles (a missing roles key counts as no roles), and is
      refused with 403 otherwise. */
  function RoleChecker(required: string, user: Dict): (r: Result<Dict, HttpError>)
    ensures r == Ok(user) <==> RoleIn(required, GetOr(user, "roles", JArr([]))) == Some(true)
    ensures r == Err(RoleRequired(required)) <==> RoleIn(required, GetOr(user, "roles", JArr([]))) == Some(false)
    ensures r.Ok? ==> r.value == user
  {
    match RoleIn(required, GetOr(user, "roles", JArr([])))
    case Some(true) => Ok(user)
    case Some(false) => Err(RoleRequired(required))
    case None => Err(InternalError)
  }

  /** For the list of roles `verify_token` produces, the check is plain membership;
      a user dict without roles is always refused. */
  lemma RoleCheckerOnRoleList(required: string, user: Dict, roles: seq<Json>)
    ensures RoleChecker(required, user["roles" := JArr(roles)]).Ok? <==> JStr(required) in roles
    ensures RoleChecker(required, user - {"roles"}) == Err(RoleRequired(required))
  {
    assert GetOr(user["roles" := JArr(roles)], "roles", JArr([])) == JArr(roles);
    assert GetOr(user - {"roles"}, "roles", JArr([])) == JArr([]);
  }

  /** The healthcare roles for which `app/core/security.py` pre-builds a guard. */
  datatype GuardedRole = AdminRole | ClinicianRole | NurseRole

  function RoleName(g: GuardedRole): string {
    match g
    case AdminRole => "admin"
    case ClinicianRole => "clinician"
    case NurseRole => "nurse"
  }

  /** `require_admin`, `require_clinician` and `require_nurse`: `require_role`
      applied to a fixed role name. */
  function Require(g: GuardedRole, user: Dict): (r: Result<Dict, HttpError>)
    ensures r.Err? && RoleIn(RoleName(g), GetOr(user, "roles", JArr([]))).Some? ==> r.error == RoleRequired(RoleName(g))
    ensures r.Ok? <==> RoleIn(RoleName(g), GetOr(user, "roles", JArr([]))) == Some(true)
  {
    RoleChecker(RoleName(g), user)
  }

  /** The three guards are independent: an administrator with no other role
      passes only the administrator guard. */
  lemma GuardsAreDistinct(user: Dict)
    requires GetOr(user, "roles", JArr([])) == JArr([JStr("admin")])
    ensures Require(AdminRole, user).Ok?
    ensures Require(ClinicianRole, user) == Err(RoleRequired("clinician"))
    ensures Require(NurseRole, user) == Err(RoleRequired("nurse"))
  {
  }
}

=== FILE: session_api.dfy ===
/** The session router of `app/api/session.py`: the two path validators and the
    handlers that compose the session store (`LegacySession`) with the
    connection registry (`ConnectionRegistry`). The authenticated user id is a
    parameter; both services see the same Redis, so one pool stands for both. */
module SessionApi {
  import opened Common
  import opened SessionModels
  import LegacySession
  import ConnectionRegistry

  // ---------------------------------------------------------------------------
  // Path validation

  const StudyIdMaxLength := 100

  /** FastAPI's answer when a path parameter breaks its declared constraints;
      the list of error records it carries is not modelled. */
  const PathRejected := HttpError(422, "")

  const StudyIdBlank := HttpError(400, "Study ID cannot be empty")

  /** `validate_study_id`: the path constraint (1 to 100 characters) is checked
      by the framework first; then a whitespace-only id is refused with 400 and
      any other id is returned stripped. */
  function ValidateStudyIdPath(path: string): (r: Result<string, HttpError>)
    ensures r.Ok? <==> 1 <= |path| <= StudyIdMaxLength && !IsBlank(path)
    ensures r.Ok? ==> r.value != [] && |r.value| <= StudyIdMaxLength
                      && !IsSpace(r.value[0]) && !IsSpace(r.value[|r.value| - 1])
    ensures r == Err(StudyIdBlank) <==> 1 <= |path| <= StudyIdMaxLength && IsBlank(path)
    ensures r == Err(PathRejected) <==> !(1 <= |path| <= StudyIdMaxLength)
  {
    if !(1 <= |path| <= StudyIdMaxLength) then Err(PathRejected)
    else if IsBlank(path) then Err(StudyIdBlank)
    else Ok(Strip(path))
  }

  /** Within the path's length bounds the path validator and the request-body
      validator of `StudyOpenedRequest` accept the same ids and yield the same
      stripped value. */
  lemma PathAndBodyValidatorsAgree(path: string)
    requires 1 <= |path| <= StudyIdMaxLength
    ensures ValidateStudyIdPath(path).Ok? <==> ValidateRequestStudyId(path).Ok?
    ensures ValidateStudyIdPath(path).Ok? ==> ValidateStudyIdPath(path).value == ValidateRequestStudyId(path).value
  {
  }

  /** A validated study id validates to itself. */
  lemma ValidateStudyIdPathIdempotent(path: string)
    requires ValidateStudyIdPath(path).Ok?
    ensures ValidateStudyIdPath(ValidateStudyIdPath(path).value) == ValidateStudyIdPath(path)
  {
    StripIdempotent(path);
  }

  /** Python's `str()` of a list of strings without quotes inside them. */
  function ListText(items: seq<string>): string {
    "[" + QuotedItems(items) + "]"
  }

  function QuotedItems(items: seq<string>): string
    decreases |items|
  {
    if items == [] then ""
    else if |items| == 1 then "'" + items[0] + "'"
    else "'" + items[0] + "', " + QuotedItems(items[1..])
  }

  /** The values `validate_app_id` lists, `[app.value for app in AppType]`. */
  const ValidApps: seq<string> := ["dictation", "viewer", "worklist", "admin"]

  /** The 400 answer of `validate_app_id`. */
  function InvalidAppId(): HttpError {
    HttpError(400, "Invalid app_id. Must be one of: " + ListText(ValidApps))
  }

  /** The listed values are those of the enum, in declaration order, and a
      string is accepted exactly when it is listed. */
  lemma ValidAppsAreTheEnumValues(s: string)
    ensures ValidApps == MapSeq(AllAppTypes, AppTypeValue)
    ensures ValidateAppId(s).Ok? <==> s in ValidApps
  {
    assert MapSeq(AllAppTypes, AppTypeValue) == ValidApps;
  }

  /** `validate_app_id`: exactly the enum's values are accepted, each as its
      member; anything else is refused with the 400 that lists them. */
  function ValidateAppId(s: string): (r: Result<AppType, HttpError>)
    ensures r.Ok? <==> exists a: AppType :: AppTypeValue(a) == s
    ensures r.Ok? ==> AppTypeValue(r.value) == s
    ensures r.Err? ==> r.error == InvalidAppId()
  {
    match ParseAppType(s)
    case Some(a) => Ok(a)
    case None => Err(InvalidAppId())
  }

  /** Every member's value passes, and it names that member. */
  lemma ValidateAppIdRoundTrip(a: AppType)
    ensures ValidateAppId(AppTypeValue(a)) == Ok(a)
  {
    AppTypesAreExactlyFour();
  }

  // ---------------------------------------------------------------------------
  // Errors raised by the services, as the handlers report them

  /** `str(e)` for the service failures a handler can meet. */
  function FailureText(f: LegacySession.Failure): string {
    match f
    case NotInitialized => "Redis not initialized"
    case CannotEncode => "Invalid input of type: 'datetime'. Convert to a bytes, string, int or float first."
    case WrongShape => "'str' object has no attribute 'get'"
  }

  /** The 500 a handler raises for any exception, prefixed with its action. */
  function Failed(action: string, f: LegacySession.Failure): HttpError {
    HttpError(500, "Failed to " + action + ": " + FailureText(f))
  }

  // ---------------------------------------------------------------------------
  // The viewer study

  /** The session update of the open handler: the study id and the opening time
      (ISO text of `now`) are recorded; the other fields are left alone. */
  function RecordOpened(pool: Option<LegacySession.Store>, userId: string, studyId: string, now: nat,
                        loads: string -> Option<Json>)
    : (r: Result<(LegacySession.Store, LegacySession.StoredSession), LegacySession.Failure>)
    ensures pool.None? <==> r == Err(LegacySession.NotInitialized)
    ensures pool.Some? <==> r.Ok?
    ensures r.Ok? ==>
              var h := LegacySession.HashOf(r.value.0, LegacySession.SessionKey(userId));
              var before := LegacySession.HashOf(pool.value, LegacySession.SessionKey(userId));
              && LegacySession.Field(h, "opened_viewer_studyid") == Some(LegacySession.Text(studyId))
              && LegacySession.Field(h, "opened_viewer_datetime") == Some(LegacySession.IsoText(now))
              && LegacySession.Field(h, "active_connections") == LegacySession.Field(before, "active_connections")
              && LegacySession.Field(h, "metadata") == LegacySession.Field(before, "metadata")
    ensures r.Ok? ==> forall k | k in pool.value && k != LegacySession.SessionKey(userId) ::
                        k in r.value.0 && r.value.0[k] == pool.value[k]
  {
    LegacySession.UpdateDataWrites(userId, Some(studyId), Some(LegacySession.IsoText(now)), None, None, map[], now);
    var u := LegacySession.UpdateData(userId, Some(studyId), Some(LegacySession.IsoText(now)), None, None, map[], now);
    assert LegacySession.Encodable(u) by {
      forall k | k in u
        ensures !u[k].DateTimeObject?
      {
        assert k in LegacySession.NamedParameters || k == "last_activity";
      }
    }
    LegacySession.UpdateSession(pool, userId, Some(studyId), Some(LegacySession.IsoText(now)), None, None,
                                map[], now, loads)
  }

  /** The session update of the close handler: both viewer arguments are `None`,
      so nothing of the session is cleared. */
  function RecordClosed(pool: Option<LegacySession.Store>, userId: string, now: nat, loads: string -> Option<Json>)
    : (r: Result<(LegacySession.Store, LegacySession.StoredSession), LegacySession.Failure>)
    ensures pool.None? <==> r == Err(LegacySession.NotInitialized)
    ensures pool.Some? <==> r.Ok?
    ensures r.Ok? ==>
              var h := LegacySession.HashOf(r.value.0, LegacySession.SessionKey(userId));
              var before := LegacySession.HashOf(pool.value, LegacySession.SessionKey(userId));
              && LegacySession.Field(h, "opened_viewer_studyid") == LegacySession.Field(before, "opened_viewer_studyid")
              && LegacySession.Field(h, "opened_viewer_datetime") == LegacySession.Field(before, "opened_viewer_datetime")
  {
    if pool.None? then Err(LegacySession.NotInitialized)
    else
      LegacySession.UpdateWithNoneClearsNothing(pool.value, userId, now, loads);
      LegacySession.UpdateSession(pool, userId, None, None, None, None, map[], now, loads)
  }

  /** Closing after opening leaves the opened study recorded: the close handler
      does not clear what its description says it clears. */
  lemma CloseAfterOpenKeepsStudy(pool: LegacySession.Store, userId: string, studyId: string,
                                 openedAt: nat, closedAt: nat, loads: string -> Option<Json>)
    ensures var o := RecordOpened(Some(pool), userId, studyId, openedAt, loads);
            && o.Ok?
            && var c := RecordClosed(Some(o.value.0), userId, closedAt, loads);
            && c.Ok?
            && var h := LegacySession.HashOf(c.value.0, LegacySession.SessionKey(userId));
            && LegacySession.Field(h, "opened_viewer_studyid") == Some(LegacySession.Text(studyId))
            && LegacySession.Field(h, "opened_viewer_datetime") == Some(LegacySession.IsoText(openedAt))
  {
    var o := RecordOpened(Some(pool), userId, studyId, openedAt, loads);
    var c := RecordClosed(Some(o.value.0), userId, closedAt, loads);
  }

  datatype StudyOpened = StudyOpened(message: string, studyId: string, datetime: nat, userId: string)
  datatype StudyClosed = StudyClosed(message: string, studyId: string, userId: string)

  /** `open_study_in_viewer` as written: `opened_datetime` is already the ISO
      text, so `opened_datetime.isoformat()` in the notification payload raises
      `AttributeError` after the session was updated and before anything is
      notified; the handler turns it into a 500. The result is the store as left
      behind and the answer. */
  function OpenStudyAsWritten(pool: Option<LegacySession.Store>, userId: string, studyId: string, now: nat,
                              loads: string -> Option<Json>)
    : (r: (Option<LegacySession.Store>, Result<StudyOpened, HttpError>))
    ensures pool.None? ==> r == (None, Err(Failed("open study", LegacySession.NotInitialized)))
    ensures pool.Some? ==> r.1 == Err(HttpError(500, "Failed to open study: 'str' object has no attribute 'isoformat'"))
    ensures pool.Some? ==> r.0.Some? && LegacySession.Field(LegacySession.HashOf(r.0.value, LegacySession.SessionKey(userId)),
                                                            "opened_viewer_studyid") == Some(LegacySession.Text(studyId))
  {
    if pool.None? then (None, Err(Failed("open study", LegacySession.NotInitialized)))
    else
      var o := RecordOpened(pool, userId, studyId, now, loads);
      (Some(o.value.0), Err(HttpError(500, "Failed to open study: 'str' object has no attribute 'isoformat'")))
  }

  /** `open_study_in_viewer` with the timestamp used as the text it already is:
      the session is updated first, then the user's dictation app is notified;
      whether a notification went out does not change the answer. A failing
      update is a 500 and notifies nobody. */
  method OpenStudy(pool: Option<LegacySession.Store>, reg: ConnectionRegistry.Registry, userId: string,
                   studyId: string, now: nat, loads: string -> Option<Json>)
    returns (r: Result<(LegacySession.Store, StudyOpened), HttpError>, notified: bool)
    ensures pool.None? ==> r == Err(Failed("open study", LegacySession.NotInitialized)) && !notified
    ensures pool.Some? ==> r.Ok?
    ensures r.Ok? ==> r.value.1 == StudyOpened("Study " + studyId + " opened for viewer", studyId, now, userId)
    ensures r.Ok? ==> LegacySession.Field(LegacySession.HashOf(r.value.0, LegacySession.SessionKey(userId)),
                                          "opened_viewer_studyid") == Some(LegacySession.Text(studyId))
    ensures r.Ok? ==> LegacySession.Field(LegacySession.HashOf(r.value.0, LegacySession.SessionKey(userId)),
                                          "opened_viewer_datetime") == Some(LegacySession.IsoText(now))
    ensures r.Ok? ==> (notified <==> exists id | id in ConnectionRegistry.Members(reg, userId) ::
                                       ConnectionRegistry.LiveFor(reg, id, AppTypeValue(Dictation)))
  {
    if pool.None? {
      r, notified := Err(Failed("open study", LegacySession.NotInitialized)), false;
    } else {
      var updated := RecordOpened(pool, userId, studyId, now, loads);
      notified := ConnectionRegistry.NotifyDictationApp(reg, userId);
      r := Ok((updated.value.0, StudyOpened("Study " + studyId + " opened for viewer", studyId, now, userId)));
    }
  }

  /** `close_study_in_viewer`: the session is refreshed (nothing cleared), the
      dictation app notified, and the closing confirmed; a failing update is a
      500 and notifies nobody. */
  method CloseStudy(pool: Option<LegacySession.Store>, reg: ConnectionRegistry.Registry, userId: string,
                    studyId: string, now: nat, loads: string -> Option<Json>)
    returns (r: Result<(LegacySession.Store, StudyClosed), HttpError>, notified: bool)
    ensures pool.None? ==> r == Err(Failed("close study", LegacySession.NotInitialized)) && !notified
    ensures pool.Some? ==> r.Ok?
    ensures r.Ok? ==> r.value.1 == StudyClosed("Study " + studyId + " closed for viewer", studyId, userId)
    ensures r.Ok? ==>
              var h := LegacySession.HashOf(r.value.0, LegacySession.SessionKey(userId));
              var before := LegacySession.HashOf(pool.value, LegacySession.SessionKey(userId));
              LegacySession.Field(h, "opened_viewer_studyid") == LegacySession.Field(before, "opened_viewer_studyid")
    ensures r.Ok? ==> (notified <==> exists id | id in ConnectionRegistry.Members(reg, userId) ::
                                       ConnectionRegistry.LiveFor(reg, id, AppTypeValue(Dictation)))
  {
    if pool.None? {
      r, notified := Err(Failed("close study", LegacySession.NotInitialized)), false;
    } else {
      var updated := RecordClosed(pool, userId, now, loads);
      notified := ConnectionRegistry.NotifyDictationApp(reg, userId);
      r := Ok((updated.value.0, StudyClosed("Study " + studyId + " closed for viewer", studyId, userId)));
    }
  }

  // ---------------------------------------------------------------------------
  // Connections and logout

  datatype WebSocketStatus = WebSocketStatus(userId: string, appId: string, connected: bool,
                                             sessionId: Option<string>, connectedSince: Option<nat>)

  /** `get_websocket_status`: the registry's status for the user and application,
      reported under the application's value. */
  method WebsocketStatus(reg: ConnectionRegistry.Registry, userId: string, app: AppType)
    returns (r: WebSocketStatus)
    ensures r.userId == userId && r.appId == AppTypeValue(app)
    ensures r.connected <==> exists id | id in ConnectionRegistry.Members(reg, userId) ::
                               ConnectionRegistry.LiveFor(reg, id, AppTypeValue(app))
    ensures r.connected ==> r.sessionId.Some? && ConnectionRegistry.LiveFor(reg, r.sessionId.value, AppTypeValue(app))
                            && r.connectedSince == Some(reg.records[r.sessionId.value].connectedAt)
    ensures !r.connected ==> r.sessionId.None? && r.connectedSince.None?
  {
    var st := ConnectionRegistry.GetConnectionStatus(reg, userId, app);
    r := WebSocketStatus(userId, AppTypeValue(app), st.connected, st.sessionId, st.connectedSince);
  }

  datatype ActiveConnections = ActiveConnections(userId: string, connections: seq<ConnectionRegistry.ConnectionInfo>,
                                                 total: nat)

  /** The ids of a non-empty list: the head's and those of the rest. */
  lemma IdsOfCons(cs: seq<ConnectionRegistry.ConnectionInfo>)
    requires cs != []
    ensures ConnectionRegistry.IdsOf(cs) == {cs[0].connectionId} + ConnectionRegistry.IdsOf(cs[1..])
  {
    assert forall d | d in cs :: d == cs[0] || d in cs[1..];
  }

  /** Distinct entries that are each determined by their id have as many ids as
      entries. */
  lemma {:induction false} IdsOfDistinctInfos(reg: ConnectionRegistry.Registry, cs: seq<ConnectionRegistry.ConnectionInfo>)
    requires NoDuplicates(cs)
    requires forall c | c in cs ::
               c.connectionId in reg.records && c == ConnectionRegistry.InfoOf(c.connectionId, reg.records[c.connectionId])
    ensures |ConnectionRegistry.IdsOf(cs)| == |cs|
    decreases |cs|
  {
    if cs != [] {
      var rest := cs[1..];
      assert NoDuplicates(rest) by {
        forall i, j | 0 <= i < j < |rest|
          ensures rest[i] != rest[j]
        {
          assert rest[i] == cs[i + 1] && rest[j] == cs[j + 1];
        }
      }
      IdsOfDistinctInfos(reg, rest);
      IdsOfCons(cs);
      var c := cs[0];
      assert c !in rest;
      assert c.connectionId !in ConnectionRegistry.IdsOf(rest);
    }
  }

  /** `get_active_connections`: one entry per live connection of the user, and
      the total is the number of those connections. */
  method GetActiveConnections(reg: ConnectionRegistry.Registry, userId: string) returns (r: ActiveConnections)
    ensures r.userId == userId
    ensures ConnectionRegistry.IdsOf(r.connections) == reg.records.Keys * ConnectionRegistry.Members(reg, userId)
    ensures r.total == |reg.records.Keys * ConnectionRegistry.Members(reg, userId)|
    ensures r.total == |r.connections|
  {
    var conns := ConnectionRegistry.GetUserConnections(reg, userId);
    IdsOfDistinctInfos(reg, conns);
    r := ActiveConnections(userId, conns, |conns|);
  }

  datatype LoggedOut = LoggedOut(message: string, userId: string, clearedSessions: nat, disconnectedWebsockets: nat)

  /** `logout_user`: the session is cleared, then every connection of the user is
      disconnected; the answer carries both counts. Afterwards the session reads
      as the default one and the user has no live connection left. */
  method Logout(pool: Option<LegacySession.Store>, reg: ConnectionRegistry.Registry, userId: string)
    returns (r: Result<(LegacySession.Store, ConnectionRegistry.Registry, LoggedOut), HttpError>)
    ensures pool.None? <==> r == Err(Failed("logout", LegacySession.NotInitialized))
    ensures r.Ok? ==> r.value.0 == pool.value - {LegacySession.SessionKey(userId)}
    ensures r.Ok? ==> r.value.2.message == "Session cleared successfully" && r.value.2.userId == userId
    ensures r.Ok? ==> (r.value.2.clearedSessions == 1 <==> LegacySession.SessionKey(userId) in pool.value)
                      && r.value.2.clearedSessions <= 1
    ensures r.Ok? ==> r.value.2.disconnectedWebsockets == |reg.records.Keys * ConnectionRegistry.Members(reg, userId)|
    ensures r.Ok? ==> forall id | id in ConnectionRegistry.Members(r.value.1, userId) :: id !in r.value.1.records
    ensures r.Ok? ==> forall id | id in reg.records && id !in ConnectionRegistry.Members(reg, userId) ::
                        id in r.value.1.records && r.value.1.records[id] == reg.records[id]
  {
    match LegacySession.ClearSession(pool, userId)
    case Err(f) =>
      r := Err(Failed("logout", f));
    case Ok((store, cleared)) =>
      var reg', count := ConnectionRegistry.DisconnectUserConnections(reg, userId);
      r := Ok((store, reg', LoggedOut("Session cleared successfully", userId, cleared, count)));
  }
}

=== FILE: session_management.dfy ===
/** `SessionManagementService` (app/services/session_management_service.py):
    sessions keyed by the identity provider's `session_state`, the events
    recorded against them, their publication on the "dictation_stream" Redis
    stream, and the session-state projection. The database is two tables: a
    map of session rows by id and the event rows in insertion order. */
module SessionManagement {
  import opened Common
  import StreamStore

  /** The stream events are published on. */
  const DictationStream := "dictation_stream"

  /** The user-info dict the service receives (the claims of the token). */
  type UserInfo = map<string, Json>

  /** `user_info.get(key)` */
  function Get(info: UserInfo, key: string): Json {
    if key in info then info[key] else JNull
  }

  /** `user_info["sub"]` on a dict without it raises `KeyError`. */
  datatype ServiceError = MissingSub

  /** A session row. `lastUpdated` is `None` while the column still holds
      whatever the table gives a new row. */
  datatype SessionRow = SessionRow(userid: Json, lastUpdated: Option<nat>)

  datatype EventRow = EventRow(
    eventId: string, sessionId: Json, userid: Json, event: string, studyid: Option<string>,
    datetime: nat, source: string, target: seq<string>, eventData: Option<Json>)

  datatype Db = Db(sessions: map<Json, SessionRow>, events: seq<EventRow>)

  /** The events of one session, in the order they were stored. */
  function EventsOf(db: Db, sessionId: Json): (r: seq<EventRow>)
    ensures forall i | 0 <= i < |r| :: r[i].sessionId == sessionId && r[i] in db.events
  {
    Filter(db.events, (e: EventRow) => e.sessionId == sessionId)
  }

  /** The session id of a request: its `session_state` claim when truthy,
      otherwise a freshly generated UUID (`freshId`). */
  function SessionIdFor(info: UserInfo, freshId: string): (id: Json)
    ensures JsonTruthy(Get(info, "session_state")) ==> id == info["session_state"]
    ensures !JsonTruthy(Get(info, "session_state")) ==> id == JStr(freshId)
  {
    var claimed := Get(info, "session_state");
    if JsonTruthy(claimed) then claimed else JStr(freshId)
  }

  /** `get_or_create_session`: a new session is stored for the subject; an
      existing one only has `last_updated` moved to `now`. */
  function GetOrCreateSession(db: Db, info: UserInfo, freshId: string, now: nat)
    : (r: Result<(Db, Json), ServiceError>)
    ensures r.Err? <==> "sub" !in info
    ensures r.Ok? ==>
              var (after, id) := r.value;
              && id == SessionIdFor(info, freshId)
              && after.events == db.events
              && after.sessions.Keys == db.sessions.Keys + {id}
              && (forall k | k in db.sessions && k != id :: after.sessions[k] == db.sessions[k])
              && (id !in db.sessions ==> after.sessions[id] == SessionRow(info["sub"], None))
              && (id in db.sessions ==> after.sessions[id] == db.sessions[id].(lastUpdated := Some(now)))
  {
    var id := SessionIdFor(info, freshId);
    if "sub" !in info then Err(MissingSub)
    else if id !in db.sessions then
      Ok((db.(sessions := db.sessions[id := SessionRow(info["sub"], None)]), id))
    else
      Ok((db.(sessions := db.sessions[id := db.sessions[id].(lastUpdated := Some(now))]), id))
  }

  /** With a `session_state` claim, repeating the call gives the same id, keeps
      a single row for it owned by whoever created it, and adds no other row. */
  lemma GetOrCreateTwice(db: Db, info: UserInfo, fresh1: string, fresh2: string, t1: nat, t2: nat)
    requires "sub" in info && JsonTruthy(Get(info, "session_state"))
    ensures var first := GetOrCreateSession(db, info, fresh1, t1).value;
            var second := GetOrCreateSession(first.0, info, fresh2, t2).value;
            && second.1 == first.1 == info["session_state"]
            && second.0.sessions.Keys == db.sessions.Keys + {first.1}
            && second.0.sessions[first.1].userid
               == (if first.1 in db.sessions then db.sessions[first.1].userid else info["sub"])
            && second.0.sessions[first.1].lastUpdated == Some(t2)
  {
  }

  /** `json.dumps(event_data) if event_data else None` */
  function StoredData(eventData: Option<map<string, Json>>): (r: Option<Json>)
    ensures r.None? <==> eventData.None? || eventData.value == map[]
    ensures r.Some? ==> r.value == JObj(eventData.value)
  {
    if eventData.Some? && eventData.value != map[] then Some(JObj(eventData.value)) else None
  }

  /** The dict `create_session_event` returns. */
  datatype EventDict = EventDict(
    eventId: string, sessionId: Json, event: string, studyid: Option<string>,
    datetime: nat, source: string, target: seq<string>)

  /** `create_session_event` with `eventId` the new UUID and `now` the clock: one
      event row is appended and the returned dict echoes the call. */
  function CreateSessionEvent(db: Db, sessionId: Json, info: UserInfo, eventType: string,
                              studyId: Option<string>, source: string, target: seq<string>,
                              eventData: Option<map<string, Json>>, eventId: string, now: nat)
    : (r: Result<(Db, EventDict), ServiceError>)
    ensures r.Err? <==> "sub" !in info
    ensures r.Ok? ==>
              var (after, d) := r.value;
              && after.sessions == db.sessions
              && |after.events| == |db.events| + 1
              && after.events[..|db.events|] == db.events
              && after.events[|db.events|] == EventRow(eventId, sessionId, info["sub"], eventType, studyId,
                                                       now, source, target, StoredData(eventData))
              && d == EventDict(eventId, sessionId, eventType, studyId, now, source, target)
  {
    if "sub" !in info then Err(MissingSub)
    else
      var row := EventRow(eventId, sessionId, info["sub"], eventType, studyId, now, source, target,
                          StoredData(eventData));
      Ok((db.(events := db.events + [row]), EventDict(eventId, sessionId, eventType, studyId, now, source, target)))
  }

  /** The JSON list of the target application names. */
  function TargetJson(target: seq<string>): (j: Json)
    ensures j.JArr? && |j.items| == |target|
  {
    JArr(MapSeq(target, (t: string) => JStr(t)))
  }

  /** The fields of the stream entry for an event. `dumps` is `json.dumps` and
      `text` how the client writes a claim value into the stream. */
  function StreamFields(event: EventDict, sub: Json, eventData: Option<map<string, Json>>,
                        dumps: Json -> string, text: Json -> string): (f: map<string, string>)
    ensures f.Keys == {"event", "data", "user_id", "session_id", "event_id", "source", "target"}
    ensures f["event"] == event.event && f["event_id"] == event.eventId && f["source"] == event.source
    ensures f["user_id"] == text(sub) && f["session_id"] == text(event.sessionId)
    ensures f["target"] == dumps(TargetJson(event.target))
    ensures f["data"] == (if StoredData(eventData).Some? then dumps(StoredData(eventData).value) else "{}")
  {
    map["event" := event.event,
        "data" := (if StoredData(eventData).Some? then dumps(StoredData(eventData).value) else "{}"),
        "user_id" := text(sub),
        "session_id" := text(event.sessionId),
        "event_id" := event.eventId,
        "source" := event.source,
        "target" := dumps(TargetJson(event.target))]
  }

  /** `publish_to_redis_stream`: the entry id on success; `None`, with the server
      untouched, when there is no client, the subject is missing or `XADD`
      fails (`fault`). It never raises. */
  function PublishToStream(client: Option<StreamStore.Server>, event: EventDict, info: UserInfo,
                           eventData: Option<map<string, Json>>, newId: string, fault: bool,
                           dumps: Json -> string, text: Json -> string)
    : (r: (Option<StreamStore.Server>, Option<string>))
    ensures r.1.Some? <==> client.Some? && "sub" in info && !fault
    ensures r.1.None? ==> r.0 == client
    ensures r.1.Some? ==> r.1.value == newId
                          && r.0 == Some(StreamStore.XAdd(client.value, DictationStream, newId,
                                                          StreamFields(event, info["sub"], eventData, dumps, text)))
  {
    if client.None? || "sub" !in info || fault then (client, None)
    else
      var fields := StreamFields(event, info["sub"], eventData, dumps, text);
      (Some(StreamStore.XAdd(client.value, DictationStream, newId, fields)), Some(newId))
  }

  /** A published event lands at the end of "dictation_stream" with an empty
      JSON object as data when there is no payload. */
  lemma PublishWithoutPayload(server: StreamStore.Server, event: EventDict, info: UserInfo, newId: string,
                              dumps: Json -> string, text: Json -> string)
    requires "sub" in info
    ensures var after := PublishToStream(Some(server), event, info, None, newId, false, dumps, text).0.value;
            var entries := after[DictationStream].entries;
            && entries[|entries| - 1].id == newId
            && entries[|entries| - 1].fields["data"] == "{}"
            && entries[|entries| - 1].fields["user_id"] == text(info["sub"])
  {
  }

  // ---------------------------------------------------------------------------
  // The session-state projection

  datatype EventView = EventView(
    eventId: string, event: string, studyid: Option<string>, datetime: nat, source: string, target: seq<string>)

  function ViewOf(e: EventRow): EventView {
    EventView(e.eventId, e.event, e.studyid, e.datetime, e.source, e.target)
  }

  /** The dict `get_session_state` returns; `sessionId` is `JNull` for `None`. */
  datatype SessionStateView = SessionStateView(
    sessionId: Json, userid: Json, events: seq<EventView>,
    preferredUsername: Json, email: Json, roles: Json)

  /** `user_info.get("roles", [])` */
  function RolesOf(info: UserInfo): (r: Json)
    ensures "roles" !in info ==> r == JArr([])
  {
    if "roles" in info then info["roles"] else JArr([])
  }

  /** The returned dict: the session part and the caller's `user_info` part. */
  function StateView(info: UserInfo, sessionId: Json, userid: Json, events: seq<EventView>): SessionStateView {
    SessionStateView(sessionId, userid, events, Get(info, "preferred_username"), Get(info, "email"), RolesOf(info))
  }

  /** `get_session_state`: without a truthy `session_state`, or for an unknown
      session, no events and the caller as user; otherwise the stored session's
      owner and its events in stored order. */
  function GetSessionState(db: Db, info: UserInfo): (r: Result<SessionStateView, ServiceError>)
    ensures r.Err? <==> "sub" !in info
    ensures r.Ok? ==> r.value.preferredUsername == Get(info, "preferred_username")
                      && r.value.email == Get(info, "email") && r.value.roles == RolesOf(info)
    ensures r.Ok? && !JsonTruthy(Get(info, "session_state")) ==>
              r.value.sessionId == JNull && r.value.userid == info["sub"] && r.value.events == []
    ensures r.Ok? && JsonTruthy(Get(info, "session_state")) ==> r.value.sessionId == info["session_state"]
    ensures r.Ok? && JsonTruthy(Get(info, "session_state")) && info["session_state"] !in db.sessions ==>
              r.value.userid == info["sub"] && r.value.events == []
    ensures r.Ok? && JsonTruthy(Get(info, "session_state")) && info["session_state"] in db.sessions ==>
              r.value.userid == db.sessions[info["session_state"]].userid
              && |r.value.events| == |EventsOf(db, info["session_state"])|
              && forall i | 0 <= i < |r.value.events| ::
                   r.value.events[i] == ViewOf(EventsOf(db, info["session_state"])[i])
  {
    if "sub" !in info then Err(MissingSub)
    else
      var sub := info["sub"];
      var id := Get(info, "session_state");
      if !JsonTruthy(id) then Ok(StateView(info, JNull, sub, []))
      else if id !in db.sessions then Ok(StateView(info, id, sub, []))
      else Ok(StateView(info, id, db.sessions[id].userid, MapSeq(EventsOf(db, id), ViewOf)))
  }

  /** Storing an event of a session puts it at the end of that session's events. */
  lemma EventsOfAppend(db: Db, row: EventRow)
    ensures EventsOf(db.(events := db.events + [row]), row.sessionId) == EventsOf(db, row.sessionId) + [row]
  {
    var p := (e: EventRow) => e.sessionId == row.sessionId;
    FilterAppend(db.events, [row], p);
    assert Filter([row], p) == [row];
  }

  /** The views of a list with one more event: the old views and that event's. */
  lemma ViewsAppend(eb: seq<EventRow>, row: EventRow, vb: seq<EventView>, va: seq<EventView>)
    requires |vb| == |eb| && forall i | 0 <= i < |vb| :: vb[i] == ViewOf(eb[i])
    requires |va| == |eb| + 1 && forall i | 0 <= i < |va| :: va[i] == ViewOf((eb + [row])[i])
    ensures va == vb + [ViewOf(row)]
  {
    assert forall i | 0 <= i < |vb| :: va[i] == vb[i] by {
      forall i | 0 <= i < |vb|
        ensures va[i] == vb[i]
      {
        assert (eb + [row])[i] == eb[i];
      }
    }
    assert va[|vb|] == ViewOf(row) by {
      assert (eb + [row])[|eb|] == row;
    }
  }

  /** An event recorded against an existing session shows up last in that
      session's state, after the ones recorded before it. */
  lemma {:induction false} CreatedEventIsListedLast(db: Db, info: UserInfo, eventType: string,
                                                    studyId: Option<string>, source: string, target: seq<string>,
                                                    eventData: Option<map<string, Json>>, eventId: string, now: nat)
    requires "sub" in info && JsonTruthy(Get(info, "session_state"))
    requires info["session_state"] in db.sessions
    ensures var id := info["session_state"];
            var after := CreateSessionEvent(db, id, info, eventType, studyId, source, target,
                                            eventData, eventId, now).value.0;
            var before := GetSessionState(db, info).value.events;
            GetSessionState(after, info).value.events
              == before + [EventView(eventId, eventType, studyId, now, source, target)]
  {
    var id := info["session_state"];
    var after := CreateSessionEvent(db, id, info, eventType, studyId, source, target, eventData, eventId, now).value.0;
    var row := after.events[|db.events|];
    assert after == db.(events := db.events + [row]) by {
      assert after.events == after.events[..|db.events|] + [row];
    }
    EventsOfAppend(db, row);
    var vb := GetSessionState(db, info).value.events;
    var va := GetSessionState(after, info).value.events;
    ViewsAppend(EventsOf(db, id), row, vb, va);
  }
}

=== FILE: session_models.dfy ===
/** The request and state models of `app/models/session_models.py`: the application
    types, the `SessionState` record with its `extra = "forbid"` policy, and the
    field validators (user id, study id, patient name and birthday, sample rate). */
module SessionModels {
  import opened Common

  /** The front-end applications a connection or an event can belong to. */
  datatype AppType = Dictation | Viewer | Worklist | Admin

  /** The enum member's string value. */
  function AppTypeValue(a: AppType): string {
    match a
    case Dictation => "dictation"
    case Viewer => "viewer"
    case Worklist => "worklist"
    case Admin => "admin"
  }

  /** The members in declaration order, as iterating over the enum yields them. */
  const AllAppTypes: seq<AppType> := [Dictation, Viewer, Worklist, Admin]

  /** `AppType(s)`: the member whose value is `s`; `None` stands for the `ValueError`. */
  function ParseAppType(s: string): (r: Option<AppType>)
    ensures r.Some? ==> AppTypeValue(r.value) == s
    ensures r.None? <==> forall a: AppType :: AppTypeValue(a) != s
  {
    if s == "dictation" then Some(Dictation)
    else if s == "viewer" then Some(Viewer)
    else if s == "worklist" then Some(Worklist)
    else if s == "admin" then Some(Admin)
    else None
  }

  /** There are exactly four application types, with four distinct values, and
      parsing a member's value gives the member back. */
  lemma AppTypesAreExactlyFour()
    ensures forall a: AppType :: a in AllAppTypes
    ensures |AllAppTypes| == 4 && NoDuplicates(MapSeq(AllAppTypes, AppTypeValue))
    ensures forall a: AppType :: ParseAppType(AppTypeValue(a)) == Some(a)
  {
    var vs := MapSeq(AllAppTypes, AppTypeValue);
    assert vs == ["dictation", "viewer", "worklist", "admin"];
    forall a: AppType
      ensures a in AllAppTypes
    {
      match a
      case Dictation => assert AllAppTypes[0] == a;
      case Viewer => assert AllAppTypes[1] == a;
      case Worklist => assert AllAppTypes[2] == a;
      case Admin => assert AllAppTypes[3] == a;
    }
  }

  // ---------------------------------------------------------------------------
  // Field validators

  datatype UseridError = UseridMissing | UseridEmpty | UseridTooShort

  /** `SessionState.validate_userid`: blank input is rejected, then a stripped
      value shorter than three characters; otherwise the stripped value is kept. */
  function ValidateUserid(v: string): (r: Result<string, UseridError>)
    ensures r.Ok? <==> !IsBlank(v) && |Strip(v)| >= 3
    ensures r.Ok? ==> r.value == Strip(v) && |r.value| >= 3
    ensures r == Err(UseridEmpty) <==> IsBlank(v)
  {
    if IsBlank(v) then Err(UseridEmpty)
    else if |Strip(v)| < 3 then Err(UseridTooShort)
    else Ok(Strip(v))
  }

  /** A validated user id validates again to itself. */
  lemma ValidateUseridIdempotent(v: string)
    requires ValidateUserid(v).Ok?
    ensures ValidateUserid(ValidateUserid(v).value) == ValidateUserid(v)
  {
    StripIdempotent(v);
  }

  datatype StudyIdError = StudyIdTooShort | StudyIdEmpty

  /** `StudyOpenedRequest.study_id`: the field constraint `min_length=1` is checked
      first, then the validator rejects whitespace-only values and strips the rest. */
  function ValidateRequestStudyId(v: string): (r: Result<string, StudyIdError>)
    ensures r.Ok? <==> !IsBlank(v)
    ensures r.Ok? ==> r.value == Strip(v) && r.value != []
    ensures r == Err(StudyIdTooShort) <==> v == []
  {
    if |v| < 1 then Err(StudyIdTooShort)
    else if IsBlank(v) then Err(StudyIdEmpty)
    else Ok(Strip(v))
  }

  lemma ValidateRequestStudyIdIdempotent(v: string)
    requires ValidateRequestStudyId(v).Ok?
    ensures ValidateRequestStudyId(ValidateRequestStudyId(v).value) == ValidateRequestStudyId(v)
  {
    StripIdempotent(v);
  }

  datatype PatientError = NameEmpty | BirthdayMissing

  /** `PatientInfo.validate_name`: a non-blank name, returned stripped. */
  function ValidatePatientName(v: string): (r: Result<string, PatientError>)
    ensures r.Ok? <==> !IsBlank(v)
    ensures r.Ok? ==> r.value == Strip(v) && r.value != []
    ensures r.Err? ==> r.error == NameEmpty
  {
    if IsBlank(v) then Err(NameEmpty) else Ok(Strip(v))
  }

  /** `PatientInfo.validate_birthday`: any non-empty value, returned unchanged
      (whitespace-only birthdays are accepted). */
  function ValidatePatientBirthday(v: string): (r: Result<string, PatientError>)
    ensures r.Ok? <==> v != []
    ensures r.Ok? ==> r.value == v
    ensures r.Err? ==> r.error == BirthdayMissing
  {
    if v == [] then Err(BirthdayMissing) else Ok(v)
  }

  /** Validated patient fields validate again to themselves; a whitespace-only
      value is a valid birthday but not a valid name. */
  lemma PatientFieldsRevalidate(name: string, birthday: string, blank: string)
    requires ValidatePatientName(name).Ok? && ValidatePatientBirthday(birthday).Ok?
    requires blank != [] && IsBlank(blank)
    ensures ValidatePatientName(ValidatePatientName(name).value) == ValidatePatientName(name)
    ensures ValidatePatientBirthday(ValidatePatientBirthday(birthday).value) == ValidatePatientBirthday(birthday)
    ensures ValidatePatientBirthday(blank) == Ok(blank) && ValidatePatientName(blank) == Err(NameEmpty)
  {
    var n := Strip(name);
    StripIdempotent(name);
    assert !IsSpace(n[0]);
  }

  /** The audio sample rates `DictationConfig` accepts, in the order its error message lists them. */
  const ValidSampleRates: seq<int> := [8000, 16000, 22050, 44100, 48000]

  /** The field's default value. */
  const DefaultSampleRate: int := 16000

  /** `DictationConfig.validate_sample_rate`: a whitelisted rate passes unchanged;
      anything else is rejected with a message listing the whitelist. */
  function ValidateSampleRate(v: int): (r: Result<int, string>)
    ensures r.Ok? <==> v == 8000 || v == 16000 || v == 22050 || v == 44100 || v == 48000
    ensures r.Ok? ==> r.value == v
    ensures r.Err? ==> r.error == "Sample rate must be one of: [8000, 16000, 22050, 44100, 48000]"
  {
    if v in ValidSampleRates then Ok(v)
    else Err("Sample rate must be one of: [8000, 16000, 22050, 44100, 48000]")
  }

  /** The default sample rate passes its own validator. */
  lemma DefaultSampleRateIsValid()
    ensures ValidateSampleRate(DefaultSampleRate) == Ok(DefaultSampleRate)
  {
  }

  // ---------------------------------------------------------------------------
  // SessionState construction

  /** A keyword argument value handed to a model constructor. */
  datatype FieldArg = ArgNone | ArgText(text: string) | ArgTime(t: nat) | ArgJson(value: Json)

  /** The declared fields of `SessionState`. */
  const SessionStateFields: set<string> :=
    {"userid", "opened_viewer_studyid", "opened_viewer_datetime",
     "opened_dictation_studyid", "opened_dictation_datetime"}

  datatype SessionState = SessionState(
    userid: string,
    openedViewerStudyid: FieldArg,
    openedViewerDatetime: FieldArg,
    openedDictationStudyid: FieldArg,
    openedDictationDatetime: FieldArg)

  /** All problems pydantic reports together: the undeclared keyword arguments and,
      when it fails, the user-id problem. */
  datatype SessionStateError = SessionStateError(extra: set<string>, userid: Option<UseridError>)

  function ArgOr(args: map<string, FieldArg>, key: string): FieldArg {
    if key in args then args[key] else ArgNone
  }

  /** The user-id check of the constructor: the field is required and must be text. */
  function UseridProblem(args: map<string, FieldArg>): Option<UseridError> {
    if "userid" !in args || !args["userid"].ArgText? then Some(UseridMissing)
    else match ValidateUserid(args["userid"].text)
      case Ok(_) => None
      case Err(e) => Some(e)
  }

  /** `SessionState(**args)`: construction fails when any keyword is undeclared
      (`extra = "forbid"`) or the user id is missing or invalid; optional fields
      left out default to `None`. */
  function NewSessionState(args: map<string, FieldArg>): (r: Result<SessionState, SessionStateError>)
    ensures r.Ok? <==> args.Keys <= SessionStateFields && "userid" in args
                       && args["userid"].ArgText? && ValidateUserid(args["userid"].text).Ok?
    ensures r.Ok? ==> r.value.userid == Strip(args["userid"].text)
                      && r.value.openedViewerStudyid == ArgOr(args, "opened_viewer_studyid")
                      && r.value.openedDictationStudyid == ArgOr(args, "opened_dictation_studyid")
    ensures r.Err? ==> r.error.extra == args.Keys - SessionStateFields
  {
    var extra := args.Keys - SessionStateFields;
    var problem := UseridProblem(args);
    if extra == {} && problem.None? then
      Ok(SessionState(
        Strip(args["userid"].text),
        ArgOr(args, "opened_viewer_studyid"),
        ArgOr(args, "opened_viewer_datetime"),
        ArgOr(args, "opened_dictation_studyid"),
        ArgOr(args, "opened_dictation_datetime")))
    else
      Err(SessionStateError(extra, problem))
  }

  /** Any construction that names the owner `user_id` (instead of `userid`) fails,
      reporting `user_id` as an undeclared field. */
  lemma UserIdKeywordIsRejected(args: map<string, FieldArg>)
    requires "user_id" in args
    ensures NewSessionState(args).Err?
    ensures "user_id" in NewSessionState(args).error.extra
  {
    assert "user_id" !in SessionStateFields;
    assert "user_id" in args.Keys - SessionStateFields;
  }
}

=== FILE: stream_reader.dfy ===
/** The consumer loop `read_stream` of `app/services/redis_service.py` as a state
    machine. The generator is driven by a script: for each `xreadgroup` call,
    what the call produced and how the code consuming the generator reacted to
    each value it was given. The model tracks the consecutive-error counter,
    the back-off sleeps, the values yielded, the acknowledgements, and why the
    loop stopped. */
module StreamReader {
  import opened Common
  import StreamStore

  /** `max_errors` */
  const MaxErrors: nat := 5

  /** The back-off ceiling in seconds. */
  const MaxBackoff: nat := 30

  const ReadNeedsConsumer := StreamStore.ValueError("consumer_name is required for read_stream")

  /** `min(error_count * 2, 30)`: the seconds slept after the k-th consecutive error. */
  function BackoffSeconds(errors: nat): (s: nat)
    ensures s <= MaxBackoff
    ensures errors <= MaxBackoff / 2 ==> s == 2 * errors
  {
    if 2 * errors < MaxBackoff then 2 * errors else MaxBackoff
  }

  datatype Message = Message(id: string, fields: map<string, string>)

  /** What the consuming code does with a value the generator yields. */
  datatype Reaction =
    | Resume   // asks for the next value: processing went well
    | Throw    // throws an `Exception` into the generator at the yield
    | Cancel   // its task is cancelled: `CancelledError` at the yield
    | Close    // closes the generator: `GeneratorExit` at the yield

  datatype Delivery = Delivery(msg: Message, reaction: Reaction)

  /** One call of `xreadgroup` and what followed from it. */
  datatype ReadOutcome =
    | Messages(deliveries: seq<Delivery>)  // a non-empty reply, with the reaction to each message
    | NoMessages(reaction: Reaction)       // an empty reply, with the reaction to the keep-alive
    | ReadCancelled                        // `CancelledError` while waiting
    | ReadResponseError                    // an error reply
    | ReadOtherError                       // any other exception

  datatype StopReason = Cancelled | TooManyErrors | Closed

  /** The state of the generator between two reads. `delivered` lists the
      messages yielded so far with the reaction each one met. */
  datatype Reader = Reader(
    errorCount: nat,
    stopped: Option<StopReason>,
    delivered: seq<Delivery>,
    keepAlives: nat,
    acked: seq<string>,
    sleeps: seq<nat>)

  const Initial := Reader(0, None, [], 0, [], [])

  predicate Running(r: Reader) {
    r.stopped.None?
  }

  /** The ids acknowledged for a history of deliveries: exactly those that met `Resume`. */
  function AckedIds(ds: seq<Delivery>): (ids: seq<string>)
    ensures |ids| <= |ds|
  {
    if ds == [] then []
    else (if ds[0].reaction == Resume then [ds[0].msg.id] else []) + AckedIds(ds[1..])
  }

  lemma {:induction false} AckedIdsAppend(a: seq<Delivery>, b: seq<Delivery>)
    ensures AckedIds(a + b) == AckedIds(a) + AckedIds(b)
  {
    if a == [] {
      assert a + b == b;
    } else {
      var head := if a[0].reaction == Resume then [a[0].msg.id] else [];
      assert (a + b)[0] == a[0] && (a + b)[1..] == a[1..] + b;
      assert AckedIds(a + b) == head + AckedIds(a[1..] + b);
      AckedIdsAppend(a[1..], b);
      assert AckedIds(a) == head + AckedIds(a[1..]);
    }
  }

  /** The inner loop over one reply: each message is yielded, and acknowledged
      only when the consumer resumes; an exception thrown in is swallowed and
      the message stays pending; cancellation or closing ends everything. */
  function Deliver(r: Reader, ds: seq<Delivery>): (out: Reader)
    ensures out.errorCount == r.errorCount && out.sleeps == r.sleeps && out.keepAlives == r.keepAlives
    ensures |r.delivered| <= |out.delivered| && out.delivered[..|r.delivered|] == r.delivered
    decreases |ds|
  {
    if ds == [] || !Running(r) then r
    else
      var d := ds[0];
      var seen := r.(delivered := r.delivered + [d]);
      match d.reaction
      case Resume => Deliver(seen.(acked := seen.acked + [d.msg.id]), ds[1..])
      case Throw => Deliver(seen, ds[1..])
      case Cancel => seen.(stopped := Some(Cancelled))
      case Close => seen.(stopped := Some(Closed))
  }

  /** The two `except` branches for a failed read: count the error, stop at the
      fifth in a row, otherwise sleep. */
  function Failed(r: Reader): (out: Reader)
    ensures out.errorCount == r.errorCount + 1
    ensures out.acked == r.acked && out.delivered == r.delivered && out.keepAlives == r.keepAlives
    ensures out.errorCount >= MaxErrors ==> out.stopped == Some(TooManyErrors) && out.sleeps == r.sleeps
    ensures out.errorCount < MaxErrors ==> out.stopped == r.stopped
                                           && out.sleeps == r.sleeps + [BackoffSeconds(out.errorCount)]
  {
    var k := r.errorCount + 1;
    if k >= MaxErrors then r.(errorCount := k, stopped := Some(TooManyErrors))
    else r.(errorCount := k, sleeps := r.sleeps + [BackoffSeconds(k)])
  }

  /** One turn of `while True`. A stopped generator does nothing more. */
  function Step(r: Reader, o: ReadOutcome): (out: Reader)
    ensures !Running(r) ==> out == r
    ensures Running(r) && o.ReadCancelled? ==> out == r.(stopped := Some(Cancelled))
    ensures Running(r) && (o.ReadResponseError? || o.ReadOtherError?) ==> out == Failed(r)
    ensures Running(r) && o.NoMessages? ==> out.acked == r.acked && out.delivered == r.delivered
                                             && out.keepAlives == r.keepAlives + 1
    ensures Running(r) && o.NoMessages? && o.reaction != Throw ==> out.errorCount == 0
    ensures Running(r) && o.Messages? ==> out.errorCount == 0 && out.sleeps == r.sleeps
  {
    if !Running(r) then r
    else match o
      case Messages(ds) => Deliver(r.(errorCount := 0), ds)
      case NoMessages(reaction) =>
        var idle := r.(errorCount := 0, keepAlives := r.keepAlives + 1);
        (match reaction
         case Resume => idle
         case Throw => Failed(idle)
         case Cancel => idle.(stopped := Some(Cancelled))
         case Close => idle.(stopped := Some(Closed)))
      case ReadCancelled => r.(stopped := Some(Cancelled))
      case ReadResponseError => Failed(r)
      case ReadOtherError => Failed(r)
  }

  /** The generator driven through a whole script of reads. */
  function Run(r: Reader, script: seq<ReadOutcome>): Reader
    decreases |script|
  {
    if script == [] then r else Run(Step(r, script[0]), script[1..])
  }

  /** `read_stream` up to its first read: the consumer name is checked before
      anything touches the server, then the group is created unless it exists.
      `stream`, `group` and `consumer` are the arguments; `defaultStream` is the
      configured stream name. */
  function StartReader(server: StreamStore.Server, stream: Option<string>, group: Option<string>,
                       consumer: Option<string>, defaultStream: string,
                       fault: Option<StreamStore.RedisError>)
    : (r: Result<(StreamStore.Server, Reader), StreamStore.Raised>)
    ensures !Truthy(consumer) ==> r == Err(ReadNeedsConsumer)
    ensures Truthy(consumer) ==>
              var g := StreamStore.EnsureGroup(server, StreamStore.OrDefault(stream, defaultStream),
                                               StreamStore.OrDefault(group, StreamStore.ConsumerGroup), fault);
              (r.Ok? <==> g.Ok?)
              && (r.Ok? ==> r.value == (g.value, Initial))
              && (r.Err? ==> r.error == StreamStore.RedisFailure(fault.value))
  {
    if !Truthy(consumer) then Err(ReadNeedsConsumer)
    else
      var s := StreamStore.OrDefault(stream, defaultStream);
      var g := StreamStore.OrDefault(group, StreamStore.ConsumerGroup);
      match StreamStore.EnsureGroup(server, s, g, fault)
      case Ok(created) => Ok((created, Initial))
      case Err(e) => Err(StreamStore.RedisFailure(e))
  }

  // ---------------------------------------------------------------------------
  // Properties of the loop

  /** What holds of every reachable reader: acknowledgements are exactly the
      resumed deliveries, a running reader has fewer than five errors in a
      row, and every sleep so far was 2, 4, 6 or 8 seconds. */
  predicate Good(r: Reader) {
    && r.acked == AckedIds(r.delivered)
    && (Running(r) ==> r.errorCount < MaxErrors)
    && forall i | 0 <= i < |r.sleeps| :: r.sleeps[i] in {2, 4, 6, 8}
  }

  lemma {:induction false} DeliverKeepsAcks(r: Reader, ds: seq<Delivery>)
    requires r.acked == AckedIds(r.delivered)
    ensures Deliver(r, ds).acked == AckedIds(Deliver(r, ds).delivered)
    decreases |ds|
  {
    if ds != [] && Running(r) {
      var d := ds[0];
      AckedIdsAppend(r.delivered, [d]);
      assert AckedIds([d]) == (if d.reaction == Resume then [d.msg.id] else []) by {
        assert [d][1..] == [];
      }
      var seen := r.(delivered := r.delivered + [d]);
      match d.reaction
      case Resume => DeliverKeepsAcks(seen.(acked := seen.acked + [d.msg.id]), ds[1..]);
      case Throw => DeliverKeepsAcks(seen, ds[1..]);
      case Cancel =>
      case Close =>
    }
  }

  lemma {:induction false} DeliverStopsOnlyByConsumer(r: Reader, ds: seq<Delivery>)
    requires Running(r)
    ensures !Running(Deliver(r, ds)) ==> Deliver(r, ds).stopped.value in {Cancelled, Closed}
    decreases |ds|
  {
    if ds != [] {
      var d := ds[0];
      var seen := r.(delivered := r.delivered + [d]);
      match d.reaction
      case Resume => DeliverStopsOnlyByConsumer(seen.(acked := seen.acked + [d.msg.id]), ds[1..]);
      case Throw => DeliverStopsOnlyByConsumer(seen, ds[1..]);
      case Cancel =>
      case Close =>
    }
  }

  lemma StepKeepsGood(r: Reader, o: ReadOutcome)
    requires Good(r)
    ensures Good(Step(r, o))
  {
    if Running(r) {
      match o
      case Messages(ds) =>
        DeliverKeepsAcks(r.(errorCount := 0), ds);
      case _ =>
    }
  }

  /** Every reader the loop can reach keeps the invariant. */
  lemma {:induction false} RunKeepsGood(r: Reader, script: seq<ReadOutcome>)
    requires Good(r)
    ensures Good(Run(r, script))
    decreases |script|
  {
    if script != [] {
      StepKeepsGood(r, script[0]);
      RunKeepsGood(Step(r, script[0]), script[1..]);
    }
  }

  /** A message is acknowledged exactly when its yield was resumed: one whose
      processing raised is never acknowledged and stays pending, and the back-off
      never reaches its 30-second ceiling because the fifth error stops the loop. */
  lemma ReaderFacts(script: seq<ReadOutcome>)
    ensures Run(Initial, script).acked == AckedIds(Run(Initial, script).delivered)
    ensures forall i | 0 <= i < |Run(Initial, script).sleeps| ::
              Run(Initial, script).sleeps[i] in {2, 4, 6, 8}
  {
    RunKeepsGood(Initial, script);
  }

  /** Consecutive failed reads: from a running reader with `c` errors behind it,
      `5 - c` further failures stop the loop, and fewer leave it running with
      the count raised by one per failure. */
  lemma {:induction false} ConsecutiveErrorsStop(r: Reader, n: nat)
    requires Running(r) && r.errorCount < MaxErrors
    requires r.errorCount + n <= MaxErrors
    ensures var out := Run(r, seq(n, _ => ReadOtherError));
            if r.errorCount + n == MaxErrors then out.stopped == Some(TooManyErrors)
            else Running(out) && out.errorCount == r.errorCount + n
    decreases n
  {
    var errs := seq(n, _ => ReadOtherError);
    if n > 0 {
      assert errs[0] == ReadOtherError;
      var next := Step(r, ReadOtherError);
      assert errs[1..] == seq(n - 1, _ => ReadOtherError);
      if r.errorCount + 1 == MaxErrors {
        assert !Running(next);
        RunStoppedIsFinal(next, errs[1..]);
      } else {
        ConsecutiveErrorsStop(next, n - 1);
      }
    }
  }

  /** Once stopped, the generator does nothing more. */
  lemma {:induction false} RunStoppedIsFinal(r: Reader, script: seq<ReadOutcome>)
    requires !Running(r)
    ensures Run(r, script) == r
    decreases |script|
  {
    if script != [] {
      RunStoppedIsFinal(r, script[1..]);
    }
  }

  /** Five failed reads in a row from the start stop the loop after sleeping
      2, 4, 6 and 8 seconds. */
  lemma FiveErrorsFromStart()
    ensures Run(Initial, seq(MaxErrors, _ => ReadResponseError))
            == Reader(MaxErrors, Some(TooManyErrors), [], 0, [], [2, 4, 6, 8])
  {
    var e := ReadResponseError;
    var script := seq(MaxErrors, _ => ReadResponseError);
    assert script == [e, e, e, e, e];
    var r1 := Reader(1, None, [], 0, [], [2]);
    var r2 := Reader(2, None, [], 0, [], [2, 4]);
    var r3 := Reader(3, None, [], 0, [], [2, 4, 6]);
    var r4 := Reader(4, None, [], 0, [], [2, 4, 6, 8]);
    var r5 := Reader(5, Some(TooManyErrors), [], 0, [], [2, 4, 6, 8]);
    assert Step(Initial, e) == r1 && Step(r1, e) == r2 && Step(r2, e) == r3;
    assert Step(r3, e) == r4 && Step(r4, e) == r5;
    assert script[1..] == [e, e, e, e] && script[2..] == [e, e, e] && script[3..] == [e, e];
    assert Run(r4, [e]) == Run(r5, []);
    assert Run(r3, [e, e]) == Run(r4, [e]);
    assert Run(r2, [e, e, e]) == Run(r3, [e, e]);
    assert Run(r1, [e, e, e, e]) == Run(r2, [e, e, e]);
  }

  /** A successful read resets the error count, whatever came before, so an
      error after it starts the back-off again from 2 seconds. */
  lemma SuccessResetsBackoff(r: Reader, reply: seq<Delivery>)
    requires Running(r) && r.errorCount < MaxErrors
    requires Running(Step(r, Messages(reply)))
    ensures Step(Step(r, Messages(reply)), ReadOtherError).errorCount == 1
    ensures Step(Step(r, Messages(reply)), ReadOtherError).sleeps == Step(r, Messages(reply)).sleeps + [2]
  {
  }

  /** An empty read yields the keep-alive and acknowledges nothing. */
  lemma KeepAliveAcksNothing(r: Reader, reaction: Reaction)
    requires Running(r)
    ensures Step(r, NoMessages(reaction)).acked == r.acked
    ensures Step(r, NoMessages(reaction)).keepAlives == r.keepAlives + 1
  {
  }

  /** Cancellation, while reading or at a yield, ends the loop as cancelled: it
      is neither counted as an error nor followed by a sleep. */
  lemma CancellationStopsQuietly(r: Reader, ds: seq<Delivery>)
    requires Running(r)
    ensures Step(r, ReadCancelled).stopped == Some(Cancelled)
    ensures Step(r, ReadCancelled).errorCount == r.errorCount
    ensures Step(r, NoMessages(Cancel)).stopped == Some(Cancelled)
    ensures Step(r, NoMessages(Cancel)).sleeps == r.sleeps
    ensures Step(r, Messages(ds + [Delivery(Message("", map[]), Cancel)])).stopped.Some?
  {
    DeliverStopsOnlyByConsumer(r.(errorCount := 0), ds + [Delivery(Message("", map[]), Cancel)]);
    DeliverReachesEnd(r.(errorCount := 0), ds, Delivery(Message("", map[]), Cancel));
  }

  /** A reply ending in a cancelled or closed yield always stops the reader. */
  lemma {:induction false} DeliverReachesEnd(r: Reader, ds: seq<Delivery>, last: Delivery)
    requires last.reaction in {Cancel, Close}
    ensures !Running(Deliver(r, ds + [last]))
    decreases |ds|
  {
    if !Running(r) {
    } else if ds == [] {
      assert [last][0] == last;
    } else {
      var d := ds[0];
      assert (ds + [last])[0] == d && (ds + [last])[1..] == ds[1..] + [last];
      var seen := r.(delivered := r.delivered + [d]);
      match d.reaction
      case Resume => DeliverReachesEnd(seen.(acked := seen.acked + [d.msg.id]), ds[1..], last);
      case Throw => DeliverReachesEnd(seen, ds[1..], last);
      case Cancel =>
      case Close =>
    }
  }
}

=== FILE: stream_store.dfy ===
/** The Redis stream operations of `app/services/redis_service.py` that change
    or read the store directly: consumer-group creation that tolerates an
    existing group, appending an event, and claiming idle pending messages.
    A Redis server is a map from stream names to streams; each stream holds its
    entries and, per consumer group, the group's pending-entries list. */
module StreamStore {
  import opened Common

  const ConsumerGroup := "fastapi_radiology_group"

  /** `xpending_range(..., count=100)` looks at no more than this many pending entries. */
  const PendingPageSize: nat := 100

  /** The default `min_idle_time` of `claim_pending_messages`, in milliseconds. */
  const DefaultMinIdle: nat := 60000

  /** Redis's reply to `XGROUP CREATE` for a group that already exists. */
  const BusyGroupReply := BusyGroupCode + " Consumer Group name already exists"
  const BusyGroupCode := "BUSYGROUP"

  datatype Entry = Entry(id: string, fields: map<string, string>)

  /** One line of a group's pending-entries list: the message, the consumer it
      was delivered to, and the milliseconds since that delivery. */
  datatype PendingEntry = PendingEntry(id: string, consumer: string, idle: nat)

  datatype Stream = Stream(entries: seq<Entry>, groups: map<string, seq<PendingEntry>>)

  type Server = map<string, Stream>

  /** An error reply of the server, or a failure of the connection to it. */
  datatype RedisError = ResponseError(message: string) | ConnectionError(message: string)

  /** What the functions raise to their caller. */
  datatype Raised =
    | RuntimeError(message: string)
    | ValueError(message: string)
    | RedisFailure(cause: RedisError)

  /** `get_redis()` without a client. */
  const NotInitialized := RuntimeError("Redis not initialized. Call init_redis() first.")
  const ClaimNeedsConsumer := ValueError("consumer_name is required for claiming messages")

  /** `x or default` for an optional string argument. */
  function OrDefault(x: Option<string>, default: string): (r: string)
    ensures Truthy(x) ==> r == x.value
    ensures !Truthy(x) ==> r == default
  {
    if Truthy(x) then x.value else default
  }

  predicate HasGroup(server: Server, stream: string, group: string) {
    stream in server && group in server[stream].groups
  }

  /** A group's pending-entries list; nothing for a missing stream or group. */
  function PendingOf(server: Server, stream: string, group: string): seq<PendingEntry> {
    if HasGroup(server, stream, group) then server[stream].groups[group] else []
  }

  // ---------------------------------------------------------------------------
  // Consumer groups

  /** `XGROUP CREATE stream group 0 MKSTREAM`; `fault` is a failure of the call
      itself. The stream is created when missing, and the new group starts with
      nothing pending. */
  function XGroupCreate(server: Server, stream: string, group: string, fault: Option<RedisError>)
    : (r: Result<Server, RedisError>)
    ensures fault.Some? ==> r == Err(fault.value)
    ensures fault.None? && HasGroup(server, stream, group) ==> r == Err(ResponseError(BusyGroupReply))
    ensures r.Ok? ==> !HasGroup(server, stream, group)
                      && HasGroup(r.value, stream, group) && r.value[stream].groups[group] == []
                      && r.value.Keys == server.Keys + {stream}
                      && (forall s | s in server && s != stream :: r.value[s] == server[s])
                      && (stream in server ==> r.value[stream].entries == server[stream].entries
                                               && r.value[stream].groups == server[stream].groups[group := []])
                      && (stream !in server ==> r.value[stream].entries == [])
  {
    if fault.Some? then Err(fault.value)
    else if HasGroup(server, stream, group) then Err(ResponseError(BusyGroupReply))
    else if stream in server then
      Ok(server[stream := server[stream].(groups := server[stream].groups[group := []])])
    else Ok(server[stream := Stream([], map[group := []])])
  }

  /** The error a caller ignores: a reply mentioning `BUSYGROUP`. */
  predicate IsBusyGroup(e: RedisError) {
    e.ResponseError? && Contains(e.message, BusyGroupCode)
  }

  /** The `try: xgroup_create ... except ResponseError` block shared by
      `_init_consumer_group` and `read_stream`: an existing group is accepted as it
      is, any other error reply and any connection failure propagate. */
  function EnsureGroup(server: Server, stream: string, group: string, fault: Option<RedisError>)
    : (r: Result<Server, RedisError>)
    ensures r.Ok? <==> fault.None? || IsBusyGroup(fault.value)
    ensures r.Err? ==> r.error == fault.value
    ensures fault.None? ==> r.Ok? && HasGroup(r.value, stream, group)
    ensures HasGroup(server, stream, group) && r.Ok? ==> r.value == server
    ensures fault.Some? && r.Ok? ==> r.value == server
  {
    BusyGroupReplyIsBusy();
    match XGroupCreate(server, stream, group, fault)
    case Ok(s) => Ok(s)
    case Err(e) =>
      if IsBusyGroup(e) then Ok(server) else Err(e)
  }

  lemma BusyGroupReplyIsBusy()
    ensures IsBusyGroup(ResponseError(BusyGroupReply))
  {
    assert BusyGroupReply[..|BusyGroupCode|] == BusyGroupCode;
  }

  /** Creating the group is idempotent: a second attempt finds the group there
      and leaves the store, including what is pending, as the first left it. */
  lemma EnsureGroupIdempotent(server: Server, stream: string, group: string)
    ensures EnsureGroup(server, stream, group, None).Ok?
    ensures var once := EnsureGroup(server, stream, group, None).value;
            EnsureGroup(once, stream, group, None) == Ok(once)
  {
    BusyGroupReplyIsBusy();
  }

  /** `_init_consumer_group` on the application's stream. */
  function InitConsumerGroup(server: Server, streamName: string, fault: Option<RedisError>)
    : (r: Result<Server, RedisError>)
    ensures r.Ok? <==> fault.None? || IsBusyGroup(fault.value)
    ensures r.Ok? ==> HasGroup(r.value, streamName, ConsumerGroup) || fault.Some?
    ensures HasGroup(server, streamName, ConsumerGroup) && r.Ok? ==> r.value == server
  {
    EnsureGroup(server, streamName, ConsumerGroup, fault)
  }

  // ---------------------------------------------------------------------------
  // Appending

  /** The fields `add_to_stream` writes, `{"event": event_type, **data}`: a key of
      `data` named "event" wins over the event type. */
  function EventFields(eventType: string, data: map<string, string>): (r: map<string, string>)
    ensures r.Keys == data.Keys + {"event"}
    ensures forall k | k in data :: r[k] == data[k]
    ensures "event" !in data ==> r["event"] == eventType
  {
    map["event" := eventType] + data
  }

  /** `XADD stream * fields` answered with `newId`: the entry goes to the end of
      the stream, which is created when missing, and nothing else changes. */
  function XAdd(server: Server, stream: string, newId: string, fields: map<string, string>): (r: Server)
    ensures r.Keys == server.Keys + {stream}
    ensures forall s | s in server && s != stream :: r[s] == server[s]
    ensures r[stream].entries == (if stream in server then server[stream].entries else []) + [Entry(newId, fields)]
    ensures stream in server ==> r[stream].groups == server[stream].groups
  {
    var prior := if stream in server then server[stream] else Stream([], map[]);
    server[stream := prior.(entries := prior.entries + [Entry(newId, fields)])]
  }

  /** `add_to_stream`. `client` is the module's connection (`None` before
      `init_redis`), `newId` the id the server assigns and `fault` a failure of
      `XADD`. The entry goes to the end of the stream, which is created when
      missing; the call returns the new id. */
  function AddToStream(client: Option<Server>, streamName: string, eventType: string,
                       data: map<string, string>, newId: string, fault: Option<RedisError>)
    : (r: Result<(Server, string), Raised>)
    ensures client.None? ==> r == Err(NotInitialized)
    ensures client.Some? && fault.Some? ==> r == Err(RedisFailure(fault.value))
    ensures r.Ok? ==> client.Some? && fault.None? && r.value.1 == newId
    ensures r.Ok? ==>
              var before := client.value;
              var after := r.value.0;
              && after.Keys == before.Keys + {streamName}
              && (forall s | s in before && s != streamName :: after[s] == before[s])
              && after[streamName].entries
                 == (if streamName in before then before[streamName].entries else [])
                    + [Entry(newId, EventFields(eventType, data))]
              && (streamName in before ==> after[streamName].groups == before[streamName].groups)
  {
    if client.None? then Err(NotInitialized)
    else if fault.Some? then Err(RedisFailure(fault.value))
    else Ok((XAdd(client.value, streamName, newId, EventFields(eventType, data)), newId))
  }

  /** An appended event carries its type unless the payload brings its own
      "event" field, and every payload field arrives unchanged. */
  lemma AddToStreamKeepsPayload(server: Server, streamName: string, eventType: string,
                                data: map<string, string>, newId: string)
    ensures var r := AddToStream(Some(server), streamName, eventType, data, newId, None);
            var last := r.value.0[streamName].entries[|r.value.0[streamName].entries| - 1];
            && last.id == newId
            && last.fields["event"] == (if "event" in data then data["event"] else eventType)
            && forall k | k in data :: last.fields[k] == data[k]
  {
  }

  // ---------------------------------------------------------------------------
  // Claiming pending messages

  function EntryIds(st: Stream): set<string> {
    set e | e in st.entries :: e.id
  }

  /** The entries `xpending_range(..., count=100)` returns, oldest first. */
  function Window(pel: seq<PendingEntry>): (w: seq<PendingEntry>)
    ensures |w| <= |pel| && |w| <= PendingPageSize && w == pel[..|w|]
    ensures |w| == |pel| || |w| == PendingPageSize
  {
    if |pel| <= PendingPageSize then pel else pel[..PendingPageSize]
  }

  /** The source asks `XCLAIM` for this entry. */
  predicate IdleEnough(minIdle: nat, e: PendingEntry) {
    e.idle >= minIdle
  }

  /** `XCLAIM` hands this entry over: it has been idle long enough and its
      message is still in the stream. */
  predicate Claimable(st: Stream, minIdle: nat, e: PendingEntry) {
    e.idle >= minIdle && e.id in EntryIds(st)
  }

  /** The pending entry after `XCLAIM` moved it to `consumer`. */
  function Claim(e: PendingEntry, consumer: string): (c: PendingEntry)
    ensures c.id == e.id && c.consumer == consumer && c.idle == 0
  {
    e.(consumer := consumer, idle := 0)
  }

  /** `after` is `pel` with every claimable entry of the first page claimed. */
  predicate ClaimedAll(st: Stream, minIdle: nat, consumer: string, pel: seq<PendingEntry>, after: seq<PendingEntry>) {
    && |after| == |pel|
    && forall k | 0 <= k < |pel| ::
         after[k] == (if k < PendingPageSize && Claimable(st, minIdle, pel[k]) then Claim(pel[k], consumer) else pel[k])
  }

  /** `after` is `pel` with some claimable entries of the first page claimed. */
  predicate ClaimedSome(st: Stream, minIdle: nat, consumer: string, pel: seq<PendingEntry>, after: seq<PendingEntry>) {
    && |after| == |pel|
    && forall k | 0 <= k < |pel| ::
         after[k] == pel[k]
         || (k < PendingPageSize && Claimable(st, minIdle, pel[k]) && after[k] == Claim(pel[k], consumer))
  }

  /** The server with one group's pending list replaced. */
  function WithPending(server: Server, stream: string, group: string, pel: seq<PendingEntry>): Server
    requires stream in server
  {
    server[stream := server[stream].(groups := server[stream].groups[group := pel])]
  }

  /** How many of the first `n` entries of `w` are idle long enough to be asked for. */
  function IdleCount(minIdle: nat, w: seq<PendingEntry>, n: nat): (c: nat)
    requires n <= |w|
    ensures c <= n
  {
    if n == 0 then 0 else IdleCount(minIdle, w, n - 1) + (if IdleEnough(minIdle, w[n - 1]) then 1 else 0)
  }

  /** How many of the first `n` entries of `w` are claimable. */
  function ClaimableCount(st: Stream, minIdle: nat, w: seq<PendingEntry>, n: nat): (c: nat)
    requires n <= |w|
    ensures c <= n
  {
    if n == 0 then 0 else ClaimableCount(st, minIdle, w, n - 1) + (if Claimable(st, minIdle, w[n - 1]) then 1 else 0)
  }

  lemma {:induction false} IdleCountMonotone(minIdle: nat, w: seq<PendingEntry>, m: nat, n: nat)
    requires m <= n <= |w|
    ensures IdleCount(minIdle, w, m) <= IdleCount(minIdle, w, n)
    decreases n
  {
    if m < n {
      IdleCountMonotone(minIdle, w, m, n - 1);
    }
  }

  /** The number of `XCLAIM` calls the loop makes. */
  function Attempts(pel: seq<PendingEntry>, minIdle: nat): nat {
    IdleCount(minIdle, Window(pel), |Window(pel)|)
  }

  /** The number of entries the loop claims when no call fails. */
  function Claims(st: Stream, pel: seq<PendingEntry>, minIdle: nat): nat {
    ClaimableCount(st, minIdle, Window(pel), |Window(pel)|)
  }

  /** A failure strikes during the claim loop: one of its `xclaim` calls fails. */
  predicate FailsDuring(failure: Option<nat>, pel: seq<PendingEntry>, minIdle: nat) {
    failure.Some? && 0 < failure.value <= Attempts(pel, minIdle)
  }

  /** The loop of `claim_pending_messages` over the first page of `pel`: each
      entry idle long enough is asked for, and each one handed over counts.
      When the `k`-th request fails (`failure == Some(k)`), the claims made so
      far stay and the count is 0. */
  method ClaimPage(st: Stream, minIdle: nat, consumer: string, pel: seq<PendingEntry>, failure: Option<nat>)
    returns (after: seq<PendingEntry>, count: nat)
    requires failure != Some(0)
    ensures ClaimedSome(st, minIdle, consumer, pel, after)
    ensures count <= PendingPageSize
    ensures !FailsDuring(failure, pel, minIdle) ==>
              ClaimedAll(st, minIdle, consumer, pel, after) && count == Claims(st, pel, minIdle)
    ensures FailsDuring(failure, pel, minIdle) ==> count == 0
  {
    var w := Window(pel);
    after := pel;
    count := 0;
    var attempts := 0;
    var i := 0;
    while i < |w|
      invariant 0 <= i <= |w|
      invariant |after| == |pel|
      invariant forall k | 0 <= k < i ::
                  after[k] == (if Claimable(st, minIdle, pel[k]) then Claim(pel[k], consumer) else pel[k])
      invariant forall k | i <= k < |pel| :: after[k] == pel[k]
      invariant count == ClaimableCount(st, minIdle, w, i)
      invariant attempts == IdleCount(minIdle, w, i)
      invariant failure.Some? ==> attempts < failure.value
    {
      if IdleEnough(minIdle, w[i]) {
        attempts := attempts + 1;
        if failure == Some(attempts) {
          IdleCountMonotone(minIdle, w, i + 1, |w|);
          return after, 0;
        }
        if Claimable(st, minIdle, w[i]) {
          after := after[i := Claim(pel[i], consumer)];
          count := count + 1;
        }
      }
      i := i + 1;
    }
  }

  /** `claim_pending_messages`. `failure` names the Redis call that fails, if one
      does: 0 is `xpending_range`, `k` is the k-th `xclaim`. Without a client the
      call raises `RuntimeError`, without a consumer name `ValueError`; a missing
      stream or group, an empty list or any failure answers 0, and a failure part
      way through keeps the claims already made but still answers 0. */
  method ClaimPending(client: Option<Server>, streamName: Option<string>, consumerGroup: Option<string>,
                      consumerName: Option<string>, minIdle: nat, defaultStream: string,
                      failure: Option<nat>)
    returns (r: Result<(Server, nat), Raised>)
    ensures client.None? ==> r == Err(NotInitialized)
    ensures client.Some? && !Truthy(consumerName) ==> r == Err(ClaimNeedsConsumer)
    ensures r.Ok? <==> client.Some? && Truthy(consumerName)
    ensures (r.Ok? && (!HasGroup(client.value, OrDefault(streamName, defaultStream), OrDefault(consumerGroup, ConsumerGroup))
                       || failure == Some(0)))
            ==> r.value == (client.value, 0)
    ensures r.Ok? && HasGroup(client.value, OrDefault(streamName, defaultStream), OrDefault(consumerGroup, ConsumerGroup))
                  && failure != Some(0) ==>
              var server := client.value;
              var s := OrDefault(streamName, defaultStream);
              var g := OrDefault(consumerGroup, ConsumerGroup);
              var pel := server[s].groups[g];
              var after := PendingOf(r.value.0, s, g);
              && r.value.0 == WithPending(server, s, g, after)
              && ClaimedSome(server[s], minIdle, consumerName.value, pel, after)
              && r.value.1 <= PendingPageSize
              && (!FailsDuring(failure, pel, minIdle) ==>
                    ClaimedAll(server[s], minIdle, consumerName.value, pel, after)
                    && r.value.1 == Claims(server[s], pel, minIdle))
              && (FailsDuring(failure, pel, minIdle) ==> r.value.1 == 0)
  {
    if client.None? {
      return Err(NotInitialized);
    }
    var server := client.value;
    var s := OrDefault(streamName, defaultStream);
    var g := OrDefault(consumerGroup, ConsumerGroup);
    if !Truthy(consumerName) {
      return Err(ClaimNeedsConsumer);
    }
    if !HasGroup(server, s, g) || failure == Some(0) {
      return Ok((server, 0));
    }
    var after, count := ClaimPage(server[s], minIdle, consumerName.value, server[s].groups[g], failure);
    var result := WithPending(server, s, g, after);
    assert PendingOf(result, s, g) == after;
    return Ok((result, count));
  }

  /** A page without claimable entries counts none. */
  lemma {:induction false} NoneClaimable(st: Stream, minIdle: nat, w: seq<PendingEntry>, n: nat)
    requires n <= |w|
    requires forall i | 0 <= i < n :: !Claimable(st, minIdle, w[i])
    ensures ClaimableCount(st, minIdle, w, n) == 0
  {
    if n > 0 {
      NoneClaimable(st, minIdle, w, n - 1);
    }
  }

  /** A claim leaves nothing claimable behind for a positive idle threshold:
      each claimed entry restarts its idle time and every other entry of the
      page is still not claimable, so claiming again at once finds nothing. */
  lemma ClaimAgainFindsNothing(st: Stream, minIdle: nat, consumer: string,
                               pel: seq<PendingEntry>, after: seq<PendingEntry>)
    requires minIdle > 0
    requires ClaimedAll(st, minIdle, consumer, pel, after)
    ensures Claims(st, after, minIdle) == 0
  {
    var w := Window(after);
    forall i | 0 <= i < |w|
      ensures !Claimable(st, minIdle, w[i])
    {
      assert w[i] == after[i];
    }
    NoneClaimable(st, minIdle, w, |w|);
  }
}

=== FILE: user_schema.dfy ===
/** The user request schemas of `app/schemas/user.py`: field length constraints,
    which pydantic checks before the validators, and the username, NPI and
    password validators. */
module UserSchema {
  import opened Common

  // ---------------------------------------------------------------------------
  // Character classes (the regular expressions are ASCII classes)

  predicate IsAsciiUpper(c: char) { 'A' <= c <= 'Z' }
  predicate IsAsciiLower(c: char) { 'a' <= c <= 'z' }
  predicate IsAsciiDigit(c: char) { '0' <= c <= '9' }

  /** The class `[!@#$%^&*(),.?":{}|<>]` of the password rule. */
  predicate IsSpecial(c: char) {
    c in {'!', '@', '#', '$', '%', '^', '&', '*', '(', ')', ',', '.', '?', '"', ':', '{', '}', '|', '<', '>'}
  }

  /** The class `[a-zA-Z0-9_-]` of the username rule. */
  predicate IsUsernameChar(c: char) {
    IsAsciiUpper(c) || IsAsciiLower(c) || IsAsciiDigit(c) || c == '_' || c == '-'
  }

  /** `str.lower` on one character of the username alphabet. */
  function AsciiLower(c: char): (d: char)
    ensures IsAsciiUpper(c) ==> IsAsciiLower(d) && d as int == c as int + 32
    ensures !IsAsciiUpper(c) ==> d == c
  {
    if IsAsciiUpper(c) then (c as int + 32) as char else c
  }

  /** Some position of `s` holds a character satisfying `p` (`re.search` of a one-class pattern). */
  predicate Occurs(s: string, p: char -> bool) {
    exists k | 0 <= k < |s| :: p(s[k])
  }

  /** An occurrence survives putting more text on either side. */
  lemma OccursInExtension(s: string, t: string, p: char -> bool)
    requires Occurs(s, p)
    ensures Occurs(s + t, p) && Occurs(t + s, p)
  {
    var k :| 0 <= k < |s| && p(s[k]);
    assert (s + t)[k] == s[k];
    assert (t + s)[|t| + k] == s[k];
  }

  // ---------------------------------------------------------------------------
  // Username

  datatype UsernameError = UsernameLength | UsernameChars

  predicate AllUsernameChars(s: string) {
    forall k | 0 <= k < |s| :: IsUsernameChar(s[k])
  }

  /** The whole value matches `[a-zA-Z0-9_-]+`. */
  predicate MatchesUsernamePattern(v: string) {
    v != [] && AllUsernameChars(v)
  }

  /** What `re.match(r"^[a-zA-Z0-9_-]+$", v)` accepts: `$` also matches just before
      a final newline, so a valid name followed by one `"\n"` passes. */
  predicate MatchesUsernamePatternAsWritten(v: string) {
    MatchesUsernamePattern(v)
    || (|v| >= 2 && v[|v| - 1] == '\n' && MatchesUsernamePattern(v[..|v| - 1]))
  }

  /** `UserBase.username` as the source checks it: length 3..50, then the
      pattern with its trailing-newline gap, then lower-casing. */
  function ValidateUsernameAsWritten(v: string): (r: Result<string, UsernameError>)
    ensures r.Ok? <==> 3 <= |v| <= 50 && MatchesUsernamePatternAsWritten(v)
    ensures r.Ok? ==> |r.value| == |v|
  {
    if |v| < 3 || |v| > 50 then Err(UsernameLength)
    else if !MatchesUsernamePatternAsWritten(v) then Err(UsernameChars)
    else Ok(MapSeq(v, AsciiLower))
  }

  /** `UserBase.username` as intended: length 3..50, every character from the
      username alphabet, result lower-cased character by character. */
  function ValidateUsername(v: string): (r: Result<string, UsernameError>)
    ensures r.Ok? <==> 3 <= |v| <= 50 && AllUsernameChars(v)
    ensures (|v| < 3 || |v| > 50) ==> r == Err(UsernameLength)
    ensures r.Ok? ==> |r.value| == |v|
                      && forall k | 0 <= k < |v| :: r.value[k] == AsciiLower(v[k])
    ensures r.Ok? ==> AllUsernameChars(r.value)
                      && forall k | 0 <= k < |v| :: !IsAsciiUpper(r.value[k])
  {
    if |v| < 3 || |v| > 50 then Err(UsernameLength)
    else if !MatchesUsernamePattern(v) then Err(UsernameChars)
    else Ok(MapSeq(v, AsciiLower))
  }

  /** A name of the right length, from the alphabet and without capitals, is
      kept as it is. */
  lemma LowerCaseUsernameIsKept(v: string)
    requires 3 <= |v| <= 50 && AllUsernameChars(v)
    requires forall k | 0 <= k < |v| :: !IsAsciiUpper(v[k])
    ensures ValidateUsername(v) == Ok(v)
  {
    var w := ValidateUsername(v).value;
    assert w == v by {
      forall k | 0 <= k < |v|
        ensures w[k] == v[k]
      {
        assert w[k] == AsciiLower(v[k]);
      }
    }
  }

  /** A validated username validates to itself: it is already lower-case and
      still within the alphabet and the length bounds. */
  lemma ValidateUsernameIdempotent(v: string)
    requires ValidateUsername(v).Ok?
    ensures ValidateUsername(ValidateUsername(v).value) == ValidateUsername(v)
  {
    LowerCaseUsernameIsKept(ValidateUsername(v).value);
  }

  /** The regular expression as written lets a trailing newline through; the
      intended check refuses it. */
  lemma UsernameTrailingNewlineGap()
    ensures ValidateUsernameAsWritten("abc\n") == Ok("abc\n")
    ensures ValidateUsername("abc\n") == Err(UsernameChars)
  {
    var v := "abc\n";
    assert v[..|v| - 1] == "abc";
    assert MatchesUsernamePattern("abc");
    assert !IsUsernameChar(v[3]);
    assert MapSeq(v, AsciiLower) == "abc\n";
  }

  /** The two checks differ on that one shape only: everything the intended
      check accepts, the written one accepts with the same result. */
  lemma UsernameAsWrittenAcceptsMore(v: string)
    ensures ValidateUsername(v).Ok? ==> ValidateUsernameAsWritten(v) == ValidateUsername(v)
    ensures ValidateUsernameAsWritten(v).Ok? && ValidateUsername(v).Err? ==>
              v[|v| - 1] == '\n' && MatchesUsernamePattern(v[..|v| - 1])
  {
  }

  // ---------------------------------------------------------------------------
  // NPI number

  datatype NpiError = NpiTooLong | NpiNotTenDigits

  predicate IsTenDigits(s: string) {
    |s| == 10 && forall k | 0 <= k < |s| :: IsAsciiDigit(s[k])
  }

  /** `validate_npi` behind `max_length=10`: an absent or empty NPI passes, any
      other value must be exactly ten digits; the value is never changed. */
  function ValidateNpi(v: Option<string>): (r: Result<Option<string>, NpiError>)
    ensures r.Ok? <==> !Truthy(v) || IsTenDigits(v.value)
    ensures r.Ok? ==> r.value == v
    ensures v.Some? && |v.value| > 10 ==> r == Err(NpiTooLong)
  {
    if v.Some? && |v.value| > 10 then Err(NpiTooLong)
    else if Truthy(v) && !IsTenDigits(v.value) then Err(NpiNotTenDigits)
    else Ok(v)
  }

  // ---------------------------------------------------------------------------
  // Password

  datatype PasswordError = PasswordTooShort | NoUppercase | NoLowercase | NoDigit | NoSpecial

  /** The character classes a strong password must all contain. */
  predicate HasAllClasses(v: string) {
    Occurs(v, IsAsciiUpper) && Occurs(v, IsAsciiLower) && Occurs(v, IsAsciiDigit) && Occurs(v, IsSpecial)
  }

  /** `UserCreate.password`: at least twelve characters, then one upper-case
      letter, one lower-case letter, one digit and one special character, the
      first missing class being the one reported. */
  function ValidatePassword(v: string): (r: Result<string, PasswordError>)
    ensures r.Ok? <==> |v| >= 12 && HasAllClasses(v)
    ensures r.Ok? ==> r.value == v
    ensures r == Err(PasswordTooShort) <==> |v| < 12
    ensures r == Err(NoUppercase) <==> |v| >= 12 && !Occurs(v, IsAsciiUpper)
    ensures r == Err(NoLowercase) <==> |v| >= 12 && Occurs(v, IsAsciiUpper) && !Occurs(v, IsAsciiLower)
    ensures r == Err(NoDigit) <==>
              |v| >= 12 && Occurs(v, IsAsciiUpper) && Occurs(v, IsAsciiLower) && !Occurs(v, IsAsciiDigit)
    ensures r == Err(NoSpecial) <==>
              |v| >= 12 && Occurs(v, IsAsciiUpper) && Occurs(v, IsAsciiLower) && Occurs(v, IsAsciiDigit)
              && !Occurs(v, IsSpecial)
  {
    if |v| < 12 then Err(PasswordTooShort)
    else if !Occurs(v, IsAsciiUpper) then Err(NoUppercase)
    else if !Occurs(v, IsAsciiLower) then Err(NoLowercase)
    else if !Occurs(v, IsAsciiDigit) then Err(NoDigit)
    else if !Occurs(v, IsSpecial) then Err(NoSpecial)
    else Ok(v)
  }

  /** Adding characters to either end of an accepted password keeps it accepted. */
  lemma PasswordExtensionStaysStrong(v: string, w: string)
    requires ValidatePassword(v).Ok?
    ensures ValidatePassword(v + w).Ok? && ValidatePassword(w + v).Ok?
  {
    OccursInExtension(v, w, IsAsciiUpper);
    OccursInExtension(v, w, IsAsciiLower);
    OccursInExtension(v, w, IsAsciiDigit);
    OccursInExtension(v, w, IsSpecial);
  }

  /** The sample passwords of the user tests: one strong, one too short. */
  lemma PasswordExamples()
    ensures ValidatePassword("SecurePassword123!") == Ok("SecurePassword123!")
    ensures ValidatePassword("weak") == Err(PasswordTooShort)
  {
    var v := "SecurePassword123!";
    assert IsAsciiUpper(v[0]) && IsAsciiLower(v[1]) && IsAsciiDigit(v[14]) && IsSpecial(v[17]);
  }

  // ---------------------------------------------------------------------------
  // Whole-record validation

  /** An optional string within `lo..hi` characters when present. */
  predicate OptLengthOk(v: Option<string>, lo: nat, hi: nat) {
    v.None? || lo <= |v.value| <= hi
  }

  /** The body of a create request; `role` is `None` when the field was left out. */
  datatype UserCreateInput = UserCreateInput(
    username: string, email: string, firstName: string, lastName: string,
    department: Option<string>, role: Option<string>, licenseNumber: Option<string>,
    npiNumber: Option<string>, password: string)

  /** A validated `UserCreate`. */
  datatype UserCreate = UserCreate(
    username: string, email: string, firstName: string, lastName: string,
    department: Option<string>, role: string, licenseNumber: Option<string>,
    npiNumber: Option<string>, password: string)

  /** The fields of a create request that fail; `emailCheck` is the e-mail
      validator (`None` for an invalid address, else the normalised address). */
  function UserCreateErrors(inp: UserCreateInput, emailCheck: string -> Option<string>): set<string> {
    (if ValidateUsername(inp.username).Err? then {"username"} else {})
    + (if emailCheck(inp.email).None? then {"email"} else {})
    + (if !(1 <= |inp.firstName| <= 100) then {"first_name"} else {})
    + (if !(1 <= |inp.lastName| <= 100) then {"last_name"} else {})
    + (if !OptLengthOk(inp.department, 0, 100) then {"department"} else {})
    + (if !OptLengthOk(inp.licenseNumber, 0, 50) then {"license_number"} else {})
    + (if ValidateNpi(inp.npiNumber).Err? then {"npi_number"} else {})
    + (if ValidatePassword(inp.password).Err? then {"password"} else {})
  }

  /** A field is reported exactly when its check fails. */
  lemma UserCreateErrorsNameFailures(inp: UserCreateInput, emailCheck: string -> Option<string>)
    ensures var errors := UserCreateErrors(inp, emailCheck);
            && (errors == {} <==> ValidateUsername(inp.username).Ok? && emailCheck(inp.email).Some?
                                  && 1 <= |inp.firstName| <= 100 && 1 <= |inp.lastName| <= 100
                                  && OptLengthOk(inp.department, 0, 100) && OptLengthOk(inp.licenseNumber, 0, 50)
                                  && ValidateNpi(inp.npiNumber).Ok? && ValidatePassword(inp.password).Ok?)
            && ("password" in errors <==> ValidatePassword(inp.password).Err?)
            && ("username" in errors <==> ValidateUsername(inp.username).Err?)
  {
  }

  /** `UserCreate(**body)`: every failing field is reported at once; on success the
      username is lower-cased, the e-mail normalised and the role defaults to `"user"`. */
  function ValidateUserCreate(inp: UserCreateInput, emailCheck: string -> Option<string>)
    : (r: Result<UserCreate, set<string>>)
    ensures r.Ok? <==> ValidateUsername(inp.username).Ok? && emailCheck(inp.email).Some?
                       && 1 <= |inp.firstName| <= 100 && 1 <= |inp.lastName| <= 100
                       && OptLengthOk(inp.department, 0, 100) && OptLengthOk(inp.licenseNumber, 0, 50)
                       && ValidateNpi(inp.npiNumber).Ok? && ValidatePassword(inp.password).Ok?
    ensures r.Err? ==> r.error != {}
                       && ("password" in r.error <==> ValidatePassword(inp.password).Err?)
                       && ("username" in r.error <==> ValidateUsername(inp.username).Err?)
    ensures r.Ok? ==> r.value.username == ValidateUsername(inp.username).value
                      && r.value.email == emailCheck(inp.email).value
                      && r.value.role == inp.role.GetOr("user")
                      && r.value.password == inp.password
                      && r.value.npiNumber == inp.npiNumber
  {
    var errors := UserCreateErrors(inp, emailCheck);
    UserCreateErrorsNameFailures(inp, emailCheck);
    if errors != {} then Err(errors)
    else
      Ok(UserCreate(
        ValidateUsername(inp.username).value, emailCheck(inp.email).value,
        inp.firstName, inp.lastName, inp.department, inp.role.GetOr("user"),
        inp.licenseNumber, inp.npiNumber, inp.password))
  }

  /** The sample username of the user tests is kept as it is. */
  lemma UsernameExample()
    ensures ValidateUsername("validuser") == Ok("validuser")
  {
    var v := "validuser";
    assert forall k | 0 <= k < |v| :: IsAsciiLower(v[k]);
    LowerCaseUsernameIsKept(v);
  }

  /** The sample record of the user tests is accepted with its username kept, and
      rejected once its password is weakened or its NPI shortened to three digits. */
  lemma UserCreateExamples(emailCheck: string -> Option<string>, good: UserCreateInput)
    requires good == UserCreateInput("validuser", "valid@hospital.com", "Valid", "User",
                                     None, Some("user"), None, None, "SecurePassword123!")
    requires emailCheck("valid@hospital.com").Some?
    ensures ValidateUserCreate(good, emailCheck).Ok?
    ensures ValidateUserCreate(good, emailCheck).value.username == "validuser"
    ensures ValidateUserCreate(good.(password := "weak"), emailCheck).Err?
    ensures ValidateUserCreate(good.(npiNumber := Some("123")), emailCheck).Err?
  {
    PasswordExamples();
    UsernameExample();
    assert ValidateNpi(Some("123")) == Err(NpiNotTenDigits);
  }

  /** A field of an update request: left out of the body, or given (possibly as `null`). */
  datatype Supplied<T> = Unset | Given(v: T)

  /** `UserUpdate`: every field optional; `Unset` fields stay out of `dict(exclude_unset=True)`. */
  datatype UserUpdate = UserUpdate(
    firstName: Supplied<Option<string>>, lastName: Supplied<Option<string>>,
    department: Supplied<Option<string>>, licenseNumber: Supplied<Option<string>>,
    npiNumber: Supplied<Option<string>>)

  predicate SuppliedLengthOk(s: Supplied<Option<string>>, lo: nat, hi: nat) {
    s.Unset? || OptLengthOk(s.v, lo, hi)
  }

  predicate SuppliedNpiOk(s: Supplied<Option<string>>) {
    s.Unset? || ValidateNpi(s.v).Ok?
  }

  /** `UserUpdate(**body)`: names 1..100 characters, department up to 100, licence
      up to 50, NPI as for creation; nothing is transformed. */
  function ValidateUserUpdate(u: UserUpdate): (r: Result<UserUpdate, string>)
    ensures r.Ok? <==> SuppliedLengthOk(u.firstName, 1, 100) && SuppliedLengthOk(u.lastName, 1, 100)
                       && SuppliedLengthOk(u.department, 0, 100) && SuppliedLengthOk(u.licenseNumber, 0, 50)
                       && SuppliedNpiOk(u.npiNumber)
    ensures r.Ok? ==> r.value == u
    ensures u.firstName == Given(Some("")) ==> r.Err?
  {
    if !SuppliedLengthOk(u.firstName, 1, 100) then Err("first_name")
    else if !SuppliedLengthOk(u.lastName, 1, 100) then Err("last_name")
    else if !SuppliedLengthOk(u.department, 0, 100) then Err("department")
    else if !SuppliedLengthOk(u.licenseNumber, 0, 50) then Err("license_number")
    else if !SuppliedNpiOk(u.npiNumber) then Err("npi_number")
    else Ok(u)
  }
}

=== FILE: users_api.dfy ===
/** The user-administration endpoints of `app/api/users.py` over an abstract
    identity provider: what each handler asks of the provider, in which order,
    and which answer or error it returns. */
module UsersApi {
  import opened Common
  import opened Security
  import opened UserSchema

  /** A request the handlers send to the identity provider. */
  datatype IdpCall =
    | FindByUsername(username: string)
    | FindByEmail(email: string)
    | CreateAccount(payload: Dict)
    | GetInfo(userId: string)
    | UpdateAccount(userId: string, payload: Dict)

  /** The user fields a handler returns (the `UserResponse` projection). */
  datatype UserView = UserView(
    id: Json, username: Json, email: Json, firstName: Json, lastName: Json,
    emailVerified: Json, enabled: Json)

  /** The calls a handler made and its answer. */
  datatype Outcome<T> = Outcome(calls: seq<IdpCall>, result: Result<T, HttpError>)

  // ---------------------------------------------------------------------------
  // Building the response (app/schemas/user.py, `UserResponse`)

  /** The fields `UserResponse` declares without a default: a missing one fails
      validation, and so does `None` for any of them except `last_login`. */
  const ResponseRequired: set<string> := {
    "username", "email", "first_name", "last_name", "id", "keycloak_id",
    "is_active", "email_verified", "last_login", "created_at", "updated_at"}
  const ResponseNullable: set<string> := {"last_login"}

  /** The presence and null checks of `UserResponse` validation (the type checks
      can only reject more). */
  predicate ResponseValidates(kwargs: map<string, Json>) {
    ResponseRequired <= kwargs.Keys
    && forall f | f in ResponseRequired - ResponseNullable :: kwargs[f] != JNull
  }

  /** The keyword arguments every handler passes to `UserResponse`: the view's
      fields, the enabled flag under the name `enable`, and `None` for all three
      timestamps. */
  function ResponseKwargs(v: UserView): map<string, Json> {
    map["id" := v.id, "keycloak_id" := v.id, "username" := v.username, "email" := v.email,
        "first_name" := v.firstName, "last_name" := v.lastName,
        "email_verified" := v.emailVerified, "enable" := v.enabled,
        "created_at" := JNull, "updated_at" := JNull, "last_login" := JNull]
  }

  /** The handlers' arguments never validate: `is_active` is never passed, and
      `created_at` and `updated_at` are `None`. */
  lemma ResponseNeverValidates(v: UserView)
    ensures "is_active" !in ResponseKwargs(v)
    ensures ResponseKwargs(v)["created_at"] == JNull && ResponseKwargs(v)["updated_at"] == JNull
    ensures !ResponseValidates(ResponseKwargs(v))
  {
    assert "is_active" in ResponseRequired;
  }

  /** The account fields once the provider has returned it; `id`, `username` and
      `email` are read by subscript. */
  function InfoView(u: Dict): UserView
    requires "id" in u && "username" in u && "email" in u
  {
    UserView(u["id"], u["username"], u["email"],
             GetOr(u, "firstName", JStr("")), GetOr(u, "lastName", JStr("")),
             GetOr(u, "emailVerified", JBool(false)), GetOr(u, "enabled", JBool(true)))
  }

  // ---------------------------------------------------------------------------
  // create_user

  const RoleInvalid := HttpError(400, "Role must be either 'user' or 'admin'")
  const UsernameExists := HttpError(400, "Username already exists")
  const EmailExists := HttpError(400, "Email already exists")
  const CreateFailed := HttpError(500, "Failed to create user")
  /** `get_user_info` raises `ValueError("User not found")`, which `create_user` maps to 400. */
  const CreatedNotFound := HttpError(400, "User not found")
  /** pydantic's `ValidationError` is a `ValueError`, so `create_user` answers 400
      with its message; the message is abstracted to this text. */
  const ResponseInvalid := HttpError(400, "validation error for UserResponse")

  /** The 400 `create_user` answers when the provider refuses the account. */
  function ProviderRefused(message: string): HttpError {
    HttpError(400, "Failed to create user in Keycloak: " + message)
  }

  /** The account document sent to the provider: enabled, e-mail unverified, the
      creator and role as attributes, and a temporary password credential exactly
      when a password was supplied. */
  function CreatePayload(data: UserCreate, role: string, createdBy: Json): (p: Dict)
    ensures p.Keys - {"credentials"} == {"username", "email", "firstName", "lastName", "enabled", "emailVerified", "attributes"}
    ensures p["enabled"] == JBool(true) && p["emailVerified"] == JBool(false)
    ensures p["username"] == JStr(data.username) && p["email"] == JStr(data.email)
    ensures p["attributes"] == JObj(map["created_by" := JArr([createdBy]), "role" := JArr([JStr(role)])])
    ensures "credentials" in p <==> data.password != ""
    ensures "credentials" in p ==> p["credentials"] == JArr([JObj(map[
              "type" := JStr("password"), "value" := JStr(data.password), "temporary" := JBool(true)])])
  {
    var base := map[
      "username" := JStr(data.username), "email" := JStr(data.email),
      "firstName" := JStr(data.firstName), "lastName" := JStr(data.lastName),
      "enabled" := JBool(true), "emailVerified" := JBool(false),
      "attributes" := JObj(map["created_by" := JArr([createdBy]), "role" := JArr([JStr(role)])])];
    if data.password != "" then
      base["credentials" := JArr([JObj(map[
        "type" := JStr("password"), "value" := JStr(data.password), "temporary" := JBool(true)])])]
    else base
  }

  /** What the provider answers during a creation: whether the username and the
      e-mail are already taken, the new account id or the provider's error text,
      and the account as then fetched (`None` when fetching fails). */
  datatype IdpAnswers = IdpAnswers(
    usernameTaken: bool, emailTaken: bool, created: Result<string, string>, createdInfo: Option<Dict>)

  /** What `create_user` passes to `KeycloakService.create_user`: the request
      model, or a plain dict. */
  datatype CreateArgument = ModelArgument(data: UserCreate) | DictArgument(doc: Dict)

  /** How `KeycloakService.create_user` ends. */
  datatype CreateEnd = AttributeMissing | Created(id: string) | Refused(message: string)

  /** `KeycloakService.create_user`: it reads the argument's fields as attributes
      (`user_data.username`), which a dict does not have, and re-raises that
      `AttributeError`; otherwise the provider's error becomes a `ValueError`. */
  function ProviderCreate(arg: CreateArgument, answer: Result<string, string>): (e: CreateEnd)
    ensures e == AttributeMissing <==> arg.DictArgument?
    ensures arg.ModelArgument? && answer.Ok? ==> e == Created(answer.value)
    ensures arg.ModelArgument? && answer.Err? ==> e == Refused(answer.error)
  {
    match arg
    case DictArgument(_) => AttributeMissing
    case ModelArgument(_) =>
      match answer
      case Ok(id) => Created(id)
      case Err(message) => Refused(message)
  }

  /** The end of `create_user` as written, once `KeycloakService.create_user` has
      returned or raised (`info` is the account `get_user_info` then returns,
      `None` when it raises). Its `ValueError`s become 400 and anything else 500;
      a created account is still never answered, since the response does not
      validate. */
  function CreateAnswerAsWritten(lookups: seq<IdpCall>, payload: Dict, end: CreateEnd, info: Option<Dict>)
    : (o: Outcome<UserView>)
    ensures end == AttributeMissing ==> o == Outcome(lookups, Err(CreateFailed))
    ensures end.Refused? ==> o == Outcome(lookups + [CreateAccount(payload)], Err(ProviderRefused(end.message)))
    ensures end.Created? ==> o.calls == lookups + [CreateAccount(payload), GetInfo(end.id)]
    ensures end.Created? && info.None? ==> o.result == Err(CreatedNotFound)
    ensures o.result.Err?
  {
    match end
    case AttributeMissing => Outcome(lookups, Err(CreateFailed))
    case Refused(message) => Outcome(lookups + [CreateAccount(payload)], Err(ProviderRefused(message)))
    case Created(id) =>
      var calls := lookups + [CreateAccount(payload), GetInfo(id)];
      match info
      case None => Outcome(calls, Err(CreatedNotFound))
      case Some(u) =>
        if "id" !in u || "username" !in u || "email" !in u then Outcome(calls, Err(CreateFailed))
        else
          var v := InfoView(u);
          ResponseNeverValidates(v);
          if ResponseValidates(ResponseKwargs(v)) then Outcome(calls, Ok(v))
          else Outcome(calls, Err(ResponseInvalid))
  }

  /** `create_user` as written. The handler's own 400s are raised inside a `try`
      whose `except Exception` turns them into 500, and the account document goes
      to the service as a dict, so the provider is never asked to create anything
      and every admin request ends in 500. */
  function CreateUserAsWritten(caller: Dict, data: UserCreate, role: string, idp: IdpAnswers)
    : (o: Outcome<UserView>)
    ensures Require(AdminRole, caller).Err? ==> o == Outcome([], Err(Require(AdminRole, caller).error))
    ensures Require(AdminRole, caller).Ok? ==> o.result == Err(CreateFailed)
    ensures |o.calls| <= 2 && forall i | 0 <= i < |o.calls| :: !o.calls[i].CreateAccount?
  {
    match Require(AdminRole, caller)
    case Err(e) => Outcome([], Err(e))
    case Ok(_) =>
      var lookups := [FindByUsername(data.username), FindByEmail(data.email)];
      if role != "user" && role != "admin" then Outcome([], Err(CreateFailed))
      else if idp.usernameTaken then Outcome(lookups[..1], Err(CreateFailed))
      else if idp.emailTaken then Outcome(lookups, Err(CreateFailed))
      else if "username" !in caller then Outcome(lookups, Err(CreateFailed))
      else
        var payload := CreatePayload(data, role, caller["username"]);
        CreateAnswerAsWritten(lookups, payload, ProviderCreate(DictArgument(payload), idp.created), idp.createdInfo)
  }

  /** `create_user` as intended: an administrator only; the role query parameter
      is checked before the provider is contacted, the username before the e-mail,
      and each of these refusals is a 400. The account document reaches the
      provider, and the created account is fetched and returned. */
  function CreateUser(caller: Dict, data: UserCreate, role: string, idp: IdpAnswers): (o: Outcome<UserView>)
    ensures Require(AdminRole, caller).Err? ==> o == Outcome([], Err(Require(AdminRole, caller).error))
    ensures Require(AdminRole, caller).Ok? && role != "user" && role != "admin" ==> o == Outcome([], Err(RoleInvalid))
    ensures (Require(AdminRole, caller).Ok? && (role == "user" || role == "admin") && idp.usernameTaken)
              ==> o == Outcome([FindByUsername(data.username)], Err(UsernameExists))
    ensures (Require(AdminRole, caller).Ok? && (role == "user" || role == "admin") && !idp.usernameTaken && idp.emailTaken)
              ==> o == Outcome([FindByUsername(data.username), FindByEmail(data.email)], Err(EmailExists))
    ensures (Require(AdminRole, caller).Ok? && (role == "user" || role == "admin") && !idp.usernameTaken
             && !idp.emailTaken && "username" in caller && idp.created.Err?)
              ==> o.result == Err(ProviderRefused(idp.created.error))
    ensures o.result.Ok? <==> Require(AdminRole, caller).Ok? && (role == "user" || role == "admin")
                              && !idp.usernameTaken && !idp.emailTaken && "username" in caller
                              && idp.created.Ok? && idp.createdInfo.Some?
                              && "id" in idp.createdInfo.value && "username" in idp.createdInfo.value
                              && "email" in idp.createdInfo.value
    ensures o.result.Ok? ==>
              o.calls == [FindByUsername(data.username), FindByEmail(data.email),
                          CreateAccount(CreatePayload(data, role, caller["username"])), GetInfo(idp.created.value)]
              && o.result.value.id == idp.createdInfo.value["id"]
              && o.result.value.username == idp.createdInfo.value["username"]
              && o.result.value.email == idp.createdInfo.value["email"]
  {
    match Require(AdminRole, caller)
    case Err(e) => Outcome([], Err(e))
    case Ok(_) =>
      var lookups := [FindByUsername(data.username), FindByEmail(data.email)];
      if role != "user" && role != "admin" then Outcome([], Err(RoleInvalid))
      else if idp.usernameTaken then Outcome(lookups[..1], Err(UsernameExists))
      else if idp.emailTaken then Outcome(lookups, Err(EmailExists))
      else if "username" !in caller then Outcome(lookups, Err(CreateFailed))
      else
        var payload := CreatePayload(data, role, caller["username"]);
        match idp.created
        case Err(message) => Outcome(lookups + [CreateAccount(payload)], Err(ProviderRefused(message)))
        case Ok(id) =>
          var calls := lookups + [CreateAccount(payload), GetInfo(id)];
          match idp.createdInfo
          case None => Outcome(calls, Err(CreatedNotFound))
          case Some(u) =>
            if "id" !in u || "username" !in u || "email" !in u then Outcome(calls, Err(CreateFailed))
            else Outcome(calls, Ok(InfoView(u)))
  }

  /** Where the intended handler answers, the handler as written has answered 500
      after at most the two lookups, which are a prefix of the intended calls; an
      unknown role is a 400 as intended and a 500 as written. */
  lemma CreateUserAsWrittenNeverCreates(caller: Dict, data: UserCreate, role: string, idp: IdpAnswers)
    requires Require(AdminRole, caller).Ok?
    ensures CreateUserAsWritten(caller, data, role, idp).calls <= CreateUser(caller, data, role, idp).calls
    ensures CreateUser(caller, data, role, idp).result.Ok? ==>
              CreateUserAsWritten(caller, data, role, idp)
              == Outcome(CreateUser(caller, data, role, idp).calls[..2], Err(CreateFailed))
    ensures role != "user" && role != "admin" ==>
              CreateUser(caller, data, role, idp).result == Err(RoleInvalid)
              && CreateUserAsWritten(caller, data, role, idp).result == Err(CreateFailed)
  {
  }

  // ---------------------------------------------------------------------------
  // list_users

  const ListFailed := HttpError(500, "Failed to list users")

  /** `user.get("attributes", {}).get("role", ["user"])[0]`; `None` when that
      expression raises (attributes not an object, an empty or unindexable role). */
  function UserRole(u: Dict): Option<Json> {
    match GetOr(u, "attributes", JObj(map[]))
    case JObj(attrs) =>
      (match GetOr(attrs, "role", JArr([JStr("user")]))
       case JArr(items) => if items == [] then None else Some(items[0])
       case JStr(s) => if s == "" then None else Some(JStr([s[0]]))
       case _ => None)
    case _ => None
  }

  /** The role filter: no filter (`None` or `""`) keeps everyone, otherwise the
      user's first role must equal it. */
  predicate KeepUser(role: Option<string>, u: Dict) {
    !Truthy(role) || (UserRole(u).Some? && UserRole(u).value == JStr(role.value))
  }

  /** A listed user can be projected: its role expression evaluates and, when it
      is kept, it has the mandatory `id` and `username`. */
  predicate Listable(role: Option<string>, u: Dict) {
    UserRole(u).Some? && (KeepUser(role, u) ==> "id" in u && "username" in u)
  }

  function ListView(u: Dict): UserView
    requires "id" in u && "username" in u
  {
    UserView(u["id"], u["username"], GetOr(u, "email", JStr("")),
             GetOr(u, "firstName", JStr("")), GetOr(u, "lastName", JStr("")),
             GetOr(u, "emailVerified", JBool(false)), GetOr(u, "enabled", JBool(true)))
  }

  function ViewAll(us: seq<Dict>): seq<UserView>
    requires forall i | 0 <= i < |us| :: "id" in us[i] && "username" in us[i]
  {
    if us == [] then [] else [ListView(us[0])] + ViewAll(us[1..])
  }

  /** The loop of `list_users` over the page the provider returned. The role of
      every user is read before the filter is consulted, so one user with an empty
      role list fails the whole listing even when no filter is given. */
  function ListUsers(users: seq<Dict>, role: Option<string>): (r: Result<seq<UserView>, HttpError>)
    ensures r.Ok? <==> forall i | 0 <= i < |users| :: Listable(role, users[i])
    ensures r.Err? ==> r.error == ListFailed
    ensures r.Ok? ==> var kept := Filter(users, u => KeepUser(role, u));
                      (forall i | 0 <= i < |kept| :: "id" in kept[i] && "username" in kept[i])
                      && r.value == ViewAll(kept)
  {
    if users == [] then Ok([])
    else
      var u := users[0];
      var rest := ListUsers(users[1..], role);
      if UserRole(u).None? then Err(ListFailed)
      else if !KeepUser(role, u) then rest
      else if "id" !in u || "username" !in u then Err(ListFailed)
      else if rest.Err? then rest
      else Ok([ListView(u)] + rest.value)
  }

  /** Without a role filter every listed user is returned. */
  lemma ListUsersWithoutFilterKeepsAll(users: seq<Dict>, role: Option<string>)
    requires !Truthy(role)
    requires ListUsers(users, role).Ok?
    ensures |ListUsers(users, role).value| == |users|
  {
    var p := (u: Dict) => KeepUser(role, u);
    assert Filter(users, p) == users by {
      FilterKeepsAll(users, p);
    }
    ViewAllLength(users);
  }

  lemma {:induction false} FilterKeepsAll<T>(s: seq<T>, p: T -> bool)
    requires forall i | 0 <= i < |s| :: p(s[i])
    ensures Filter(s, p) == s
  {
    if s != [] {
      FilterKeepsAll(s[1..], p);
    }
  }

  lemma {:induction false} ViewAllLength(us: seq<Dict>)
    requires forall i | 0 <= i < |us| :: "id" in us[i] && "username" in us[i]
    ensures |ViewAll(us)| == |us|
  {
    if us != [] {
      ViewAllLength(us[1..]);
    }
  }

  /** `list_users` as written: every kept user is turned into a `UserResponse`,
      which never validates, and `except Exception` turns that into 500. Only a
      page from which the filter keeps nobody is answered, with an empty list. */
  function ListUsersAsWritten(users: seq<Dict>, role: Option<string>): (r: Result<seq<UserView>, HttpError>)
    ensures r.Ok? ==> r.value == []
    ensures r.Err? ==> r.error == ListFailed
  {
    match ListUsers(users, role)
    case Err(e) => Err(e)
    case Ok(views) =>
      ResponsesValidateOnlyWhenEmpty(views);
      if forall i | 0 <= i < |views| :: ResponseValidates(ResponseKwargs(views[i])) then Ok(views)
      else Err(ListFailed)
  }

  lemma ResponsesValidateOnlyWhenEmpty(views: seq<UserView>)
    ensures (forall i | 0 <= i < |views| :: ResponseValidates(ResponseKwargs(views[i]))) ==> views == []
  {
    if views != [] {
      ResponseNeverValidates(views[0]);
    }
  }

  /** The intended listing is empty exactly when every role evaluates and the
      filter keeps nobody. */
  lemma {:induction false} ListUsersEmptyIffNoneKept(users: seq<Dict>, role: Option<string>)
    ensures ListUsers(users, role) == Ok([]) <==>
            forall i | 0 <= i < |users| :: UserRole(users[i]).Some? && !KeepUser(role, users[i])
  {
    if users != [] {
      ListUsersEmptyIffNoneKept(users[1..], role);
      assert forall i | 1 <= i < |users| :: users[i] == users[1..][i - 1];
    }
  }

  /** As written, a listing is answered only where the intended one is empty, that
      is, where the filter keeps nobody; an unfiltered non-empty page is always a 500. */
  lemma ListUsersAsWrittenAnswersOnlyEmpty(users: seq<Dict>, role: Option<string>)
    ensures ListUsersAsWritten(users, role).Ok? <==> ListUsers(users, role) == Ok([])
    ensures ListUsersAsWritten(users, role).Ok? <==>
            forall i | 0 <= i < |users| :: UserRole(users[i]).Some? && !KeepUser(role, users[i])
    ensures !Truthy(role) && users != [] ==> ListUsersAsWritten(users, role) == Err(ListFailed)
  {
    ListUsersEmptyIffNoneKept(users, role);
    var r := ListUsers(users, role);
    if r.Ok? && r.value != [] {
      ResponseNeverValidates(r.value[0]);
    }
    if !Truthy(role) && users != [] {
      assert KeepUser(role, users[0]);
    }
  }

  // ---------------------------------------------------------------------------
  // get_user / update_user access rule

  /** The result of the access test: `Some(b)` when it evaluates, `None` when it
      raises (no `keycloak_id`, or roles `in` cannot search). The caller's own id
      is compared first; the roles are only consulted for someone else's profile. */
  function AccessAllowed(caller: Dict, target: string): Option<bool> {
    if "keycloak_id" !in caller then None
    else if caller["keycloak_id"] == JStr(target) then Some(true)
    else RoleIn("admin", GetOr(caller, "roles", JArr([])))
  }

  /** For a caller record of the shape `verify_token` builds, access is granted
      exactly for the caller's own profile or to an administrator. */
  lemma AccessRuleOnTokenUser(caller: Dict, target: string, roles: seq<Json>)
    requires "keycloak_id" in caller && GetOr(caller, "roles", JArr([])) == JArr(roles)
    ensures AccessAllowed(caller, target) == Some(caller["keycloak_id"] == JStr(target) || JStr("admin") in roles)
  {
  }

  const AccessDenied := HttpError(403, "Not authorized to access this user")
  const UserNotFound := HttpError(404, "User not found")

  /** `get_user`: the access rule, then the provider lookup (`info`, `None` when it
      fails); a failure after the access rule is a 404. */
  function GetUser(caller: Dict, target: string, info: Option<Dict>): (r: Result<UserView, HttpError>)
    ensures AccessAllowed(caller, target) == Some(false) <==> r == Err(AccessDenied)
    ensures r.Ok? <==> AccessAllowed(caller, target) == Some(true) && info.Some?
                       && "id" in info.value && "username" in info.value && "email" in info.value
    ensures r.Ok? ==> r.value.id == info.value["id"] && r.value.username == info.value["username"]
                      && r.value.email == info.value["email"]
    ensures r.Err? && r.error != AccessDenied ==> r.error == UserNotFound
  {
    match AccessAllowed(caller, target)
    case None => Err(UserNotFound)
    case Some(false) => Err(AccessDenied)
    case Some(true) =>
      if info.None? then Err(UserNotFound)
      else
        var u := info.value;
        if "id" !in u || "username" !in u || "email" !in u then Err(UserNotFound)
        else Ok(InfoView(u))
  }

  /** `get_user` as written: the `UserResponse` it builds never validates and the
      generic `except Exception` answers 404, so only the 403 of the access rule
      differs from "User not found". */
  function GetUserAsWritten(caller: Dict, target: string, info: Option<Dict>): (r: Result<UserView, HttpError>)
    ensures r == if AccessAllowed(caller, target) == Some(false) then Err(AccessDenied) else Err(UserNotFound)
  {
    match GetUser(caller, target, info)
    case Err(e) => Err(e)
    case Ok(v) =>
      ResponseNeverValidates(v);
      if ResponseValidates(ResponseKwargs(v)) then Ok(v) else Err(UserNotFound)
  }

  const UpdateDenied := HttpError(403, "Not authorized to update this user")
  const UpdateFailed := HttpError(404, "Failed to update user")

  function SuppliedJson(s: Supplied<Option<string>>): Json
    requires s.Given?
  {
    if s.v.Some? then JStr(s.v.value) else JNull
  }

  /** The update document: `firstName` and `lastName` for the fields given in the
      request (possibly `null`), and the current e-mail kept when it is truthy.
      The request has no e-mail field, and department, licence and NPI are never sent. */
  function UpdatePayload(upd: UserUpdate, current: Dict): (p: Dict)
    ensures "firstName" in p <==> upd.firstName.Given?
    ensures "lastName" in p <==> upd.lastName.Given?
    ensures upd.firstName.Given? ==> p["firstName"] == SuppliedJson(upd.firstName)
    ensures upd.lastName.Given? ==> p["lastName"] == SuppliedJson(upd.lastName)
    ensures "email" in p <==> JsonTruthy(GetOr(current, "email", JNull))
    ensures "email" in p ==> p["email"] == current["email"]
    ensures p.Keys <= {"firstName", "lastName", "email"}
  {
    var p1: Dict := if upd.firstName.Given? then map["firstName" := SuppliedJson(upd.firstName)] else map[];
    var p2 := if upd.lastName.Given? then p1["lastName" := SuppliedJson(upd.lastName)] else p1;
    if JsonTruthy(GetOr(current, "email", JNull)) then p2["email" := current["email"]] else p2
  }

  /** `update_user`: the same access rule as reading (with its own message); then
      the current account is fetched (`current`, `None` when fetching fails), the
      update sent (`updated` tells whether the provider accepted it) and the
      account fetched again (`after`). Every failure after the access rule is a 404. */
  function UpdateUser(caller: Dict, target: string, upd: UserUpdate,
                      current: Option<Dict>, updated: bool, after: Option<Dict>)
    : (o: Outcome<UserView>)
    ensures AccessAllowed(caller, target) == Some(false) <==> o == Outcome([], Err(UpdateDenied))
    ensures AccessAllowed(caller, target) != Some(true) ==> o.calls == []
    ensures AccessAllowed(caller, target) == Some(true) ==> |o.calls| >= 1 && o.calls[0] == GetInfo(target)
    ensures AccessAllowed(caller, target) == Some(true) && current.Some? ==>
              |o.calls| >= 2 && o.calls[1] == UpdateAccount(target, UpdatePayload(upd, current.value))
    ensures AccessAllowed(caller, target) == Some(true) && current.Some? && updated ==>
              o.calls == [GetInfo(target), UpdateAccount(target, UpdatePayload(upd, current.value)), GetInfo(target)]
    ensures o.result.Ok? <==> AccessAllowed(caller, target) == Some(true) && current.Some? && updated && after.Some?
    ensures o.result.Ok? ==> o.result.value.id == GetOr(after.value, "id", JStr(""))
                             && o.result.value.firstName == GetOr(after.value, "firstName", JStr(""))
                             && o.result.value.lastName == GetOr(after.value, "lastName", JStr(""))
    ensures o.result.Err? && o.result.error != UpdateDenied ==> o.result.error == UpdateFailed
  {
    match AccessAllowed(caller, target)
    case None => Outcome([], Err(UpdateFailed))
    case Some(false) => Outcome([], Err(UpdateDenied))
    case Some(true) =>
      if current.None? then Outcome([GetInfo(target)], Err(UpdateFailed))
      else
        var sent := [GetInfo(target), UpdateAccount(target, UpdatePayload(upd, current.value))];
        if !updated then Outcome(sent, Err(UpdateFailed))
        else
          var calls := sent + [GetInfo(target)];
          if after.None? then Outcome(calls, Err(UpdateFailed))
          else
            var u := after.value;
            Outcome(calls, Ok(UserView(
              GetOr(u, "id", JStr("")), GetOr(u, "username", JStr("")), GetOr(u, "email", JStr("")),
              GetOr(u, "firstName", JStr("")), GetOr(u, "lastName", JStr("")),
              GetOr(u, "emailVerified", JBool(true)), GetOr(u, "enabled", JBool(true)))))
  }

  /** `update_user` as written: the same calls, so the update is sent, but the
      `UserResponse` it then builds never validates and the handler answers 404. */
  function UpdateUserAsWritten(caller: Dict, target: string, upd: UserUpdate,
                               current: Option<Dict>, updated: bool, after: Option<Dict>)
    : (o: Outcome<UserView>)
    ensures o.result == if AccessAllowed(caller, target) == Some(false) then Err(UpdateDenied) else Err(UpdateFailed)
  {
    var intended := UpdateUser(caller, target, upd, current, updated, after);
    match intended.result
    case Err(_) => intended
    case Ok(v) =>
      ResponseNeverValidates(v);
      Outcome(intended.calls, if ResponseValidates(ResponseKwargs(v)) then Ok(v) else Err(UpdateFailed))
  }

  /** Where the intended update answers with the account, the handler as written
      has made the same three calls, the update included, and answers 404. */
  lemma UpdateUserAsWrittenFailsAfterSending(caller: Dict, target: string, upd: UserUpdate,
                                             current: Dict, after: Dict)
    requires AccessAllowed(caller, target) == Some(true)
    ensures UpdateUser(caller, target, upd, Some(current), true, Some(after)).result.Ok?
    ensures UpdateUserAsWritten(caller, target, upd, Some(current), true, Some(after))
            == Outcome([GetInfo(target), UpdateAccount(target, UpdatePayload(upd, current)), GetInfo(target)],
                       Err(UpdateFailed))
  {
  }

  /** Reading and updating a profile are refused to exactly the same callers,
      as intended and as written. */
  lemma ReadAndUpdateShareAccessRule(caller: Dict, target: string, info: Option<Dict>, upd: UserUpdate,
                                      current: Option<Dict>, updated: bool, after: Option<Dict>)
    ensures GetUser(caller, target, info) == Err(AccessDenied) <==>
            UpdateUser(caller, target, upd, current, updated, after).result == Err(UpdateDenied)
    ensures GetUserAsWritten(caller, target, info) == Err(AccessDenied) <==>
            UpdateUserAsWritten(caller, target, upd, current, updated, after).result == Err(UpdateDenied)
  {
  }

  // ---------------------------------------------------------------------------
  // activate_user / deactivate_user

  /** The document `activate_user` (`enable`) or `deactivate_user` (`!enable`)
      sends: the enabled flag, and who changed it and when. */
  function ActivationPayload(enable: bool, actor: Json, now: nat): (p: Dict)
    ensures p.Keys == {"enabled", "attributes"} && p["enabled"] == JBool(enable)
    ensures p["attributes"].JObj?
    ensures enable ==> p["attributes"].fields.Keys == {"activated_by", "activated_at"}
    ensures !enable ==> p["attributes"].fields.Keys == {"deactivated_by", "deactivated_at"}
  {
    var attrs := if enable
      then map["activated_by" := JArr([actor]), "activated_at" := JArr([JTime(now)])]
      else map["deactivated_by" := JArr([actor]), "deactivated_at" := JArr([JTime(now)])];
    map["enabled" := JBool(enable), "attributes" := JObj(attrs)]
  }

  /** `activate_user` / `deactivate_user`: administrators only; the update is sent
      with the flag set (`accepted` is the provider's verdict) and any failure is a 500. */
  function SetEnabled(caller: Dict, target: string, enable: bool, now: nat, accepted: bool)
    : (o: Outcome<string>)
    ensures Require(AdminRole, caller).Err? ==> o.calls == [] && o.result == Err(Require(AdminRole, caller).error)
    ensures Require(AdminRole, caller).Ok? && "username" in caller ==>
              o.calls == [UpdateAccount(target, ActivationPayload(enable, caller["username"], now))]
    ensures o.result.Ok? <==> Require(AdminRole, caller).Ok? && "username" in caller && accepted
    ensures o.result.Ok? ==>
              o.result.value == (if enable then "User activated successfully" else "User deactivated successfully")
  {
    match Require(AdminRole, caller)
    case Err(e) => Outcome([], Err(e))
    case Ok(_) =>
      var failed := if enable then HttpError(500, "Failed to activate user")
                    else HttpError(500, "Failed to deactivate user");
      if "username" !in caller then Outcome([], Err(failed))
      else
        var calls := [UpdateAccount(target, ActivationPayload(enable, caller["username"], now))];
        if !accepted then Outcome(calls, Err(failed))
        else Outcome(calls, Ok(if enable then "User activated successfully" else "User deactivated successfully"))
  }

  /** Deactivating and then activating sends two documents that differ in the flag:
      the account ends up enabled again. */
  lemma DeactivateThenActivate(caller: Dict, target: string, t1: nat, t2: nat)
    requires Require(AdminRole, caller).Ok? && "username" in caller
    ensures var d := SetEnabled(caller, target, false, t1, true).calls;
            var a := SetEnabled(caller, target, true, t2, true).calls;
            |d| == 1 && |a| == 1
            && d[0].payload["enabled"] == JBool(false) && a[0].payload["enabled"] == JBool(true)
  {
  }
}
